=== FILE: README.md ===
# PSL fantasy cricket: a Dafny model of the game core

This project models the core of a Pakistan Super League fantasy cricket application. It is a
Node/Express API over MongoDB with a React client, and the model covers:

- **Scoring.** The points a player earns for a match. The simulate route recomputes every
  squad's total with the captain (2x) and vice-captain (1.5x) multipliers, then ranks the
  squads of the match by position.
- **Performance records.** One record per (match, player), upserted by the simulate route.
- **Squads** (`UserTeam`). Created by `POST /api/teams` with its count check and the schema's
  defaults and validator; found per match and user; listed per user.
- **Private leagues.** Created with a trimmed name and a unique code, joined with the route's
  four refusals, and shown with a leaderboard sorted stably by total and ranked by position.
- **Tournaments.** Matches are appended. The season leaderboard is an aggregation pipeline:
  `$match`, `$group`, `$sort`, `$limit` 100, `$lookup`/`$unwind`, `$project`.
- **Users.** Registration and login with the username and email normalised, and the profile
  update. The allowed client origins are parsed from the environment.
- **The client's URL helpers** (`frontend/src/lib/api.js`).
- **The team builder page** as a state machine. Its actions are picking players, naming
  roles, Next, Back and Save. It keeps the budget (100 credits), the 11-player limit and
  the captain/vice-captain rules.
- **The mock draft page** as a state machine. The user and three bots pick in a fixed order.

Units:

- Points are kept in half-points, because the vice-captain multiplier yields halves.
- Credits are kept in half-credits, because the catalogue prices in steps of 0.5.

The database is a sequence of documents. Each route is a pure function from the stored
documents and the request to a `Result`, an HTTP status with a message or a value.

Every source of nondeterminism is a parameter:

- the generated match figures;
- the league code;
- the bot's random index;
- the current time;
- the tie order of the database's sorts.

A database sort is any permutation that is sorted by the key. Where the source relies on a
sort, the contracts speak of every such order (`IsDescOrdering`, `IsTopDesc`). The
exception is the league leaderboard. That sort runs in JavaScript, and
`Array.prototype.sort` is stable.

Modules, one per file:

| file | module | concern |
|---|---|---|
| `results.dfy` | `Results` | `Option`, `Result`, and the truthiness of request fields |
| `seqs.dfy` | `Seqs` | sums, filters, distinctness |
| `sorting.dfy` | `Sorting` | stable descending insertion sort, sortedness, top-k |
| `strings.dfy` | `Strings` | trimming, ASCII lower-casing, split/join, decimal text |
| `scoring.dfy` | `Scoring` | points and the squad total |
| `performances.dfy` | `Performances` | the `MatchPlayerScore` upserts |
| `squads.dfy` | `Squads` | `UserTeam` and the squad routes |
| `matches.dfy` | `Matches` | simulate and the match leaderboard |
| `leagues.dfy` | `Leagues` | league routes |
| `tournaments.dfy` | `Tournaments` | tournament routes |
| `users.dfy` | `Users` | user routes and client origins |
| `api.dfy` | `Api` | client URL helpers |
| `roster.dfy` | `Roster` | client player lists and removal by id |
| `teambuilder.dfy` | `TeamBuilder` | the team builder page |
| `mockdraft.dfy` | `MockDraft` | the mock draft page |

## Model

| member | source | states |
|---|---|---|
| Scoring.Points | backend/routes/matches.js:57-59 | A performance scores 0 exactly when it has no runs, wickets or catches. It scores at least its runs, at least 25 per wicket and at least 8 per catch. |
| Scoring.PointsWeights | backend/routes/matches.js:57-59 | The weights of the rule: one more run adds exactly 1 point, one more wicket exactly 25, one more catch exactly 8, and no figures score 0. |
| Scoring.PointsAdditive | backend/routes/matches.js:57-59 | Points are linear: two spells of play score what their combined figures score. |
| Scoring.ScoreMap | backend/routes/matches.js:32-60 | A player is in the score map exactly when the input lists them. Their points are those of the last entry for them. |
| Scoring.LatestSnoc | backend/routes/matches.js:60 | A later entry for a player overrides an earlier one, and entries for others leave the player alone. |
| Scoring.RosterHalfPoints | backend/routes/matches.js:84-99 | A roster's multiplied total lies between 1x and 2x its unmultiplied total. |
| Scoring.RosterBonuses | backend/routes/matches.js:89-96 | The multiplied total is the plain sum plus one bonus per roster entry of the captain (a full extra share) and per entry of the vice-captain (a half share). A player named both gets only the captain's bonus. |
| Scoring.RosterPermutation | backend/routes/matches.js:87-99 | The squad total does not depend on the order of the roster. |
| Scoring.RosterAppend | backend/routes/matches.js:84-99 | The total of a concatenated roster is the sum of the parts' totals. |
| Scoring.AbsentPlayerAddsNothing | backend/routes/matches.js:89 | A roster entry with no score (`get(id) \|\| 0`) adds nothing to the total. |
| Scoring.RosterUnscored | backend/routes/matches.js:89 | A roster none of whose players was scored totals 0. |
| Scoring.RosterDependsOnDesignation | backend/routes/matches.js:92-96 | A squad's total depends on the squad only through its captain and vice-captain, so stored points and rank do not feed back. |
| Scoring.RosterIsSum | backend/routes/matches.js:84-99 | The recursive total equals the generic sum of per-entry multiplied points. |
| Scoring.CaptainAndViceExample | backend/routes/matches.js:92-96 | A captain on 50 and a vice-captain on 20 with nine scoreless players give 130 points. |
| Performances.NewRecord | backend/models/MatchPlayerScore.js:4-17 | A record created from its key alone has all figures 0, and its points agree with the scoring rule. |
| Performances.Lookup | backend/models/MatchPlayerScore.js:23 | Lookup by (match, player) finds a stored record with that key, and finds none exactly when no record has it. |
| Performances.LookupUnique | backend/models/MatchPlayerScore.js:23 | Under the unique index, lookup by a stored record's key returns that record. |
| Performances.Upsert | backend/routes/matches.js:62-75 | An upsert keeps the index unique. It adds a record exactly when the key was absent, and otherwise keeps the count. |
| Performances.UpsertLookup | backend/routes/matches.js:62-75 | After an upsert, its key holds the new document and every other key holds what it held. |
| Performances.UpsertAll | backend/routes/matches.js:79 | The bulk write keeps the (match, player) index unique. |
| Performances.UpsertAllLookup | backend/routes/matches.js:62-79 | After the bulk write, each player of the run holds the record of its last entry, and every other key is unchanged. |
| Performances.UpsertAllPresent | backend/routes/matches.js:62-79 | A bulk write whose keys are all stored adds no record. |
| Performances.RerunReplaces | backend/routes/matches.js:62-79 | Rerunning the same bulk write adds nothing and leaves every key's record as the first run left it. |
| Matches.Rescore | backend/routes/matches.js:82-103 | Every squad of the match gets its total recomputed from the scores, overwriting the old one. Other squads and all other fields are untouched, and nothing moves. |
| Matches.RescoreIdempotent | backend/routes/matches.js:101 | Totals are overwritten, not accumulated: rescoring twice from the same scores equals rescoring once. |
| Matches.RankByOrder | backend/routes/matches.js:106-110 | Ranking changes only the rank of squads of the match. |
| Matches.RankByOrderFacts | backend/routes/matches.js:106-110 | For any order the sorted query may return, each squad of the match gets a rank in 1..n, and sits at that position in the order. |
| Matches.RankByOrderPositional | backend/routes/matches.js:106-110 | For any admissible tie order, ranks are positional: ranks lie in 1..n, every rank is taken, no two squads share one, and a higher total means a better rank. |
| Matches.RankByOrderConsistent | backend/routes/matches.js:106-110 | A squad with more points always ranks ahead of one with fewer. |
| Matches.RankByOrderOnto | backend/routes/matches.js:106-110 | Every rank from 1 to the number of squads of the match is held by some squad. |
| Matches.RescoreThenRank | backend/routes/matches.js:82-110 | Rescoring and then ranking by any admissible order of the rescored squads yields the promised standings. |
| Matches.Simulate | backend/routes/matches.js:24-112 | After simulation, the performance records are the bulk write's and the reported count is the number of squads of the match. The squads satisfy the standings: ids kept, other matches untouched, recomputed totals, positional ranks. |
| Matches.SimulateRerun | backend/routes/matches.js:62-112 | A rerun with the same figures reproduces every total and every performance record, and adds no record. |
| Matches.ForMatchSize | backend/routes/matches.js:82 | Rewriting squads in place without changing their match keeps the number of squads per match. |
| Matches.MatchLeaderboard | backend/routes/matches.js:123-132 | The match leaderboard holds min(50, n) squads, all of the match, best first. No squad left out has more points than one listed. |
| Squads.ForMatch | backend/routes/matches.js:82 | `find({ match })` returns exactly the squads of that match, each once as stored. |
| Squads.OwnedBy | backend/routes/userTeams.js:60 | `find({ user })` returns exactly the user's squads, each once as stored. |
| Squads.NewSquadDefaults | backend/models/UserTeam.js:14-51 | A new squad starts with 0 points, rank 0 and both flags false, and without a name gets "Team " and the creation time. A roster longer than 11 never passes the schema. |
| Squads.CreateSquad | backend/routes/userTeams.js:10-33 | A missing roster or one of a size other than 11 is refused with the size message. A request is accepted exactly when it also carries user, match, captain and vice-captain, and every refusal is a 400. An accepted squad stores the request's fields, with 0 points and rank 0. |
| Squads.FindSquad | backend/routes/userTeams.js:38-53 | A found squad is a stored squad of that match and user. The lookup fails with 404 "Team not found" exactly when none exists. |
| Squads.UserSquads | backend/routes/userTeams.js:58-70 | A user's squads are exactly theirs, newest first, in any tie order. |
| Leagues.CreateLeague | backend/routes/leagues.js:14-43 | A missing name, owner or match is a 400. A league is saved exactly when its trimmed name and code are non-empty and the code is new. A saved league has the trimmed name and code (non-empty, without edge white space), the owner and match, and no participants. |
| Leagues.CreatePaddedCode | backend/models/League.js:9-14 | A clean code sent with white space around it is stored bare. |
| Leagues.CreateKeepsInvariants | backend/models/League.js:9-14 | Saving a new league keeps league codes unique, and the new league starts well formed. |
| Leagues.SquadById | backend/routes/leagues.js:80 | `UserTeam.findById`: a squad with that id from the collection, or none exactly when no squad has it. |
| Leagues.FindLeague | backend/routes/leagues.js:119 | `League.findById`: the position of a league with that id, or none exactly when no league has it. |
| Leagues.FindCode | backend/routes/leagues.js:72 | `findOne({ code })` finds the first league with the code, or none exactly when no league has it. |
| Leagues.Join | backend/routes/leagues.js:64-95 | The presence check sees the code as sent, and the lookup sees it trimmed, as the schema's `trim` setter applies to the query filter. The refusals come in the route's order: missing fields (400), unknown trimmed code (404), already joined (400), squad missing or for another match (400). Each holds exactly in its case, and a request that passes all four checks is accepted. A successful join appends one participant and changes nothing else. |
| Leagues.JoinPaddedCode | backend/routes/leagues.js:72 | A code sent with white space around it is answered exactly as the bare code is. |
| Leagues.JoinFindsStored | backend/routes/leagues.js:72-73 | A code that trims to a stored code never gets the 404. |
| Leagues.JoinSameLookup | backend/routes/leagues.js:64-95 | Two requests for the same user and squad whose codes trim alike get the same answer. |
| Leagues.JoinKeepsWellFormed | backend/routes/leagues.js:76-90 | Joining keeps a league well formed: every participant's squad exists and is for the league's match, and nobody appears twice. |
| Leagues.JoinTwiceRefused | backend/routes/leagues.js:76-77 | After a successful join, the same user joining again is refused as a repeat, whatever squad they name. |
| Leagues.ProjectRows | backend/routes/leagues.js:131-138 | Each participant maps to one row with their username, squad name, total and rank 0. A participant whose user or squad is gone makes the route fail with 500. |
| Leagues.AssignRanks | backend/routes/leagues.js:142 | Ranks are positions plus one, and nothing else changes. |
| Leagues.LeagueLeaderboard | backend/routes/leagues.js:117-148 | An unknown league gives 404. For a known league the route succeeds exactly when every participant's squad can be projected, and otherwise answers 500. The rows are one per participant, sorted by total with the best first, and ranked 1, 2, 3 by position. They are a permutation of the projected rows that keeps joining order among equal totals. |
| Leagues.LeaderboardFacts | backend/routes/leagues.js:139-142 | Ranking by position keeps the sorted order. Without ranks, the rows are the stable sort of the projection. |
| Leagues.LeaderboardOrderUnique | backend/routes/leagues.js:139 | The leaderboard order is the only sorted arrangement of the rows that keeps joining order among ties. |
| Tournaments.FindTournament | backend/routes/tournaments.js:35 | Lookup by id finds the tournament with that id, or none exactly when none exists. |
| Tournaments.AddMatches | backend/routes/tournaments.js:33-46 | An unknown tournament gives 404, a missing id list gives 500, and no other error is possible. Otherwise the ids are appended in order, repeats included, and nothing else changes. |
| Tournaments.Qualifying | backend/routes/tournaments.js:52-59 | Exactly the squads of a listed match that still exists qualify, each once as stored. |
| Tournaments.GroupByUser | backend/routes/tournaments.js:60-66 | There is exactly one group per user with a qualifying squad, holding that user's summed points and number of squads. |
| Tournaments.AddSquadFacts | backend/routes/tournaments.js:60-66 | Folding one more squad into the groups keeps the grouping faithful. |
| Tournaments.UserCountZero | backend/routes/tournaments.js:60-66 | A user without a group has no qualifying squad and no points. |
| Tournaments.KnownUsers | backend/routes/tournaments.js:69-77 | The `$unwind` drops exactly the groups whose user no longer exists, and keeps the order. |
| Tournaments.AttachUsers | backend/routes/tournaments.js:69-84 | Each kept group becomes a row with the user's name, sum and count. |
| Tournaments.SeasonLeaderboard | backend/routes/tournaments.js:50-91 | An unknown tournament gives 404. Otherwise there are at most 100 rows, best first, one per existing user. Each row carries that user's sum and count over the qualifying squads. Nobody left out scored more than anyone listed, and with at most 100 groups everyone is listed. The rows are exactly the best min(100, groups) groups in some tie order, joined with their users only after the cut, so a user deleted from the top groups shortens the list rather than letting a lower group in. |
| Tournaments.SeasonFacts | backend/routes/tournaments.js:67-84 | For any tie order of `$sort`, the limited and joined rows are faithful and complete, and they are the best min(100, groups) groups cut before the user join. |
| Tournaments.LimitThenJoin | backend/routes/tournaments.js:67-77 | `$limit` before `$lookup`/`$unwind`: the rows are the best min(100, groups) groups, joined with their users. So there are at most 100 of them, and no more than the groups. |
| Tournaments.LimitThenJoinAt | backend/routes/tournaments.js:67-84 | Any best-first top of min(100, groups) groups, joined with the users, is a leaderboard the limit-then-join pipeline can produce. |
| Tournaments.SeasonRowsFaithful | backend/routes/tournaments.js:67-84 | The top groups, joined with their users, are sorted, distinct per user and carry each user's sum and count. |
| Tournaments.SeasonRowsListed | backend/routes/tournaments.js:67-68 | An existing user with a qualifying squad is either listed or scored no more than every listed row. |
| Tournaments.GroupListedOrOutscored | backend/routes/tournaments.js:67-68 | A group of an existing user is listed, or every listed row scores at least as much. |
| Tournaments.SeasonAllListed | backend/routes/tournaments.js:67-77 | When no group is cut, every existing user with a qualifying squad is listed. |
| Tournaments.TopUsersDistinct | backend/routes/tournaments.js:60-68 | Rows taken from the groups never list a user twice. |
| Tournaments.RepeatedMatchIgnored | backend/routes/tournaments.js:39 | Listing a match again does not count its squads twice. |
| Tournaments.AddKnownMatchesKeepsLeaderboard | backend/routes/tournaments.js:33-91 | Re-adding matches the tournament already lists leaves its season leaderboard unchanged. |
| Users.NormalizeUsername | backend/routes/users.js:47 | The stored username is the string with surrounding white space removed, and empty for a non-string. |
| Users.NormalizeEmail | backend/routes/users.js:48 | The normalised email is trimmed and lower-case, and empty for a non-string. |
| Users.NormalizeEmailIdempotent | backend/routes/users.js:48 | Normalising twice is normalising once, so every spelling that normalises alike finds the same account. |
| Users.NormalEmailFixed | backend/routes/users.js:48 | Normalisation leaves an email unchanged exactly when it has no edge white space and no upper-case letter. |
| Users.Register | backend/routes/users.js:45-88 | The refusals come in the route's order, all 400: missing fields, a password under 8 characters, an existing email. Each holds exactly in its case. Success stores the trimmed name, the normalised email and the password's hash. |
| Users.Login | backend/routes/users.js:93-124 | The refusals come in order, all 400: missing fields, no such user, wrong password. Success returns the stored user with that normalised email whose hash matches the password. |
| Users.RegisterThenLogin | backend/routes/users.js:45-124 | Registration keeps emails unique. The new account logs in with its password under any spelling of its email. |
| Users.RegisterTwiceRefused | backend/routes/users.js:60-61 | A second registration with an email that normalises alike is refused as existing. |
| Users.RegisterNormalizes | backend/routes/users.js:66-72 | Registration keeps every stored email in normalised form. |
| Users.FindEmail | backend/routes/users.js:103 | `User.findOne({ email })`: the position of a user with that email, or none exactly when no user has it. The register route (users.js:60) uses the same lookup. |
| Users.FindUniqueEmail | backend/routes/users.js:60 | With unique emails, looking up a stored email finds exactly its user. |
| Users.LoginFound | backend/routes/users.js:103-108 | Login succeeds for the user found when the password matches its hash. |
| Users.LoginWrongPassword | backend/routes/users.js:107-108 | Login refuses a password that does not match the found user's hash. |
| Users.LoginByStoredEmail | backend/routes/users.js:93-124 | A stored user logs in under its email with exactly the password its hash was made from, over the ideal hash. |
| Users.FindUser | backend/routes/users.js:132 | `User.findById`: the position of a user with that id, or none exactly when no user has it. |
| Users.CastToString | backend/routes/users.js:135 | The schema's String cast of an assigned username: strings are kept as they are, numbers become their decimal text (with a minus sign exactly when negative), booleans become "true" or "false", and nothing else casts. |
| Users.UpdateProfile | backend/routes/users.js:129-150 | An unknown id gives 404. A truthy username replaces the stored one as given, and a truthy password replaces the hash. Id and email never change. A value the schema cannot cast makes the save fail with 500. |
| Users.UpdatePasswordThenLogin | backend/routes/users.js:129-150 | After a profile update with a new password, that password logs in under the stored email and any other is refused, over the ideal hash. |
| Users.ReplaceSameEmail | backend/routes/users.js:141 | Saving a user with its email unchanged keeps emails unique and normalised. |
| Users.ClientOrigins | backend/routes/users.js:36-39 | Every allowed origin is non-empty, has no edge white space and contains no comma. |
| Users.ClientOriginsMembers | backend/routes/users.js:36-39 | A string is an allowed origin exactly when it is non-empty and some comma-separated part of the variable (or of the default) trims to it. |
| Users.TrimmedPartsMembers | backend/routes/users.js:37-39 | A string is kept exactly when it is non-empty and some part trims to it. |
| Users.TrimmedPartsAppend | backend/routes/users.js:37-39 | Parts keep their order: the kept parts of a concatenation are those of the first list followed by those of the second. |
| Users.ClientOriginsJoin | backend/routes/users.js:36-39 | Comma-free parts with any padding, joined with commas, read back as their non-empty trimmed parts in order. When the join is empty, the default origin applies. |
| Users.UnsetClientOrigins | backend/routes/users.js:36 | With the variable unset, the only allowed origin is `http://localhost:5173`. |
| Users.ClientOriginsRoundTrip | backend/routes/users.js:36-40 | A comma-separated list of clean origins is read back exactly, and its first origin is the primary one. |
| Users.PrimaryClientOrigin | backend/routes/users.js:40 | The primary origin is the first allowed one, or the default when there is none. It is never empty. |
| Users.TrimmedPartsKeepOut | backend/routes/users.js:37-39 | Trimming and dropping parts never introduces a character that was absent. |
| Users.TrimmedPartsClean | backend/routes/users.js:38-39 | Parts that are already clean pass through unchanged. |
| Api.SanitizeBaseUrl | frontend/src/lib/api.js:1-5 | A missing or empty value gives the default. Otherwise the result is the trimmed value, less one trailing slash exactly when it ends with one. |
| Api.SanitizeCleanBase | frontend/src/lib/api.js:1-5 | A clean base, padded with white space, reads back as itself. |
| Api.SanitizeDropsSlash | frontend/src/lib/api.js:4 | A clean base with one trailing slash reads back as the base. |
| Api.SanitizeKeepsSecondSlash | frontend/src/lib/api.js:4 | Only one trailing slash is dropped. |
| Api.DefaultApiBaseClean | frontend/src/lib/api.js:2 | The default base is itself clean. |
| Api.SocketUrl | frontend/src/lib/api.js:8 | Without a socket variable the socket URL is the API base. It is empty only when the API base is. |
| Api.SocketCleanBase | frontend/src/lib/api.js:8 | A clean socket base, padded with white space or not, is used as is, whatever the API variable holds. |
| Api.SocketBlankFallsBack | frontend/src/lib/api.js:8 | A socket variable of white space only falls back to the API base. |
| Api.SocketSlashFallsBack | frontend/src/lib/api.js:4-8 | A socket variable that is a lone slash, padded or not, sanitises to nothing and falls back to the API base. |
| Api.UnsetEnvironmentDefaults | frontend/src/lib/api.js:7-8 | With nothing configured, both URLs are the default. |
| Api.BuildApiUrl | frontend/src/lib/api.js:10-18 | An absolute http(s) URL, in any letter case, is returned as is. Otherwise the path is joined to the base with exactly one slash, added exactly when the path lacks one. A missing path is "/". |
| Api.LeadingSlashIrrelevant | frontend/src/lib/api.js:14-17 | A relative path builds to the same URL with or without a leading slash. |
| Api.BuildIdempotent | frontend/src/lib/api.js:10-18 | On an absolute base, building is idempotent: a built URL is absolute and builds to itself. |
| Strings.TrimSurrounds | backend/models/League.js:4-8 | `trim()` removes only white space, from the ends only. |
| Strings.TrimPadded | backend/models/League.js:4-8 | Trimming a clean string padded with white space gives the string back. |
| Strings.TrimIdempotent | backend/routes/users.js:47 | Trimming twice is trimming once. |
| Strings.ToLowerAsciiIdempotent | backend/routes/users.js:48 | Lower-casing twice is lower-casing once. |
| Strings.SplitJoin | backend/routes/users.js:37 | Splitting a comma-joined list of comma-free parts gives the parts back. |
| Sorting.SortDesc | backend/routes/leagues.js:139 | The sort returns a permutation of its input, sorted by descending key. |
| Sorting.SortDescStable | backend/routes/leagues.js:139 | The sort is stable: among equal keys the input order is kept. |
| Sorting.StableOrderingUnique | backend/routes/leagues.js:139 | There is exactly one stable descending arrangement of a sequence. |
| Roster.WithoutIdFacts | frontend/src/components/TeamBuilder.jsx:61 | Filtering by id removes every player with that id, keeps every other player and adds none. |
| Roster.WithoutPresentId | frontend/src/components/MockDraft.jsx:90-92 | With distinct ids, removing a listed player's id cuts out exactly that player and their credits, and keeps the others in order. |
| Roster.WithoutIdDistinct | frontend/src/components/MockDraft.jsx:90-92 | Removing players keeps ids distinct. |
| TeamBuilder.Toggle | frontend/src/components/TeamBuilder.jsx:55-76 | As written, the toggle does nothing in step 2. A selected player is removed and refunded. A new player is refused exactly when 11 are chosen or the budget would be exceeded, and is otherwise appended and charged. The roles are never touched. |
| TeamBuilder.ToggleValid | frontend/src/components/TeamBuilder.jsx:55-76 | The toggle keeps the page state valid: distinct players, at most 11, the running total equal to the sum and within 100 credits, and captain apart from vice-captain. |
| TeamBuilder.RemoveValid | frontend/src/components/TeamBuilder.jsx:60-63 | Deselecting keeps the state valid and refunds exactly the player's credits. |
| TeamBuilder.ToggleOnOff | frontend/src/components/TeamBuilder.jsx:55-76 | Adding a player and toggling them again restores the state exactly. |
| TeamBuilder.ToggleOffOn | frontend/src/components/TeamBuilder.jsx:55-76 | Removing a player and adding them back is always accepted, and restores the same players and total. |
| TeamBuilder.ToggleFixed | frontend/src/components/TeamBuilder.jsx:55-76 | The corrected toggle changes the selection as the original does. It also clears the captain or vice-captain whose player is removed. |
| TeamBuilder.ToggleFixedValid | frontend/src/components/TeamBuilder.jsx:55-76 | The corrected toggle keeps the state valid and both roles inside the selection. |
| TeamBuilder.RoleSelect | frontend/src/components/TeamBuilder.jsx:78-86 | Naming a captain makes that player captain and drops the vice-captain only if it is the same player, and the same holds the other way round. Other roles change nothing. |
| TeamBuilder.RoleSelectValid | frontend/src/components/TeamBuilder.jsx:78-86 | Naming roles keeps the state valid, and keeps roles inside the selection when the named player is selected. |
| TeamBuilder.Next | frontend/src/components/TeamBuilder.jsx:171-178 | Next reaches step 2 exactly when exactly 11 players are chosen, and changes nothing else. |
| TeamBuilder.Back | frontend/src/components/TeamBuilder.jsx:181 | Back returns to step 1 and changes nothing else. |
| TeamBuilder.Submit | frontend/src/components/TeamBuilder.jsx:88-125 | A post is made exactly when both roles are named. It carries the user, the match, the selected ids, both role ids and the name. The page resets only when the server accepts it. |
| TeamBuilder.SubmitAccepted | frontend/src/components/TeamBuilder.jsx:94-101 | The payload of a valid step 2 passes the create route. |
| TeamBuilder.SubmitPayloadSound | frontend/src/components/TeamBuilder.jsx:94-101 | When the roles lie inside the selection, the payload lists distinct players with captain and vice-captain among them and apart. |
| TeamBuilder.CaptainCanLeaveSquad | frontend/src/components/TeamBuilder.jsx:60-63 | With the toggle as written, the steps Back, deselect captain, pick a cheaper player and Next post a squad whose captain is not among its players, and the create route accepts it. |
| TeamBuilder.ApplyValid | frontend/src/components/TeamBuilder.jsx:55-125 | Every page action, with the corrected toggle, keeps the state valid, the roles inside the selection and every selected player from the catalogue. |
| TeamBuilder.RunValid | frontend/src/components/TeamBuilder.jsx:10-125 | With the corrected toggle, whatever sequence of actions the user performs, the page stays valid and every post names captain and vice-captain among its players. The page as written breaks the last part (see Findings). |
| TeamBuilder.Apply | frontend/src/components/TeamBuilder.jsx:171-185 | The page's button gating, with the corrected toggle: cards do nothing in step 2, role buttons, Back and Save do nothing in step 1, and the only way into step 2 is Next with exactly 11 players. Step 2 never changes the selection. |
| TeamBuilder.Run | frontend/src/components/TeamBuilder.jsx:171-185 | After any sequence of actions from a fresh page, with the corrected toggle, step 2 always holds exactly 11 players. |
| MockDraft.TurnIndex | frontend/src/components/MockDraft.jsx:95 | `indexOf` gives -1 exactly when it is nobody's turn, and otherwise the seat's place in the order. |
| MockDraft.StartDraft | frontend/src/components/MockDraft.jsx:54-58 | Starting runs the draft with the user to pick first, and changes nothing else. |
| MockDraft.NextTurn | frontend/src/components/MockDraft.jsx:94-103 | The turn passes to the next seat in order, wrapping to the user. The round advances exactly after the last seat, and nothing else changes. |
| MockDraft.NextTurnCycle | frontend/src/components/MockDraft.jsx:94-103 | Four turns bring the same seat back, one round later. |
| MockDraft.RemoveFromPool | frontend/src/components/MockDraft.jsx:90-92 | No player with the picked id is left in the pool, and the pool only shrinks. |
| MockDraft.UserPick | frontend/src/components/MockDraft.jsx:60-70 | Off the user's turn nothing happens. Otherwise the player joins the user's team, leaves the pool, and the turn passes to the first bot. |
| MockDraft.BotPick | frontend/src/components/MockDraft.jsx:72-88 | A bot takes the player at the random index among the first ten of the pool into its own team. The player leaves the pool, the turn passes, and an empty pool changes nothing. |
| MockDraft.Settle | frontend/src/components/MockDraft.jsx:27-32 | The draft stops exactly when the user holds 11 players. |
| MockDraft.AddToDrafted | frontend/src/components/MockDraft.jsx:64 | Adding a player to a team drafts exactly one more copy of them. |
| MockDraft.PickConserves | frontend/src/components/MockDraft.jsx:60-92 | A pick moves exactly one player from the pool to a team, and keeps pool ids distinct. |
| MockDraft.ApplyInv | frontend/src/components/MockDraft.jsx:27-130 | Every action keeps the draft invariant. Every player is in the pool or on exactly one team, team sizes follow the turn order, and the user never holds more than 11. |
| MockDraft.RunInv | frontend/src/components/MockDraft.jsx:27-130 | Whatever happens on the page, the draft invariant holds. |
| MockDraft.Apply | frontend/src/components/MockDraft.jsx:27-160 | The page's gating. No pick happens while the draft is stopped, the user picks only on their turn, the bot timer fires only on a bot's turn, and Start does nothing once the draft runs or a pick was made. A running draft always has someone to pick. |
| MockDraft.Run | frontend/src/components/MockDraft.jsx:27-160 | After any sequence of actions from a fresh pool, a running draft has a seat to pick. |
| MockDraft.InTurnFair | frontend/src/components/MockDraft.jsx:21 | The user is never behind a bot, and no seat is ever more than one player ahead of another. |
| MockDraft.RunConserves | frontend/src/components/MockDraft.jsx:60-92 | No player is lost or invented: the pool and the four teams together hold as many players as the list. |

## Left out

- Generation of match figures (`Math.random` in the simulate route), league codes, the bot's
  random index and the clock: all are parameters.
- Matches.Simulate: the figures are an input sequence, not one entry per player of the
  catalogue. The role-dependent ranges of the random figures are not modelled.
- Matches.Simulate: the per-squad `save()` calls and the bulk write are not atomic, and a
  failure part-way leaves a mix of old and new totals. The model applies them all, and a
  500 is not modelled.
- Matches.Simulate and Squads.UserSquads: the tie order of the database's sorts is left
  open. The contracts quantify over every admissible order, and the model picks the stable
  one.
- Floating point: totals and credits are integers in half units. Points are exact in halves,
  since the only fractional multiplier is 1.5. The catalogue prices in steps of 0.5.
- `populate` on every route: references are stored ids. The populated documents, and the
  selection of populated fields, are not modelled. The exception is the usernames that the
  league and tournament leaderboards read.
- The `GET /api/leagues/code/:code` and `GET /api/leagues/user/:userId` lookups: they are
  plain reads with `populate`, and the join route's `findOne({ code })` models the former's
  lookup.
- Users.Register, Users.Login and Users.UpdateProfile: bcrypt is modelled as an ideal hash
  (`Hashed(p)`, equal only for equal passwords) and salts are not modelled. JWT signing and
  the response shape with the token are left out.
- Users.LoginByStoredEmail and Users.UpdatePasswordThenLogin: "exactly the password" and "any
  other is refused" rest on the ideal hash. bcrypt reads only the first 72 UTF-8 bytes of a
  password, so two passwords that agree on those bytes log in alike. That truncation is not
  modelled.
- The forgot-password and reset-password routes, e-mail sending and the rate limiter are
  left out: they are I/O and time.
- Users.NormalizeEmail: `toLowerCase` is modelled for ASCII letters only. Unicode case
  mapping is not modelled.
- Users.Register: `password.length` is the UTF-16 length of a string, computed from code
  points. A non-string password with a `length` property is treated as having none.
- Users.UpdateProfile: Mongoose's cast of non-string usernames is modelled for numbers,
  booleans and strings only.
- backend/models/User.js is not part of this model. Uniqueness of stored emails is an
  invariant that the register route keeps, not a schema index.
- Error messages thrown by Mongoose validation and cast errors are approximate constants.
- Ids are opaque strings. Mongoose's cast of an id to an ObjectId is not modelled, so a
  malformed id never raises a CastError in the model. The members below answer as if every
  id were well formed, and their "exactly when" and "no other error" clauses hold only for
  well-formed ids:
- Leagues.Join: a malformed `userTeamId` gives 500 at `UserTeam.findById`, and a malformed
  `userId` gives 500 on save. The model answers 400 or Ok.
- Leagues.CreateLeague: a malformed `ownerId` or `matchId` gives 500 on save. The model
  answers Ok.
- Leagues.LeagueLeaderboard: a malformed league id gives 500 at `League.findById`. The model
  answers 404.
- Tournaments.AddMatches: a malformed tournament id gives 500 at `Tournament.findById`, and a
  malformed entry of `matchIds` gives 500 when pushed or saved. The model answers 404 or Ok.
- Tournaments.SeasonLeaderboard: a malformed tournament id gives 500. The model answers 404.
- Squads.CreateSquad: a malformed `user`, `match`, `captain`, `viceCaptain` or player id fails
  validation with 400. The model answers Ok.
- Squads.FindSquad: a malformed user or match id gives 500 at `UserTeam.findOne`. The model
  answers 404.
- Users.UpdateProfile: a malformed user id gives 500 at `User.findById`. The model answers
  404.
- The `role`, `isWicketKeeperSelected` and `isValid` fields are stored with their defaults,
  and never computed.
- TeamBuilder: alerts, filters, the pitch view, the player modal and the data fetch are
  left out. The user id, match id and team name are parameters of Save, and the server's
  answer is a boolean.
- TeamBuilder.Apply: the page disables Save until both roles are named and shows the role
  list only in step 2. These are modelled by ignoring actions the page does not offer.
  Apply and Run use the corrected toggle (TeamBuilder.ToggleFixed), so they model the page
  as intended, not as written. The page as written is TeamBuilder.Toggle (see Findings).
- MockDraft: the draft log, bot names and rendering are left out. `finishDraft` only stops
  the draft, since the source saves nothing.
- MockDraft.BotPick: when the pool is empty the source returns without passing the turn, so
  the draft stalls. The model leaves the state unchanged.
- MockDraft.Apply: the Start button (shown only before any pick), the Pick buttons (only on
  the user's turn while running) and the bot timer are modelled by ignoring actions the page
  does not offer.
- The socket chat, the server's start-up (`backend/index.js`), the seed scripts, the
  players routes, the plain list routes (`GET /api/matches`, `GET /api/users`), and every React component other than the two pages above
  are left out. None of them holds game logic beyond what is modelled.
- Tournaments: creating and listing tournaments are plain writes and reads, and are not
  modelled.

## Findings

| source | as written | input that shows it | evidently intended | confidence | as-written member | corrected member |
|---|---|---|---|---|---|---|
| frontend/src/components/TeamBuilder.jsx:60-63 | Deselecting a player in step 1 removes them from the selection but leaves the captain or vice-captain set to that player. | With 11 players and both roles named in step 2: press Back, deselect the captain, pick any unselected player no dearer than the captain, press Next, then Save. The payload's `captainId` is not among `players`. The create route (backend/routes/userTeams.js:14-26) accepts it, and the captain's double points are never earned. | Removing a player from the selection also clears the role that player held. Every posted squad then names its captain and vice-captain among its players. | not executed | TeamBuilder.Toggle, TeamBuilder.CaptainCanLeaveSquad | TeamBuilder.ToggleFixed, TeamBuilder.ToggleFixedValid, TeamBuilder.RunValid |

=== FILE: api.dfy ===
/** The client's server addresses (frontend/src/lib/api.js): the base URL read from the build
    environment, the socket URL, and the URL a request path resolves to. The environment
    values are parameters. */
module Api {
  import opened Results
  import opened Strings

  const DefaultApiBase := "http://localhost:5000"

  /** `sanitizeBaseUrl`: the default for a missing or empty value, otherwise the value trimmed
      and stripped of one trailing `/`. */
  function SanitizeBaseUrl(value: Option<string>): (r: string)
    ensures !Present(value) ==> r == DefaultApiBase
    ensures Present(value) ==>
      var t := Trim(value.value);
      && (r == t || r + "/" == t)
      && (r == t <==> !EndsWith(t, "/"))
  {
    if !Present(value) then DefaultApiBase
    else
      var t := Trim(value.value);
      if EndsWith(t, "/") then t[..|t| - 1] else t
  }

  /** A base URL as `sanitizeBaseUrl` leaves it: no white space at the ends, no trailing `/`. */
  predicate CleanBase(b: string) {
    b != "" && NoEdgeSpace(b) && b[|b| - 1] != '/'
  }

  /** The default base is clean. */
  lemma DefaultApiBaseClean()
    ensures CleanBase(DefaultApiBase)
  {
    assert DefaultApiBase[0] == 'h';
    assert DefaultApiBase[|DefaultApiBase| - 1] == '0';
  }

  /** A clean base is read back unchanged, with or without white space around it. */
  lemma SanitizeCleanBase(b: string, pre: string, post: string)
    requires CleanBase(b)
    requires AllSpace(pre) && AllSpace(post)
    ensures SanitizeBaseUrl(Some(pre + b + post)) == b
  {
    assert !EndsWith(b, "/");
    TrimPadded(pre, b, post);
    SanitizeTrimmed(pre + b + post, b);
  }

  /** One trailing `/` is dropped: the base written with one reads back as the base. */
  lemma SanitizeDropsSlash(b: string, pre: string, post: string)
    requires CleanBase(b)
    requires AllSpace(pre) && AllSpace(post)
    ensures SanitizeBaseUrl(Some(pre + b + "/" + post)) == b
  {
    var slashed := b + "/";
    assert pre + slashed + post == pre + b + "/" + post;
    assert slashed[..|slashed| - 1] == b;
    assert EndsWith(slashed, "/");
    SlashedNoEdgeSpace(b, slashed);
    TrimPadded(pre, slashed, post);
    SanitizeTrimmed(pre + slashed + post, slashed);
  }

  /** Only one `/` is dropped: the base written with two keeps one. */
  lemma SanitizeKeepsSecondSlash(b: string)
    requires CleanBase(b)
    ensures SanitizeBaseUrl(Some(b + "//")) == b + "/"
  {
    var twice := b + "//";
    assert twice[..|twice| - 1] == b + "/";
    assert EndsWith(twice, "/");
    SlashedNoEdgeSpace(b, twice);
    TrimPadded([], twice, []);
    assert [] + twice + [] == twice;
    SanitizeTrimmed(twice, twice);
  }

  /** `sanitizeBaseUrl` of a value whose trimmed form is known. */
  lemma SanitizeTrimmed(v: string, t: string)
    requires Trim(v) == t && t != ""
    ensures SanitizeBaseUrl(Some(v)) == if EndsWith(t, "/") then t[..|t| - 1] else t
  {
  }

  /** Slashes after a clean base leave no white space at the ends. */
  lemma SlashedNoEdgeSpace(b: string, s: string)
    requires CleanBase(b)
    requires |s| > |b| && s[..|b|] == b && s[|s| - 1] == '/'
    ensures s != "" && NoEdgeSpace(s)
  {
    assert s[0] == b[0];
  }

  /** `API_BASE_URL`. */
  function ApiBaseUrl(apiEnv: Option<string>): string {
    SanitizeBaseUrl(apiEnv)
  }

  /** `SOCKET_URL`: the socket variable, else the API variable, sanitised; the API base when
      that comes out empty. */
  function SocketUrl(socketEnv: Option<string>, apiEnv: Option<string>): (r: string)
    ensures r == "" ==> ApiBaseUrl(apiEnv) == ""
    ensures !Present(socketEnv) ==> r == ApiBaseUrl(apiEnv)
  {
    var chosen := if Present(socketEnv) then socketEnv else apiEnv;
    var s := SanitizeBaseUrl(chosen);
    if s != "" then s else ApiBaseUrl(apiEnv)
  }

  /** A clean socket base, with or without white space around it, is the socket URL whatever
      the API variable holds. */
  lemma SocketCleanBase(b: string, pre: string, post: string, apiEnv: Option<string>)
    requires CleanBase(b)
    requires AllSpace(pre) && AllSpace(post)
    ensures SocketUrl(Some(pre + b + post), apiEnv) == b
  {
    SanitizeCleanBase(b, pre, post);
  }

  /** A socket variable of white space only sanitises to nothing and falls back to the API
      base. */
  lemma SocketBlankFallsBack(v: string, apiEnv: Option<string>)
    requires v != "" && AllSpace(v)
    ensures SocketUrl(Some(v), apiEnv) == ApiBaseUrl(apiEnv)
  {
    TrimAllSpace(v);
  }

  /** So does a socket variable that is a lone `/`, with or without white space around it. */
  lemma SocketSlashFallsBack(pre: string, post: string, apiEnv: Option<string>)
    requires AllSpace(pre) && AllSpace(post)
    ensures SocketUrl(Some(pre + "/" + post), apiEnv) == ApiBaseUrl(apiEnv)
  {
    TrimPadded(pre, "/", post);
    SanitizeTrimmed(pre + "/" + post, "/");
  }

  /** With no socket variable and no API variable both URLs are the default. */
  lemma UnsetEnvironmentDefaults()
    ensures ApiBaseUrl(None) == DefaultApiBase
    ensures SocketUrl(None, None) == DefaultApiBase
  {
  }

  /** `/^https?:\/\//i`: an absolute `http` or `https` URL, in any letter case. */
  predicate IsAbsoluteUrl(path: string) {
    var lower := ToLowerAscii(path);
    StartsWith(lower, "http://") || StartsWith(lower, "https://")
  }

  /** `buildApiUrl`: an absolute URL as it is, otherwise the path on the base with one `/`
      between them. A missing path is `/`. */
  function BuildApiUrl(base: string, path: Option<string>): (r: string)
    ensures path.None? ==> r == base + "/"
    ensures path.Some? && IsAbsoluteUrl(path.value) ==> r == path.value
    ensures path.Some? && !IsAbsoluteUrl(path.value) ==>
      var p := path.value;
      && StartsWith(r, base + "/")
      && (r == base + "/" + p || r == base + p)
      && (r == base + p <==> StartsWith(p, "/"))
  {
    var p := if path.Some? then path.value else "/";
    if IsAbsoluteUrl(p) then p
    else if !StartsWith(p, "/") then base + "/" + p
    else
      assert p == "/" + p[1..];
      base + p
  }

  /** A leading `/` on a relative path makes no difference. */
  lemma LeadingSlashIrrelevant(base: string, p: string)
    requires !IsAbsoluteUrl(p) && !StartsWith(p, "/")
    ensures !IsAbsoluteUrl("/" + p)
    ensures BuildApiUrl(base, Some("/" + p)) == BuildApiUrl(base, Some(p))
  {
    assert ToLowerAscii("/" + p)[0] == '/';
    assert StartsWith("/" + p, "/");
    assert base + ("/" + p) == base + "/" + p;
  }

  /** Lowering a string lowers each of its prefixes alike. */
  lemma LowerPrefix(s: string, t: string)
    ensures ToLowerAscii(s + t)[..|s|] == ToLowerAscii(s)
  {
  }

  /** On an absolute base, building is idempotent: a built URL is absolute and builds to
      itself. */
  lemma BuildIdempotent(base: string, path: Option<string>)
    requires IsAbsoluteUrl(base)
    ensures IsAbsoluteUrl(BuildApiUrl(base, path))
    ensures BuildApiUrl(base, Some(BuildApiUrl(base, path))) == BuildApiUrl(base, path)
  {
    var r := BuildApiUrl(base, path);
    var p := if path.Some? then path.value else "/";
    if !IsAbsoluteUrl(p) {
      var tail := r[|base|..];
      assert r == base + tail;
      LowerPrefix(base, tail);
      AbsolutePrefix(base, r);
    }
  }

  /** A string that begins with an absolute URL is absolute. */
  lemma AbsolutePrefix(base: string, r: string)
    requires IsAbsoluteUrl(base)
    requires |base| <= |r| && r[..|base|] == base
    ensures IsAbsoluteUrl(r)
  {
    var lb, lr := ToLowerAscii(base), ToLowerAscii(r);
    assert forall i | 0 <= i < |base| :: lr[i] == lb[i];
  }
}

=== FILE: leagues.dfy ===
/** Private leagues (backend/routes/leagues.js over backend/models/League.js): creating a
    league, joining one by its code with a squad for the league's match, and the league
    leaderboard. The random league code is an input. */
module Leagues {
  import opened Results
  import opened Seqs
  import opened Sorting
  import opened Strings
  import opened Squads

  type LeagueId = string

  const FieldsRequiredMessage := "All fields required"
  const LeagueValidationMessage := "League validation failed"
  const DuplicateCodeMessage := "E11000 duplicate key error"
  const JoinFieldsMessage := "User, Code, and Team required"
  const LeagueNotFoundMessage := "League not found"
  const AlreadyJoinedMessage := "Already joined this league"
  const WrongTeamMessage := "Team does not belong to the league match"
  /** What reading a field of a reference that failed to populate throws. */
  const NullUserMessage := "Cannot read properties of null (reading 'username')"
  const NullTeamMessage := "Cannot read properties of null (reading 'teamName')"

  /** One member of a league and the squad they entered with. */
  datatype Participant = Participant(user: UserId, team: SquadId)

  datatype League = League(
    id: LeagueId,
    name: string,
    code: string,
    owner: UserId,
    matchId: MatchId,
    participants: seq<Participant>)

  /** The unique index on `code`. */
  predicate UniqueCodes(leagues: seq<League>) {
    forall i, j | 0 <= i < j < |leagues| :: leagues[i].code != leagues[j].code
  }

  /** `UserTeam.findById`: the squad with that id, if any. */
  function SquadById(squads: seq<Squad>, id: SquadId): (r: Option<Squad>)
    ensures r.Some? ==> r.value in squads && r.value.id == id
    ensures r.None? <==> forall i | 0 <= i < |squads| :: squads[i].id != id
  {
    if |squads| == 0 then None
    else if squads[0].id == id then Some(squads[0])
    else
      assert forall i | 1 <= i < |squads| :: squads[i] == squads[1..][i - 1];
      SquadById(squads[1..], id)
  }

  /** `League.findOne({ code })`: the position of the first league with that code. */
  function FindCode(leagues: seq<League>, code: string): (r: Option<nat>)
    ensures r.Some? ==> r.value < |leagues| && leagues[r.value].code == code
    ensures r.Some? ==> forall j | 0 <= j < r.value :: leagues[j].code != code
    ensures r.None? <==> forall i | 0 <= i < |leagues| :: leagues[i].code != code
  {
    if |leagues| == 0 then None
    else if leagues[0].code == code then Some(0)
    else
      var r := FindCode(leagues[1..], code);
      assert forall i | 1 <= i < |leagues| :: leagues[i] == leagues[1..][i - 1];
      if r.Some? then Some(r.value + 1) else None
  }

  /** `League.findById`: the position of the league with that id, if any. */
  function FindLeague(leagues: seq<League>, id: LeagueId): (r: Option<nat>)
    ensures r.Some? ==> r.value < |leagues| && leagues[r.value].id == id
    ensures r.None? <==> forall i | 0 <= i < |leagues| :: leagues[i].id != id
  {
    if |leagues| == 0 then None
    else if leagues[0].id == id then Some(0)
    else
      var r := FindLeague(leagues[1..], id);
      assert forall i | 1 <= i < |leagues| :: leagues[i] == leagues[1..][i - 1];
      if r.Some? then Some(r.value + 1) else None
  }

  /** The invariant the join route keeps for a league: every participant entered with an
      existing squad of the league's match, and nobody is in the league twice. */
  predicate WellFormed(l: League, squads: seq<Squad>) {
    && (forall i | 0 <= i < |l.participants| ::
          var s := SquadById(squads, l.participants[i].team);
          s.Some? && s.value.matchId == l.matchId)
    && (forall i, j | 0 <= i < j < |l.participants| ::
          l.participants[i].user != l.participants[j].user)
  }

  datatype CreateRequest = CreateRequest(name: Option<string>, ownerId: Option<string>, matchId: Option<string>)

  /** `POST /api/leagues`: the route's presence check, then the schema's trimming, required
      fields and unique code on save. The owner is not made a participant. */
  function CreateLeague(leagues: seq<League>, req: CreateRequest, id: LeagueId, code: string): (r: Result<League>)
    ensures r.Err? && r.status == BadRequest
        <==> !(Present(req.name) && Present(req.ownerId) && Present(req.matchId))
    ensures r.Ok? <==>
      && Present(req.name) && Present(req.ownerId) && Present(req.matchId)
      && Trim(req.name.value) != "" && Trim(code) != ""
      && forall i | 0 <= i < |leagues| :: leagues[i].code != Trim(code)
    ensures r.Err? ==> r.status in {BadRequest, ServerError}
    ensures r.Ok? ==>
      && r.value.id == id
      && Surrounds(req.name.value, r.value.name) && NoEdgeSpace(r.value.name)
      && Surrounds(code, r.value.code) && NoEdgeSpace(r.value.code) && r.value.code != ""
      && r.value.owner == req.ownerId.value && r.value.matchId == req.matchId.value
      && r.value.participants == []
  {
    if !(Present(req.name) && Present(req.ownerId) && Present(req.matchId)) then
      Err(BadRequest, FieldsRequiredMessage)
    else
      var name, c := Trim(req.name.value), Trim(code);
      TrimSurrounds(req.name.value);
      TrimSurrounds(code);
      if name == "" || c == "" then Err(ServerError, LeagueValidationMessage)
      else if exists i | 0 <= i < |leagues| :: leagues[i].code == c then Err(ServerError, DuplicateCodeMessage)
      else Ok(League(id, name, c, req.ownerId.value, req.matchId.value, []))
  }

  /** A clean code sent with white space around it is stored bare. */
  lemma CreatePaddedCode(leagues: seq<League>, req: CreateRequest, id: LeagueId, code: string, pre: string, post: string)
    requires code != "" && NoEdgeSpace(code)
    requires AllSpace(pre) && AllSpace(post)
    ensures var r := CreateLeague(leagues, req, id, pre + code + post);
      r.Ok? ==> r.value.code == code
  {
    PaddedTrimsAlike(pre, code, post);
  }

  /** A league that is saved keeps the code index unique, and starts well formed. */
  lemma CreateKeepsInvariants(leagues: seq<League>, squads: seq<Squad>, req: CreateRequest, id: LeagueId, code: string)
    requires UniqueCodes(leagues)
    ensures var r := CreateLeague(leagues, req, id, code);
      r.Ok? ==> UniqueCodes(leagues + [r.value]) && WellFormed(r.value, squads)
  {
  }

  datatype JoinRequest = JoinRequest(userId: Option<string>, code: Option<string>, userTeamId: Option<string>)

  predicate JoinFieldsPresent(req: JoinRequest) {
    Present(req.userId) && Present(req.code) && Present(req.userTeamId)
  }

  predicate HasJoined(l: League, u: UserId) {
    exists i | 0 <= i < |l.participants| :: l.participants[i].user == u
  }

  /** The squad is missing or entered for another match. */
  predicate WrongTeam(l: League, squads: seq<Squad>, team: SquadId) {
    var s := SquadById(squads, team);
    s.None? || s.value.matchId != l.matchId
  }

  /** `POST /api/leagues/join`: the league with one more participant, which the route saves in
      its place. The presence check sees the code as sent; the lookup sees it trimmed, since
      the schema's `trim` setter also applies to the query filter. The refusals come in the
      route's order and leave every league as it was. */
  function Join(leagues: seq<League>, squads: seq<Squad>, req: JoinRequest): (r: Result<League>)
    ensures r.Err? && r.message == JoinFieldsMessage <==> !JoinFieldsPresent(req)
    ensures JoinFieldsPresent(req) ==>
      (r.Err? && r.status == NotFound <==> forall i | 0 <= i < |leagues| :: leagues[i].code != Trim(req.code.value))
    ensures JoinFieldsPresent(req) && FindCode(leagues, Trim(req.code.value)).Some? ==>
      var l := leagues[FindCode(leagues, Trim(req.code.value)).value];
      && (r.Err? && r.message == AlreadyJoinedMessage <==> HasJoined(l, req.userId.value))
      && (r.Err? && r.message == WrongTeamMessage <==>
            !HasJoined(l, req.userId.value) && WrongTeam(l, squads, req.userTeamId.value))
      && (!HasJoined(l, req.userId.value) && !WrongTeam(l, squads, req.userTeamId.value) ==> r.Ok?)
    ensures r.Err? ==> r.status in {BadRequest, NotFound}
    ensures r.Ok? ==>
      && JoinFieldsPresent(req) && FindCode(leagues, Trim(req.code.value)).Some?
      && var l := leagues[FindCode(leagues, Trim(req.code.value)).value];
      && r.value.(participants := l.participants) == l
      && r.value.participants == l.participants + [Participant(req.userId.value, req.userTeamId.value)]
  {
    if !JoinFieldsPresent(req) then Err(BadRequest, JoinFieldsMessage)
    else
      var found := FindCode(leagues, Trim(req.code.value));
      if found.None? then Err(NotFound, LeagueNotFoundMessage)
      else
        var l := leagues[found.value];
        if HasJoined(l, req.userId.value) then Err(BadRequest, AlreadyJoinedMessage)
        else if WrongTeam(l, squads, req.userTeamId.value) then Err(BadRequest, WrongTeamMessage)
        else Ok(l.(participants := l.participants + [Participant(req.userId.value, req.userTeamId.value)]))
  }

  /** A code sent with white space around it joins exactly as the bare code does. Stored codes
      are trimmed by the schema, so a padded stored code finds its league. */
  lemma JoinPaddedCode(leagues: seq<League>, squads: seq<Squad>, req: JoinRequest, code: string, pre: string, post: string)
    requires code != "" && NoEdgeSpace(code)
    requires AllSpace(pre) && AllSpace(post)
    ensures Join(leagues, squads, req.(code := Some(pre + code + post)))
         == Join(leagues, squads, req.(code := Some(code)))
  {
    PaddedTrimsAlike(pre, code, post);
    JoinSameLookup(leagues, squads, req.(code := Some(pre + code + post)), req.(code := Some(code)));
  }

  /** A code that trims to a stored code always finds a league. */
  lemma JoinFindsStored(leagues: seq<League>, squads: seq<Squad>, req: JoinRequest, i: nat)
    requires JoinFieldsPresent(req)
    requires i < |leagues| && leagues[i].code == Trim(req.code.value)
    ensures Join(leagues, squads, req) != Err(NotFound, LeagueNotFoundMessage)
  {
    assert !(forall j | 0 <= j < |leagues| :: leagues[j].code != Trim(req.code.value));
  }

  /** Two requests that name the same user and squad, and whose codes trim alike, are answered
      alike. */
  lemma JoinSameLookup(leagues: seq<League>, squads: seq<Squad>, a: JoinRequest, b: JoinRequest)
    requires a.userId == b.userId && a.userTeamId == b.userTeamId
    requires Present(a.code) && Present(b.code)
    requires Trim(a.code.value) == Trim(b.code.value)
    ensures Join(leagues, squads, a) == Join(leagues, squads, b)
  {
  }

  /** Joining keeps a league well formed. */
  lemma JoinKeepsWellFormed(leagues: seq<League>, squads: seq<Squad>, req: JoinRequest)
    requires forall i | 0 <= i < |leagues| :: WellFormed(leagues[i], squads)
    ensures var r := Join(leagues, squads, req);
      r.Ok? ==> WellFormed(r.value, squads)
  {
    var r := Join(leagues, squads, req);
    if r.Ok? {
      var c := Trim(req.code.value);
      var l := leagues[FindCode(leagues, c).value];
      var p := Participant(req.userId.value, req.userTeamId.value);
      assert !HasJoined(l, p.user) && !WrongTeam(l, squads, p.team);
      assert r.value == l.(participants := l.participants + [p]);
      JoinOneWellFormed(l, squads, p);
    }
  }

  /** Appending a new user with a squad of the league's match keeps the league well formed. */
  lemma JoinOneWellFormed(l: League, squads: seq<Squad>, p: Participant)
    requires WellFormed(l, squads)
    requires !HasJoined(l, p.user) && !WrongTeam(l, squads, p.team)
    ensures WellFormed(l.(participants := l.participants + [p]), squads)
  {
    var ps := l.participants + [p];
    assert forall i | 0 <= i < |l.participants| :: ps[i] == l.participants[i];
    assert ps[|ps| - 1] == p;
  }

  /** Once saved, a second join by the same user is refused as a repeat, however the request
      names the squad. */
  lemma JoinTwiceRefused(leagues: seq<League>, squads: seq<Squad>, req: JoinRequest, team: Option<string>)
    requires Present(team)
    ensures var r := Join(leagues, squads, req);
      r.Ok? ==>
        var i := FindCode(leagues, Trim(req.code.value)).value;
        Join(leagues[i := r.value], squads, req.(userTeamId := team)) == Err(BadRequest, AlreadyJoinedMessage)
  {
    var r := Join(leagues, squads, req);
    if r.Ok? {
      var c := Trim(req.code.value);
      var i := FindCode(leagues, c).value;
      var l := leagues[i];
      var p := Participant(req.userId.value, req.userTeamId.value);
      assert r.value == l.(participants := l.participants + [p]);
      FindCodeReplaced(leagues, c, i, r.value);
      assert HasJoined(r.value, p.user) by {
        assert r.value.participants[|l.participants|] == p;
      }
    }
  }

  /** Saving a league in its place, with its code unchanged, keeps lookups by code where they were. */
  lemma FindCodeReplaced(leagues: seq<League>, code: string, i: nat, l: League)
    requires FindCode(leagues, code) == Some(i)
    requires l.code == leagues[i].code
    ensures FindCode(leagues[i := l], code) == Some(i)
  {
    var after := leagues[i := l];
    assert forall j | 0 <= j < |after| :: after[j].code == leagues[j].code;
    FindCodeAgree(leagues, after, code);
  }

  /** Lookups by code see only the codes. */
  lemma {:induction false} FindCodeAgree(a: seq<League>, b: seq<League>, code: string)
    requires |a| == |b|
    requires forall j | 0 <= j < |a| :: a[j].code == b[j].code
    ensures FindCode(a, code) == FindCode(b, code)
    decreases |a|
  {
    if |a| > 0 {
      assert forall j | 0 <= j < |a[1..]| :: a[1..][j].code == b[1..][j].code by {
        forall j | 0 <= j < |a[1..]| ensures a[1..][j].code == b[1..][j].code {
          assert a[1..][j] == a[j + 1] && b[1..][j] == b[j + 1];
        }
      }
      FindCodeAgree(a[1..], b[1..], code);
    }
  }

  /** One leaderboard line: the participant's username, their squad's name and total, and the
      rank assigned after sorting. */
  datatype Row = Row(user: string, teamName: string, totalPoints: int, rank: nat, userTeamId: SquadId)

  function RowPoints(r: Row): int { r.totalPoints }

  /** The participants mapped to rows with rank 0, in participant order; a participant whose
      user or squad no longer exists makes the handler throw. */
  function ProjectRows(ps: seq<Participant>, squads: seq<Squad>, usernames: map<UserId, string>): (r: Result<seq<Row>>)
    ensures r.Err? <==> exists i | 0 <= i < |ps| ::
      ps[i].user !in usernames || SquadById(squads, ps[i].team).None?
    ensures r.Err? ==> r.status == ServerError
    ensures r.Ok? ==> |r.value| == |ps| && forall i | 0 <= i < |ps| ::
      && ps[i].user in usernames && SquadById(squads, ps[i].team).Some?
      && var s := SquadById(squads, ps[i].team).value;
      r.value[i] == Row(usernames[ps[i].user], s.teamName, s.totalPoints, 0, s.id)
  {
    if |ps| == 0 then Ok([])
    else
      assert forall i | 1 <= i < |ps| :: ps[i] == ps[1..][i - 1];
      var p := ps[0];
      if p.user !in usernames then Err(ServerError, NullUserMessage)
      else
        var s := SquadById(squads, p.team);
        if s.None? then Err(ServerError, NullTeamMessage)
        else
          var rest := ProjectRows(ps[1..], squads, usernames);
          if rest.Err? then rest
          else Ok([Row(usernames[p.user], s.value.teamName, s.value.totalPoints, 0, s.value.id)] + rest.value)
  }

  /** `leaderboard.forEach((item, index) => item.rank = index + 1)`. */
  function AssignRanks(rows: seq<Row>): (r: seq<Row>)
    ensures |r| == |rows|
    ensures forall i | 0 <= i < |rows| :: r[i] == rows[i].(rank := i + 1)
  {
    seq(|rows|, i requires 0 <= i < |rows| => rows[i].(rank := i + 1))
  }

  /** The rows with the rank reset to the projection's 0. */
  function Unranked(rows: seq<Row>): (r: seq<Row>)
    ensures |r| == |rows|
    ensures forall i | 0 <= i < |rows| :: r[i] == rows[i].(rank := 0)
  {
    seq(|rows|, i requires 0 <= i < |rows| => rows[i].(rank := 0))
  }

  /** `GET /api/leagues/:id`: one row per participant, best total first, participants with equal
      totals in the order they joined, ranked 1, 2, 3, ... by position. */
  function LeagueLeaderboard(leagues: seq<League>, id: LeagueId, squads: seq<Squad>, usernames: map<UserId, string>)
    : (r: Result<seq<Row>>)
    ensures r.Err? && r.status == NotFound <==> forall i | 0 <= i < |leagues| :: leagues[i].id != id
    ensures r.Err? ==> r.status in {NotFound, ServerError}
    ensures FindLeague(leagues, id).Some? ==>
      (r.Ok? <==> ProjectRows(leagues[FindLeague(leagues, id).value].participants, squads, usernames).Ok?)
    ensures r.Ok? ==>
      && FindLeague(leagues, id).Some?
      && var ps := leagues[FindLeague(leagues, id).value].participants;
      && ProjectRows(ps, squads, usernames).Ok?
      && var rows := ProjectRows(ps, squads, usernames).value;
      && |r.value| == |ps|
      && (forall i | 0 <= i < |r.value| :: r.value[i].rank == i + 1)
      && SortedDesc(r.value, RowPoints)
      && IsDescOrdering(Unranked(r.value), rows, RowPoints)
      && (forall k :: KeyClass(Unranked(r.value), RowPoints, k) == KeyClass(rows, RowPoints, k))
  {
    var found := FindLeague(leagues, id);
    if found.None? then Err(NotFound, LeagueNotFoundMessage)
    else
      var rows :- ProjectRows(leagues[found.value].participants, squads, usernames);
      var sorted := SortDesc(rows, RowPoints);
      var r := AssignRanks(sorted);
      LeaderboardFacts(rows, sorted, r);
      Ok(r)
  }

  /** Ranking by position changes neither the order of totals nor the sorted sequence. */
  lemma LeaderboardFacts(rows: seq<Row>, sorted: seq<Row>, r: seq<Row>)
    requires forall i | 0 <= i < |rows| :: rows[i].rank == 0
    requires sorted == SortDesc(rows, RowPoints)
    requires r == AssignRanks(sorted)
    ensures SortedDesc(r, RowPoints)
    ensures Unranked(r) == sorted
    ensures IsDescOrdering(Unranked(r), rows, RowPoints)
    ensures forall k :: KeyClass(Unranked(r), RowPoints, k) == KeyClass(rows, RowPoints, k)
  {
    UnrankedSorted(rows, sorted);
    RanksCleared(sorted, r);
    forall k ensures KeyClass(sorted, RowPoints, k) == KeyClass(rows, RowPoints, k) {
      SortDescStable(rows, RowPoints, k);
    }
  }

  lemma UnrankedSorted(rows: seq<Row>, sorted: seq<Row>)
    requires forall i | 0 <= i < |rows| :: rows[i].rank == 0
    requires multiset(sorted) == multiset(rows)
    ensures forall i | 0 <= i < |sorted| :: sorted[i].rank == 0
  {
    SubMultisetMembers(sorted, rows);
    forall i | 0 <= i < |sorted| ensures sorted[i].rank == 0 {
      var j :| 0 <= j < |rows| && rows[j] == sorted[i];
    }
  }

  lemma RanksCleared(sorted: seq<Row>, r: seq<Row>)
    requires forall i | 0 <= i < |sorted| :: sorted[i].rank == 0
    requires r == AssignRanks(sorted)
    ensures Unranked(r) == sorted
    ensures forall i | 0 <= i < |r| :: RowPoints(r[i]) == RowPoints(sorted[i])
  {
    assert forall i | 0 <= i < |r| :: Unranked(r)[i] == sorted[i];
  }

  /** The leaderboard order is the only one with those properties: any sorted arrangement of
      the rows that keeps joining order among equal totals is exactly the leaderboard's. */
  lemma LeaderboardOrderUnique(leagues: seq<League>, id: LeagueId, squads: seq<Squad>, usernames: map<UserId, string>, other: seq<Row>)
    requires LeagueLeaderboard(leagues, id, squads, usernames).Ok?
    requires SortedDesc(other, RowPoints)
    requires var ps := leagues[FindLeague(leagues, id).value].participants;
      forall k :: KeyClass(other, RowPoints, k) == KeyClass(ProjectRows(ps, squads, usernames).value, RowPoints, k)
    ensures other == Unranked(LeagueLeaderboard(leagues, id, squads, usernames).value)
  {
    var ps := leagues[FindLeague(leagues, id).value].participants;
    var rows := ProjectRows(ps, squads, usernames).value;
    var r := LeagueLeaderboard(leagues, id, squads, usernames).value;
    StableOrderingUnique(other, rows, RowPoints);
    StableOrderingUnique(Unranked(r), rows, RowPoints);
  }
}

=== FILE: matches.dfy ===
/** The match routes of backend/routes/matches.js: the simulate handler (store the
    performances, recompute every squad total of the match, then rank the match's squads by
    position) and the match leaderboard. Raw figures are an input: how they are produced is
    not part of this model. */
module Matches {
  import opened Results
  import opened Seqs
  import opened Sorting
  import opened Squads
  import opened Scoring
  import opened Performances

  const LeaderboardLimit: nat := 50

  function Min(a: nat, b: nat): nat {
    if a <= b then a else b
  }

  /** Every squad of match `m` gets its total recomputed from `scores`, overwriting the stored
      value; squads of other matches are left alone. */
  function Rescore(store: seq<Squad>, m: MatchId, scores: map<PlayerId, nat>): (r: seq<Squad>)
    ensures |r| == |store|
    ensures forall i | 0 <= i < |store| && store[i].matchId != m :: r[i] == store[i]
    ensures forall i | 0 <= i < |store| && store[i].matchId == m ::
      r[i] == store[i].(totalPoints := SquadHalfPoints(store[i], scores))
  {
    seq(|store|, i requires 0 <= i < |store| =>
      if store[i].matchId == m then store[i].(totalPoints := SquadHalfPoints(store[i], scores))
      else store[i])
  }

  /** Totals are overwritten, not accumulated: recomputing from the same scores changes
      nothing. */
  lemma RescoreIdempotent(store: seq<Squad>, m: MatchId, scores: map<PlayerId, nat>)
    ensures Rescore(Rescore(store, m, scores), m, scores) == Rescore(store, m, scores)
  {
    var once := Rescore(store, m, scores);
    forall i | 0 <= i < |store| && store[i].matchId == m
      ensures SquadHalfPoints(once[i], scores) == SquadHalfPoints(store[i], scores)
    {
      RosterDependsOnDesignation(once[i], store[i], scores, store[i].players);
    }
  }

  /** The rank a squad gets from the sorted query result: its position plus one. */
  function Position(order: seq<Squad>, s: Squad): nat {
    if s in order then IndexOf(order, s) else |order|
  }

  /** Step 5: each squad of match `m` gets its position in `order` (plus one) as its rank. */
  function RankByOrder(store: seq<Squad>, m: MatchId, order: seq<Squad>): (r: seq<Squad>)
    ensures |r| == |store|
    ensures forall i | 0 <= i < |store| && store[i].matchId != m :: r[i] == store[i]
    ensures forall i | 0 <= i < |store| && store[i].matchId == m :: r[i] == store[i].(rank := r[i].rank)
  {
    seq(|store|, i requires 0 <= i < |store| =>
      if store[i].matchId == m then store[i].(rank := Position(order, store[i]) + 1)
      else store[i])
  }

  /** Some squad of match `m` holds rank `k`. */
  ghost predicate RankTaken(r: seq<Squad>, m: MatchId, k: nat) {
    exists i | 0 <= i < |r| :: r[i].matchId == m && r[i].rank == k
  }

  /** Positional ranks of the squads of match `m` among `n` squads: every rank is in 1..n,
      every rank in 1..n is taken, no two squads share one (even when tied), and a higher
      total always means a better rank. */
  ghost predicate PositionalRanks(r: seq<Squad>, m: MatchId, n: nat) {
    && (forall i | 0 <= i < |r| && r[i].matchId == m :: 1 <= r[i].rank <= n)
    && (forall i, j | 0 <= i < |r| && 0 <= j < |r| && i != j && r[i].matchId == m && r[j].matchId == m ::
          r[i].rank != r[j].rank)
    && (forall i, j | 0 <= i < |r| && 0 <= j < |r| && r[i].matchId == m && r[j].matchId == m
          && r[i].totalPoints > r[j].totalPoints :: r[i].rank < r[j].rank)
    && (forall k | 1 <= k <= n :: RankTaken(r, m, k))
  }

  /** The facts the ranking lemmas share: the order is repeat-free and every squad of the
      match is found in it at the position its rank names. */
  lemma RankByOrderFacts(store: seq<Squad>, m: MatchId, order: seq<Squad>)
    requires UniqueIds(store)
    requires IsDescOrdering(order, ForMatch(store, m), TotalOf)
    ensures Distinct(order)
    ensures forall i | 0 <= i < |store| && store[i].matchId == m ::
      && 1 <= RankByOrder(store, m, order)[i].rank <= |order|
      && order[RankByOrder(store, m, order)[i].rank - 1] == store[i]
  {
    var f := ForMatch(store, m);
    var r := RankByOrder(store, m, order);
    UniqueIdsDistinct(store);
    DistinctSubMultiset(store, f);
    DistinctPermutation(f, order);
    forall i | 0 <= i < |store| && store[i].matchId == m
      ensures 1 <= r[i].rank <= |order| && order[r[i].rank - 1] == store[i]
    {
      assert store[i] in multiset(f);
      assert store[i] in order;
      assert r[i].rank == IndexOf(order, store[i]) + 1;
    }
  }

  /** Whatever tie order the database returns, ranking by position gives positional ranks. */
  lemma RankByOrderPositional(store: seq<Squad>, m: MatchId, order: seq<Squad>)
    requires UniqueIds(store)
    requires IsDescOrdering(order, ForMatch(store, m), TotalOf)
    ensures PositionalRanks(RankByOrder(store, m, order), m, |order|)
  {
    var r := RankByOrder(store, m, order);
    RankByOrderFacts(store, m, order);
    RankByOrderConsistent(store, m, order);
    RankByOrderOnto(store, m, order);
  }

  lemma RankByOrderConsistent(store: seq<Squad>, m: MatchId, order: seq<Squad>)
    requires UniqueIds(store)
    requires IsDescOrdering(order, ForMatch(store, m), TotalOf)
    ensures var r := RankByOrder(store, m, order);
      forall i, j | 0 <= i < |r| && 0 <= j < |r| && r[i].matchId == m && r[j].matchId == m
        && r[i].totalPoints > r[j].totalPoints :: r[i].rank < r[j].rank
  {
    var r := RankByOrder(store, m, order);
    RankByOrderFacts(store, m, order);
    forall i, j | 0 <= i < |r| && 0 <= j < |r| && r[i].matchId == m && r[j].matchId == m
        && r[i].totalPoints > r[j].totalPoints
      ensures r[i].rank < r[j].rank
    {
      assert store[i].matchId == m && store[j].matchId == m;
      SortedDescBefore(order, TotalOf, r[i].rank - 1, r[j].rank - 1);
    }
  }

  lemma RankByOrderOnto(store: seq<Squad>, m: MatchId, order: seq<Squad>)
    requires UniqueIds(store)
    requires IsDescOrdering(order, ForMatch(store, m), TotalOf)
    ensures forall k | 1 <= k <= |order| :: RankTaken(RankByOrder(store, m, order), m, k)
  {
    var f := ForMatch(store, m);
    var r := RankByOrder(store, m, order);
    RankByOrderFacts(store, m, order);
    forall k | 1 <= k <= |order| ensures RankTaken(r, m, k) {
      var x := order[k - 1];
      assert x in multiset(f);
      var j :| 0 <= j < |f| && f[j] == x;
      assert x in multiset(store);
      var i :| 0 <= i < |store| && store[i] == x;
      assert order[r[i].rank - 1] == x;
      IndexOfDistinct(order, k - 1);
      IndexOfDistinct(order, r[i].rank - 1);
      assert r[i].matchId == m && r[i].rank == k;
    }
  }

  /** What the simulate handler leaves behind. */
  datatype Simulation = Simulation(records: seq<ScoreRecord>, squads: seq<Squad>, totalTeamsUpdated: nat)

  /** `POST /api/matches/:matchId/simulate` with the generated figures as input. The
      database's sorted query is represented by one admissible order; `RescoreThenRank` holds
      for every other. */
  function Simulate(records: seq<ScoreRecord>, store: seq<Squad>, m: MatchId, stats: seq<PlayerStats>): (r: Simulation)
    requires UniqueIds(store)
    ensures r.records == UpsertAll(records, m, stats)
    ensures r.totalTeamsUpdated == |ForMatch(store, m)|
    ensures Standings(store, r.squads, m, ScoreMap(stats))
  {
    var scores := ScoreMap(stats);
    var rescored := Rescore(store, m, scores);
    var order := SortDesc(ForMatch(rescored, m), TotalOf);
    RescoreThenRank(store, m, scores, order);
    Simulation(UpsertAll(records, m, stats), RankByOrder(rescored, m, order), |ForMatch(store, m)|)
  }

  /** What the simulate handler promises of the stored squads afterwards: same squads in the
      same places with the same ids, other matches untouched, every squad of the match carrying
      its recomputed total, and positional ranks over the match's squads. */
  ghost predicate Standings(store: seq<Squad>, r: seq<Squad>, m: MatchId, scores: map<PlayerId, nat>) {
    && |r| == |store|
    && UniqueIds(r)
    && (forall i | 0 <= i < |store| && store[i].matchId != m :: r[i] == store[i])
    && (forall i | 0 <= i < |store| && store[i].matchId == m ::
          r[i] == store[i].(totalPoints := SquadHalfPoints(store[i], scores), rank := r[i].rank))
    && PositionalRanks(r, m, |ForMatch(store, m)|)
  }

  /** Rescoring then ranking by any order the sorted query may return yields the promised
      standings. */
  lemma RescoreThenRank(store: seq<Squad>, m: MatchId, scores: map<PlayerId, nat>, order: seq<Squad>)
    requires UniqueIds(store)
    requires IsDescOrdering(order, ForMatch(Rescore(store, m, scores), m), TotalOf)
    ensures Standings(store, RankByOrder(Rescore(store, m, scores), m, order), m, scores)
  {
    var rescored := Rescore(store, m, scores);
    var r := RankByOrder(rescored, m, order);
    assert forall i | 0 <= i < |store| :: rescored[i].id == store[i].id && rescored[i].matchId == store[i].matchId;
    assert forall i | 0 <= i < |store| :: r[i].id == store[i].id && r[i].matchId == store[i].matchId;
    assert UniqueIds(rescored);
    RankByOrderPositional(rescored, m, order);
    ForMatchSize(store, rescored, m);
    assert |order| == |multiset(order)| == |multiset(ForMatch(rescored, m))|;
  }

  /** Rewriting squads without moving them or changing their match keeps the number per match. */
  lemma {:induction false} ForMatchSize(a: seq<Squad>, b: seq<Squad>, m: MatchId)
    requires |a| == |b|
    requires forall i | 0 <= i < |a| :: a[i].matchId == b[i].matchId
    ensures |ForMatch(a, m)| == |ForMatch(b, m)|
    decreases |a|
  {
    if |a| > 0 {
      ForMatchSize(a[1..], b[1..], m);
    }
  }

  /** A rerun with the same figures reproduces every total and every performance record, and
      adds no record. Ranks of tied squads may come out in another order, since the database
      sort promises no tie order. */
  lemma SimulateRerun(records: seq<ScoreRecord>, store: seq<Squad>, m: MatchId, stats: seq<PlayerStats>, k: (MatchId, PlayerId))
    requires UniqueIds(store)
    requires UniqueKeys(records)
    ensures
      var once := Simulate(records, store, m, stats);
      var twice := Simulate(once.records, once.squads, m, stats);
      && |twice.records| == |once.records|
      && Lookup(twice.records, k) == Lookup(once.records, k)
      && (forall i | 0 <= i < |store| :: twice.squads[i].totalPoints == once.squads[i].totalPoints)
      && twice.totalTeamsUpdated == once.totalTeamsUpdated
  {
    var once := Simulate(records, store, m, stats);
    var twice := Simulate(once.records, once.squads, m, stats);
    RerunReplaces(records, m, stats, k);
    forall i | 0 <= i < |store| && store[i].matchId == m
      ensures twice.squads[i].totalPoints == once.squads[i].totalPoints
    {
      RosterDependsOnDesignation(once.squads[i], store[i], ScoreMap(stats), store[i].players);
    }
    ForMatchSize(store, once.squads, m);
  }

  /** `GET /api/matches/:matchId/leaderboard`: the 50 best squads of the match, best first. */
  function MatchLeaderboard(store: seq<Squad>, m: MatchId): (r: seq<Squad>)
    ensures |r| == Min(LeaderboardLimit, |ForMatch(store, m)|)
    ensures forall i | 0 <= i < |r| :: r[i].matchId == m
    ensures IsTopDesc(r, ForMatch(store, m), TotalOf)
  {
    var f := ForMatch(store, m);
    var sorted := SortDesc(f, TotalOf);
    var n := Min(LeaderboardLimit, |sorted|);
    TopPrefix(sorted, f, TotalOf, n);
    SameMatch(sorted[..n], f, m);
    sorted[..n]
  }

  /** Squads drawn from one match's squads all belong to that match. */
  lemma SameMatch(r: seq<Squad>, f: seq<Squad>, m: MatchId)
    requires forall i | 0 <= i < |f| :: f[i].matchId == m
    requires multiset(r) <= multiset(f)
    ensures forall i | 0 <= i < |r| :: r[i].matchId == m
  {
    SubMultisetMembers(r, f);
    forall i | 0 <= i < |r| ensures r[i].matchId == m {
      var j :| 0 <= j < |f| && f[j] == r[i];
    }
  }
}

=== FILE: mockdraft.dfy ===
/** The mock draft page (frontend/src/components/MockDraft.jsx): the user and three bots take
    turns in a fixed order, round after round, picking from a shared pool of players until the
    user has eleven. A bot picks at random among the first ten players left; the random choice
    is a parameter. */
module MockDraft {
  import opened Results
  import opened Seqs
  import opened Roster

  /** The seats in `ORDER`. */
  datatype Seat = User | Bot1 | Bot2 | Bot3

  const Order: seq<Seat> := [User, Bot1, Bot2, Bot3]
  /** The draft ends once the user holds this many players. */
  const TeamTarget: nat := 11
  /** A bot looks at this many players from the head of the pool. */
  const BotWindow: nat := 10

  datatype Draft = Draft(
    started: bool,
    turn: Option<Seat>,
    round: nat,
    pool: seq<Player>,
    mine: seq<Player>,
    bot1: seq<Player>,
    bot2: seq<Player>,
    bot3: seq<Player>)

  /** The page once the players are loaded: not started, nobody's turn, round 1, everyone in
      the pool. */
  function Fresh(players: seq<Player>): Draft {
    Draft(false, None, 1, players, [], [], [], [])
  }

  function SeatIndex(s: Seat): (i: nat)
    ensures i < |Order| && Order[i] == s
  {
    match s
    case User => 0
    case Bot1 => 1
    case Bot2 => 2
    case Bot3 => 3
  }

  /** `ORDER.indexOf(currentTurn)`: -1 when it is nobody's turn. */
  function TurnIndex(t: Option<Seat>): (i: int)
    ensures -1 <= i < |Order|
    ensures i == -1 <==> t.None?
    ensures t.Some? ==> Order[i] == t.value
  {
    if t.None? then -1 else SeatIndex(t.value)
  }

  /** The team a seat has drafted. */
  function Team(d: Draft, s: Seat): seq<Player> {
    match s
    case User => d.mine
    case Bot1 => d.bot1
    case Bot2 => d.bot2
    case Bot3 => d.bot3
  }

  /** Everyone drafted so far. */
  function Drafted(d: Draft): multiset<Player> {
    multiset(d.mine) + multiset(d.bot1) + multiset(d.bot2) + multiset(d.bot3)
  }

  /** `d` with `p` added to the team of seat `s`. */
  function AddTo(d: Draft, s: Seat, p: Player): (r: Draft)
    ensures Team(r, s) == Team(d, s) + [p]
    ensures forall t: Seat | t != s :: Team(r, t) == Team(d, t)
    ensures r.pool == d.pool && r.turn == d.turn && r.round == d.round && r.started == d.started
  {
    match s
    case User => d.(mine := d.mine + [p])
    case Bot1 => d.(bot1 := d.bot1 + [p])
    case Bot2 => d.(bot2 := d.bot2 + [p])
    case Bot3 => d.(bot3 := d.bot3 + [p])
  }

  /** Adding to a team drafts one more copy of the player. */
  lemma AddToDrafted(d: Draft, s: Seat, p: Player)
    ensures Drafted(AddTo(d, s, p)) == Drafted(d) + multiset{p}
  {
    var r := AddTo(d, s, p);
    assert multiset(Team(r, s)) == multiset(Team(d, s)) + multiset{p};
  }

  /** `startDraft`: the draft runs and the user has the first pick. */
  function StartDraft(d: Draft): (r: Draft)
    ensures r.started && r.turn == Some(User)
    ensures r.(started := d.started, turn := d.turn) == d
  {
    d.(started := true, turn := Some(User))
  }

  /** `nextTurn`: the next seat in order; after the last seat the user again, one round
      later. From nobody's turn it is the user's. */
  function NextTurn(d: Draft): (r: Draft)
    ensures r.turn.Some?
    ensures SeatIndex(r.turn.value) == (TurnIndex(d.turn) + 1) % |Order|
    ensures r.round == if d.turn == Some(Bot3) then d.round + 1 else d.round
    ensures r.(turn := d.turn, round := d.round) == d
  {
    var i := TurnIndex(d.turn);
    if i == |Order| - 1 then d.(round := d.round + 1, turn := Some(Order[0]))
    else d.(turn := Some(Order[i + 1]))
  }

  /** `removeFromPool`. */
  function RemoveFromPool(d: Draft, p: Player): (r: Draft)
    ensures p.id !in Ids(r.pool) && multiset(r.pool) <= multiset(d.pool)
    ensures r.(pool := d.pool) == d
  {
    WithoutIdFacts(d.pool, p.id);
    d.(pool := WithoutId(d.pool, p.id))
  }

  /** `handleUserPick`: ignored unless it is the user's turn; otherwise the player joins the
      user's team, leaves the pool, and the turn passes on. */
  function UserPick(d: Draft, p: Player): (r: Draft)
    ensures d.turn != Some(User) ==> r == d
    ensures d.turn == Some(User) ==>
      && r.mine == d.mine + [p]
      && r.bot1 == d.bot1 && r.bot2 == d.bot2 && r.bot3 == d.bot3
      && p.id !in Ids(r.pool) && multiset(r.pool) <= multiset(d.pool)
      && r.turn == Some(Bot1) && r.round == d.round && r.started == d.started
  {
    if d.turn != Some(User) then d
    else NextTurn(RemoveFromPool(AddTo(d, User, p), p))
  }

  function Min(a: nat, b: nat): nat {
    if a <= b then a else b
  }

  /** `handleBotPick` for the seat whose turn it is, with `k` the random place among the first
      ten players of the pool. With an empty pool nothing happens, the turn included. */
  function BotPick(d: Draft, seat: Seat, k: nat): (r: Draft)
    requires seat != User
    requires |d.pool| > 0 ==> k < Min(BotWindow, |d.pool|)
    ensures |d.pool| == 0 ==> r == d
    ensures |d.pool| > 0 ==>
      && k < BotWindow
      && Team(r, seat) == Team(d, seat) + [d.pool[k]]
      && (forall t: Seat | t != seat :: Team(r, t) == Team(d, t))
      && d.pool[k].id !in Ids(r.pool) && multiset(r.pool) <= multiset(d.pool)
      && r.turn.Some? && SeatIndex(r.turn.value) == (TurnIndex(d.turn) + 1) % |Order|
      && r.started == d.started
  {
    var eligible := d.pool[..Min(BotWindow, |d.pool|)];
    if |eligible| == 0 then d
    else
      var pick := eligible[k];
      NextTurn(RemoveFromPool(AddTo(d, seat, pick), pick))
  }

  /** The page's effect once the draft runs: with eleven players for the user the draft
      finishes and stops. */
  function Settle(d: Draft): (r: Draft)
    ensures r.started <==> d.started && |d.mine| < TeamTarget
    ensures r.(started := d.started) == d
  {
    if d.started && |d.mine| >= TeamTarget then d.(started := false) else d
  }

  /** Four turns bring the same seat back, one round later. */
  lemma NextTurnCycle(d: Draft)
    requires d.turn.Some?
    ensures NextTurn(NextTurn(NextTurn(NextTurn(d)))).turn == d.turn
    ensures NextTurn(NextTurn(NextTurn(NextTurn(d)))).round == d.round + 1
  {
  }

  /** One user action, or one bot timer firing with its random choice. A card is named by its
      place in the pool; choices outside the range stand for no action. */
  datatype Action = Start | Pick(card: nat) | BotMove(choice: nat)

  /** The page's reaction: the Start button shows only before any pick, the Pick buttons only
      on the user's turn while the draft runs, and the bot timer only on a bot's turn while the
      draft runs. */
  function Apply(d: Draft, a: Action): (r: Draft)
    ensures (a.Pick? || a.BotMove?) && !d.started ==> r == d
    ensures a.Pick? && d.turn != Some(User) ==> r == d
    ensures a.BotMove? && (d.turn.None? || d.turn == Some(User)) ==> r == d
    ensures a.Start? && (d.started || |d.mine| > 0) ==> r == d
    ensures (d.started ==> d.turn.Some?) ==> (r.started ==> r.turn.Some?)
  {
    match a
    case Start => if !d.started && |d.mine| == 0 then StartDraft(d) else d
    case Pick(i) =>
      if d.started && d.turn == Some(User) && i < |d.pool| then Settle(UserPick(d, d.pool[i]))
      else d
    case BotMove(k) =>
      if d.started && d.turn.Some? && d.turn.value != User
         && (|d.pool| > 0 ==> k < Min(BotWindow, |d.pool|))
      then Settle(BotPick(d, d.turn.value, k))
      else d
  }

  /** The state after a sequence of actions from a freshly fetched pool. */
  function Run(players: seq<Player>, actions: seq<Action>): (r: Draft)
    ensures r.started ==> r.turn.Some?
    decreases |actions|
  {
    if |actions| == 0 then Fresh(players)
    else Apply(Run(players, actions[..|actions| - 1]), actions[|actions| - 1])
  }

  /** Turn order as team sizes: in round `r` with seat `t` to pick, the seats before `t` have
      `r` players and the others `r - 1`. */
  ghost predicate InTurn(d: Draft) {
    && d.round >= 1
    && (d.turn.None? ==> d.round == 1 && forall s: Seat :: Team(d, s) == [])
    && (d.turn.Some? ==> forall s: Seat ::
          |Team(d, s)| == d.round - 1 + (if SeatIndex(s) < SeatIndex(d.turn.value) then 1 else 0))
  }

  /** What the draft keeps true: the pool has no repeated player, every player of the list is
      in the pool or on exactly one team, the turns follow `ORDER`, and the user never holds
      more than eleven. */
  ghost predicate Inv(players: seq<Player>, d: Draft) {
    && Distinct(Ids(d.pool))
    && multiset(d.pool) + Drafted(d) == multiset(players)
    && InTurn(d)
    && |d.mine| <= TeamTarget
    && (d.started ==> d.turn.Some? && |d.mine| < TeamTarget)
  }

  lemma FreshInv(players: seq<Player>)
    requires Distinct(Ids(players))
    ensures Inv(players, Fresh(players))
  {
    var d := Fresh(players);
    forall s: Seat ensures Team(d, s) == [] {
    }
  }

  /** Moving the player at `i` from the pool to seat `s`, then passing the turn, keeps every
      player accounted for once. */
  lemma PickConserves(players: seq<Player>, d: Draft, s: Seat, i: nat)
    requires Distinct(Ids(d.pool)) && multiset(d.pool) + Drafted(d) == multiset(players)
    requires i < |d.pool|
    ensures var r := NextTurn(RemoveFromPool(AddTo(d, s, d.pool[i]), d.pool[i]));
      Distinct(Ids(r.pool)) && multiset(r.pool) + Drafted(r) == multiset(players)
  {
    var p := d.pool[i];
    AddToDrafted(d, s, p);
    WithoutPresentId(d.pool, i);
    WithoutIdDistinct(d.pool, p.id);
  }

  /** Passing the turn keeps team sizes in step with it, given that the seat to move has just
      picked. */
  lemma PassInTurn(d: Draft, e: Draft, s: Seat)
    requires InTurn(d) && d.turn == Some(s)
    requires e.turn == d.turn && e.round == d.round
    requires |Team(e, s)| == |Team(d, s)| + 1
    requires forall t: Seat | t != s :: |Team(e, t)| == |Team(d, t)|
    ensures InTurn(NextTurn(e))
  {
    var r := NextTurn(e);
    forall t: Seat
      ensures |Team(r, t)| == r.round - 1 + (if SeatIndex(t) < SeatIndex(r.turn.value) then 1 else 0)
    {
      assert Team(r, t) == Team(e, t);
    }
  }

  /** Every action keeps the invariant. */
  lemma ApplyInv(players: seq<Player>, d: Draft, a: Action)
    requires Inv(players, d)
    ensures Inv(players, Apply(d, a))
  {
    match a
    case Start => StartInv(players, d);
    case Pick(i) =>
      if d.started && d.turn == Some(User) && i < |d.pool| {
        PickInv(players, d, User, i);
      }
    case BotMove(k) =>
      if d.started && d.turn.Some? && d.turn.value != User
         && (|d.pool| > 0 ==> k < Min(BotWindow, |d.pool|)) && |d.pool| > 0 {
        assert d.pool[..Min(BotWindow, |d.pool|)][k] == d.pool[k];
        PickInv(players, d, d.turn.value, k);
      }
  }

  lemma StartInv(players: seq<Player>, d: Draft)
    requires Inv(players, d)
    ensures Inv(players, Apply(d, Start))
  {
    if !d.started && |d.mine| == 0 {
      var r := StartDraft(d);
      if d.turn.Some? {
        assert |Team(d, User)| == 0;
      }
      forall t: Seat ensures |Team(r, t)| == 0 {
        assert Team(r, t) == Team(d, t);
      }
    }
  }

  /** The seat whose turn it is takes the player at `i`, the turn passes, and the page
      settles. */
  lemma PickInv(players: seq<Player>, d: Draft, s: Seat, i: nat)
    requires Inv(players, d) && d.started && d.turn == Some(s) && i < |d.pool|
    ensures Inv(players, Settle(NextTurn(RemoveFromPool(AddTo(d, s, d.pool[i]), d.pool[i]))))
  {
    var p := d.pool[i];
    PickConserves(players, d, s, i);
    var e := RemoveFromPool(AddTo(d, s, p), p);
    PassInTurn(d, e, s);
    var n := NextTurn(e);
    assert |n.mine| <= TeamTarget by {
      assert |Team(n, User)| <= |Team(d, User)| + 1;
    }
    SettleInv(players, n);
  }

  lemma SettleInv(players: seq<Player>, e: Draft)
    requires Distinct(Ids(e.pool)) && multiset(e.pool) + Drafted(e) == multiset(players)
    requires InTurn(e) && |e.mine| <= TeamTarget && e.turn.Some?
    ensures Inv(players, Settle(e))
  {
    var r := Settle(e);
    assert forall t: Seat :: Team(r, t) == Team(e, t);
  }

  /** Whatever happens on the page, the invariant holds. */
  lemma {:induction false} RunInv(players: seq<Player>, actions: seq<Action>)
    requires Distinct(Ids(players))
    ensures Inv(players, Run(players, actions))
    decreases |actions|
  {
    if |actions| == 0 {
      FreshInv(players);
    } else {
      RunInv(players, actions[..|actions| - 1]);
      ApplyInv(players, Run(players, actions[..|actions| - 1]), actions[|actions| - 1]);
    }
  }

  /** The draft is fair: the user, picking first, is never behind a bot, and no seat is ever
      more than one player ahead of another. */
  lemma InTurnFair(d: Draft, s: Seat, t: Seat)
    requires InTurn(d)
    ensures |Team(d, t)| <= |Team(d, User)|
    ensures |Team(d, s)| <= |Team(d, t)| + 1
  {
  }

  /** Nobody's player is lost or invented: the pool and the four teams together hold exactly
      as many players as the list. */
  lemma RunConserves(players: seq<Player>, actions: seq<Action>)
    requires Distinct(Ids(players))
    ensures var d := Run(players, actions);
      |d.pool| + |d.mine| + |d.bot1| + |d.bot2| + |d.bot3| == |players|
  {
    RunInv(players, actions);
    var d := Run(players, actions);
    assert |multiset(d.pool) + Drafted(d)| == |multiset(players)|;
  }
}

=== FILE: performances.dfy ===
/** Per-match performance records (backend/models/MatchPlayerScore.js) and the ordered bulk
    upsert that the simulate handler of backend/routes/matches.js writes them with. */
module Performances {
  import opened Results
  import opened Squads
  import opened Scoring

  /** A stored record; the schema keeps at most one per (match, player). */
  datatype ScoreRecord = ScoreRecord(
    matchId: MatchId, player: PlayerId, runs: nat, wickets: nat, catches: nat, points: nat)

  function Key(r: ScoreRecord): (MatchId, PlayerId) {
    (r.matchId, r.player)
  }

  /** A record created with only its required fields: every figure takes its default. */
  function NewRecord(m: MatchId, p: PlayerId): (r: ScoreRecord)
    ensures Key(r) == (m, p)
    ensures r.runs == 0 && r.wickets == 0 && r.catches == 0 && r.points == 0
    ensures r.points == Points(PlayerStats(p, r.runs, r.wickets, r.catches))
  {
    ScoreRecord(m, p, 0, 0, 0, 0)
  }

  /** The compound unique index on (match, player). */
  predicate UniqueKeys(rs: seq<ScoreRecord>) {
    forall i, j | 0 <= i < j < |rs| :: Key(rs[i]) != Key(rs[j])
  }

  /** The document the handler's update writes for one player. */
  function RecordFor(m: MatchId, s: PlayerStats): ScoreRecord {
    ScoreRecord(m, s.player, s.runs, s.wickets, s.catches, Points(s))
  }

  /** The record stored under a key, if any. */
  function Lookup(rs: seq<ScoreRecord>, k: (MatchId, PlayerId)): (r: Option<ScoreRecord>)
    ensures r.Some? ==> r.value in rs && Key(r.value) == k
    ensures r.None? <==> forall i | 0 <= i < |rs| :: Key(rs[i]) != k
  {
    if |rs| == 0 then None
    else if Key(rs[0]) == k then Some(rs[0])
    else
      assert forall i | 1 <= i < |rs| :: rs[i] == rs[1..][i - 1];
      Lookup(rs[1..], k)
  }

  lemma LookupUnique(rs: seq<ScoreRecord>, i: nat)
    requires UniqueKeys(rs) && i < |rs|
    ensures Lookup(rs, Key(rs[i])) == Some(rs[i])
  {
    var r := Lookup(rs, Key(rs[i]));
    var j :| 0 <= j < |rs| && rs[j] == r.value;
  }

  function FindKey(rs: seq<ScoreRecord>, k: (MatchId, PlayerId)): (i: nat)
    ensures i <= |rs|
    ensures i < |rs| ==> Key(rs[i]) == k
    ensures forall j | 0 <= j < i :: Key(rs[j]) != k
  {
    if |rs| == 0 then 0
    else if Key(rs[0]) == k then 0
    else 1 + FindKey(rs[1..], k)
  }

  /** One `updateOne` with `upsert: true`: replace the record with the same key, or add one. */
  function Upsert(rs: seq<ScoreRecord>, m: MatchId, s: PlayerStats): (r: seq<ScoreRecord>)
    ensures UniqueKeys(rs) ==> UniqueKeys(r)
    ensures Lookup(rs, (m, s.player)).Some? ==> |r| == |rs|
    ensures Lookup(rs, (m, s.player)).None? ==> |r| == |rs| + 1
  {
    var i := FindKey(rs, (m, s.player));
    if i < |rs| then rs[i := RecordFor(m, s)] else rs + [RecordFor(m, s)]
  }

  /** After an upsert the key holds the new document and every other key is unaffected. */
  lemma UpsertLookup(rs: seq<ScoreRecord>, m: MatchId, s: PlayerStats, k: (MatchId, PlayerId))
    requires UniqueKeys(rs)
    ensures Lookup(Upsert(rs, m, s), k)
         == if k == (m, s.player) then Some(RecordFor(m, s)) else Lookup(rs, k)
  {
    var r := Upsert(rs, m, s);
    var i := FindKey(rs, (m, s.player));
    if k == (m, s.player) {
      assert Key(r[i]) == k;
      LookupUnique(r, i);
    } else {
      var a, b := Lookup(r, k), Lookup(rs, k);
      if b.Some? {
        var j :| 0 <= j < |rs| && rs[j] == b.value;
        assert r[j] == rs[j];
        LookupUnique(r, j);
      } else {
        assert forall j | 0 <= j < |r| :: Key(r[j]) != k;
      }
    }
  }

  /** `bulkWrite` of the handler's operations, applied in order. */
  function UpsertAll(rs: seq<ScoreRecord>, m: MatchId, stats: seq<PlayerStats>): (r: seq<ScoreRecord>)
    ensures UniqueKeys(rs) ==> UniqueKeys(r)
    decreases |stats|
  {
    if |stats| == 0 then rs else UpsertAll(Upsert(rs, m, stats[0]), m, stats[1..])
  }

  /** After the bulk write each player of the run holds the record of its last entry, and every
      other key (other players, other matches) is as before. */
  lemma {:induction false} UpsertAllLookup(rs: seq<ScoreRecord>, m: MatchId, stats: seq<PlayerStats>, k: (MatchId, PlayerId))
    requires UniqueKeys(rs)
    ensures Lookup(UpsertAll(rs, m, stats), k)
         == if k.0 == m && Latest(stats, k.1).Some? then Some(RecordFor(m, Latest(stats, k.1).value))
            else Lookup(rs, k)
    decreases |stats|
  {
    if |stats| > 0 {
      var rs' := Upsert(rs, m, stats[0]);
      UpsertAllLookup(rs', m, stats[1..], k);
      UpsertLookup(rs, m, stats[0], k);
    }
  }

  /** An upsert whose key is already stored does not grow the collection. */
  lemma {:induction false} UpsertAllPresent(rs: seq<ScoreRecord>, m: MatchId, stats: seq<PlayerStats>)
    requires UniqueKeys(rs)
    requires forall i | 0 <= i < |stats| :: Lookup(rs, (m, stats[i].player)).Some?
    ensures |UpsertAll(rs, m, stats)| == |rs|
    decreases |stats|
  {
    if |stats| > 0 {
      var rs' := Upsert(rs, m, stats[0]);
      forall i | 0 <= i < |stats[1..]| ensures Lookup(rs', (m, stats[1..][i].player)).Some? {
        UpsertLookup(rs, m, stats[0], (m, stats[1..][i].player));
      }
      UpsertAllPresent(rs', m, stats[1..]);
    }
  }

  /** Rerunning the same bulk write replaces records instead of adding any: the collection
      keeps its size and every key keeps the record of the first run. */
  lemma RerunReplaces(rs: seq<ScoreRecord>, m: MatchId, stats: seq<PlayerStats>, k: (MatchId, PlayerId))
    requires UniqueKeys(rs)
    ensures |UpsertAll(UpsertAll(rs, m, stats), m, stats)| == |UpsertAll(rs, m, stats)|
    ensures Lookup(UpsertAll(UpsertAll(rs, m, stats), m, stats), k) == Lookup(UpsertAll(rs, m, stats), k)
  {
    var once := UpsertAll(rs, m, stats);
    forall i | 0 <= i < |stats| ensures Lookup(once, (m, stats[i].player)).Some? {
      UpsertAllLookup(rs, m, stats, (m, stats[i].player));
    }
    UpsertAllPresent(once, m, stats);
    UpsertAllLookup(once, m, stats, k);
    UpsertAllLookup(rs, m, stats, k);
  }
}

=== FILE: results.dfy ===
/** Outcomes shared by the route handlers: a value, or the HTTP status and message a handler
    answers with when it refuses a request. */
module Results {

  /** The status codes the routes answer with on failure. */
  const BadRequest: nat := 400
  const NotFound: nat := 404
  const ServerError: nat := 500

  /** The JSON body `{ message }` with a non-2xx status, or a value. */
  datatype Result<+T> = Ok(value: T) | Err(status: nat, message: string) {

    predicate IsFailure() {
      Err?
    }

    function PropagateFailure<U>(): Result<U>
      requires Err?
    {
      Err(status, message)
    }

    function Extract(): T
      requires Ok?
    {
      value
    }
  }

  /** A value that may be absent: `undefined` / `null` in the source. */
  datatype Option<+T> = None | Some(value: T)

  /** JavaScript truthiness of an optional string: `undefined`, `null` and `''` are falsy. */
  predicate Present(o: Option<string>) {
    o.Some? && o.value != ""
  }
}

=== FILE: roster.dfy ===
/** Player lists as the client holds them: players fetched from `GET /api/players`, with their
    credit cost in half-credits (the catalogue prices in steps of 0.5). Both the team builder
    and the mock draft remove a player from a list by id. */
module Roster {
  import opened Seqs
  import opened Squads

  datatype Player = Player(id: PlayerId, credits: nat)

  function Ids(s: seq<Player>): (r: seq<PlayerId>)
    ensures |r| == |s|
    ensures forall i | 0 <= i < |s| :: r[i] == s[i].id
  {
    seq(|s|, i requires 0 <= i < |s| => s[i].id)
  }

  function CreditsOf(p: Player): int {
    p.credits
  }

  /** `list.filter(p => p._id !== id)`. */
  function WithoutId(s: seq<Player>, id: PlayerId): (r: seq<Player>)
    ensures |r| <= |s|
  {
    if |s| == 0 then []
    else (if s[0].id == id then [] else [s[0]]) + WithoutId(s[1..], id)
  }

  /** Removal keeps every other player, adds nothing, and leaves no player with that id. */
  lemma {:induction false} WithoutIdFacts(s: seq<Player>, id: PlayerId)
    ensures id !in Ids(WithoutId(s, id))
    ensures forall i | 0 <= i < |s| && s[i].id != id :: s[i] in WithoutId(s, id)
    ensures multiset(WithoutId(s, id)) <= multiset(s)
    decreases |s|
  {
    if |s| > 0 {
      WithoutIdFacts(s[1..], id);
      var h: seq<Player> := if s[0].id == id then [] else [s[0]];
      var r := WithoutId(s, id);
      assert r == h + WithoutId(s[1..], id);
      assert s == [s[0]] + s[1..];
      forall i | 0 <= i < |r| ensures r[i].id != id {
        if i >= |h| {
          assert r[i] == WithoutId(s[1..], id)[i - |h|];
          assert Ids(WithoutId(s[1..], id))[i - |h|] == r[i].id;
        }
      }
      forall i | 0 <= i < |s| && s[i].id != id ensures s[i] in r {
        if i > 0 {
          assert s[i] == s[1..][i - 1];
        }
      }
    }
  }

  lemma {:induction false} WithoutIdAppend(a: seq<Player>, b: seq<Player>, id: PlayerId)
    ensures WithoutId(a + b, id) == WithoutId(a, id) + WithoutId(b, id)
    decreases |a|
  {
    if |a| == 0 {
      assert a + b == b;
    } else {
      assert (a + b)[1..] == a[1..] + b;
      WithoutIdAppend(a[1..], b, id);
    }
  }

  /** Removing an id that is not there changes nothing. */
  lemma {:induction false} WithoutAbsentId(s: seq<Player>, id: PlayerId)
    requires id !in Ids(s)
    ensures WithoutId(s, id) == s
    decreases |s|
  {
    if |s| > 0 {
      assert Ids(s)[0] == s[0].id;
      assert id !in Ids(s[1..]) by {
        assert forall i | 0 <= i < |s| - 1 :: Ids(s[1..])[i] == Ids(s)[i + 1];
      }
      WithoutAbsentId(s[1..], id);
      assert s == [s[0]] + s[1..];
    }
  }

  /** With distinct ids, removing the id of the player at `i` cuts out exactly that player and
      keeps the others in order. */
  lemma WithoutPresentId(s: seq<Player>, i: nat)
    requires Distinct(Ids(s)) && i < |s|
    ensures WithoutId(s, s[i].id) == s[..i] + s[i + 1..]
    ensures multiset(s) == multiset(WithoutId(s, s[i].id)) + multiset{s[i]}
    ensures Sum(s, CreditsOf) == Sum(WithoutId(s, s[i].id), CreditsOf) + s[i].credits
  {
    DistinctUniqueAt(s, i);
    WithoutUniqueAt(s, i);
    CutFacts(s, i);
  }

  lemma DistinctUniqueAt(s: seq<Player>, i: nat)
    requires Distinct(Ids(s)) && i < |s|
    ensures UniqueAt(s, i)
  {
    assert forall k | 0 <= k < |s| :: Ids(s)[k] == s[k].id;
  }

  /** Cutting out position `i` removes one copy of that player and its credits. */
  lemma CutFacts(s: seq<Player>, i: nat)
    requires i < |s|
    ensures multiset(s) == multiset(s[..i] + s[i + 1..]) + multiset{s[i]}
    ensures Sum(s, CreditsOf) == Sum(s[..i] + s[i + 1..], CreditsOf) + s[i].credits
  {
    var a, b := s[..i], s[i + 1..];
    assert s == a + [s[i]] + b;
    SumAppend(a + [s[i]], b, CreditsOf);
    SumAppend(a, [s[i]], CreditsOf);
    SumAppend(a, b, CreditsOf);
  }

  /** No other player has the id of the player at `i`. */
  ghost predicate UniqueAt(s: seq<Player>, i: nat)
    requires i < |s|
  {
    forall k | 0 <= k < |s| && k != i :: s[k].id != s[i].id
  }

  lemma {:induction false} WithoutUniqueAt(s: seq<Player>, i: nat)
    requires i < |s| && UniqueAt(s, i)
    ensures WithoutId(s, s[i].id) == s[..i] + s[i + 1..]
    decreases i
  {
    var t := s[1..];
    if i == 0 {
      assert s[0].id !in Ids(t) by {
        assert forall k | 0 <= k < |t| :: Ids(t)[k] == s[k + 1].id;
      }
      WithoutHead(s);
    } else {
      assert t[i - 1] == s[i];
      assert UniqueAt(t, i - 1) by {
        assert forall k | 0 <= k < |t| :: t[k] == s[k + 1];
      }
      WithoutUniqueAt(t, i - 1);
      assert WithoutId(s, s[i].id) == [s[0]] + WithoutId(t, s[i].id);
      assert [s[0]] + (t[..i - 1] + t[i..]) == s[..i] + s[i + 1..];
    }
  }

  /** Removing the head's id, found nowhere else, leaves the tail. */
  lemma WithoutHead(s: seq<Player>)
    requires |s| > 0 && s[0].id !in Ids(s[1..])
    ensures WithoutId(s, s[0].id) == s[1..]
  {
    var t := s[1..];
    assert WithoutId(s, s[0].id) == [] + WithoutId(t, s[0].id);
    WithoutAbsentId(t, s[0].id);
  }

  /** Appending a player with a new id keeps ids distinct. */
  lemma AppendFreshId(s: seq<Player>, p: Player)
    requires Distinct(Ids(s)) && p.id !in Ids(s)
    ensures Distinct(Ids(s + [p]))
    ensures Sum(s + [p], CreditsOf) == Sum(s, CreditsOf) + p.credits
  {
    assert Ids(s + [p]) == Ids(s) + [p.id];
    SumAppend(s, [p], CreditsOf);
  }

  /** Removing players keeps ids distinct. */
  lemma {:induction false} WithoutIdDistinct(s: seq<Player>, id: PlayerId)
    requires Distinct(Ids(s))
    ensures Distinct(Ids(WithoutId(s, id)))
    decreases |s|
  {
    if |s| > 0 {
      var h, t := s[0], s[1..];
      assert Distinct(Ids(t)) by {
        assert forall i | 0 <= i < |t| :: Ids(t)[i] == Ids(s)[i + 1];
      }
      WithoutIdDistinct(t, id);
      var rt := WithoutId(t, id);
      if h.id != id {
        WithoutIdFacts(t, id);
        SubMultisetMembers(rt, t);
        forall i | 0 <= i < |rt| ensures rt[i].id != h.id {
          var k :| 0 <= k < |t| && t[k] == rt[i];
          assert Ids(s)[k + 1] != Ids(s)[0];
        }
        ConsFreshId(h, rt);
      }
    }
  }

  lemma ConsFreshId(h: Player, t: seq<Player>)
    requires Distinct(Ids(t))
    requires forall i | 0 <= i < |t| :: t[i].id != h.id
    ensures Distinct(Ids([h] + t))
  {
    assert Ids([h] + t) == [h.id] + Ids(t);
  }

  /** An id missing from a list is missing from every part of it. */
  lemma IdsSubMultiset(a: seq<Player>, b: seq<Player>, id: PlayerId)
    requires multiset(a) <= multiset(b) && id !in Ids(b)
    ensures id !in Ids(a)
  {
    SubMultisetMembers(a, b);
    forall k | 0 <= k < |a| ensures Ids(a)[k] != id {
      var j :| 0 <= j < |b| && b[j] == a[k];
      assert Ids(b)[j] == b[j].id;
    }
  }
}

=== FILE: scoring.dfy ===
/** The scoring rule and the captain / vice-captain multipliers of the simulate handler in
    backend/routes/matches.js. Player points are integers; squad totals are kept in
    half-points so that the vice-captain's 1.5x stays exact. */
module Scoring {
  import opened Results
  import opened Seqs
  import opened Squads

  const RunPoints: nat := 1
  const WicketPoints: nat := 25
  const CatchPoints: nat := 8

  /** Multipliers in half-units: captain 2x, vice-captain 1.5x, everyone else 1x. */
  const CaptainHalves: nat := 4
  const ViceCaptainHalves: nat := 3
  const PlainHalves: nat := 2

  /** One player's raw figures for a match. */
  datatype PlayerStats = PlayerStats(player: PlayerId, runs: nat, wickets: nat, catches: nat)

  /** Fantasy points for one performance. */
  function Points(p: PlayerStats): (pts: nat)
    ensures pts == 0 <==> p.runs == 0 && p.wickets == 0 && p.catches == 0
    ensures p.runs <= pts && WicketPoints * p.wickets <= pts && CatchPoints * p.catches <= pts
  {
    RunPoints * p.runs + WicketPoints * p.wickets + CatchPoints * p.catches
  }

  /** The weights: one more run is worth exactly 1 point, one more wicket 25, one more catch 8. */
  lemma PointsWeights(p: PlayerStats)
    ensures Points(p.(runs := p.runs + 1)) == Points(p) + 1
    ensures Points(p.(wickets := p.wickets + 1)) == Points(p) + 25
    ensures Points(p.(catches := p.catches + 1)) == Points(p) + 8
    ensures Points(PlayerStats(p.player, 0, 0, 0)) == 0
  {
  }

  /** Points are additive: two spells of play score what their combined figures score. */
  lemma PointsAdditive(a: PlayerStats, b: PlayerStats)
    requires a.player == b.player
    ensures Points(PlayerStats(a.player, a.runs + b.runs, a.wickets + b.wickets, a.catches + b.catches))
         == Points(a) + Points(b)
  {
  }

  /** The stats a player was last given in `stats`. */
  function Latest(stats: seq<PlayerStats>, p: PlayerId): (r: Option<PlayerStats>)
    ensures r.Some? ==> r.value in stats && r.value.player == p
    ensures r.None? <==> forall i | 0 <= i < |stats| :: stats[i].player != p
  {
    if |stats| == 0 then None
    else
      var rest := Latest(stats[1..], p);
      assert forall i | 1 <= i < |stats| :: stats[i] == stats[1..][i - 1];
      if rest.Some? then rest
      else if stats[0].player == p then Some(stats[0])
      else None
  }

  /** Later entries win. */
  lemma {:induction false} LatestSnoc(stats: seq<PlayerStats>, s: PlayerStats, p: PlayerId)
    ensures Latest(stats + [s], p) == if s.player == p then Some(s) else Latest(stats, p)
    decreases |stats|
  {
    if |stats| == 0 {
      assert (stats + [s])[1..] == [];
    } else {
      assert (stats + [s])[1..] == stats[1..] + [s];
      LatestSnoc(stats[1..], s, p);
    }
  }

  /** The `scoreMap` of the handler: each player's points, set in input order, so a player
      listed twice keeps the points of the last entry. */
  function ScoreMap(stats: seq<PlayerStats>): (m: map<PlayerId, nat>)
    ensures forall p :: p in m <==> Latest(stats, p).Some?
    ensures forall p | p in m :: m[p] == Points(Latest(stats, p).value)
  {
    if |stats| == 0 then map[]
    else
      var n := |stats| - 1;
      var m := ScoreMap(stats[..n]);
      assert stats == stats[..n] + [stats[n]];
      forall p ensures Latest(stats, p) == if stats[n].player == p then Some(stats[n]) else Latest(stats[..n], p) {
        LatestSnoc(stats[..n], stats[n], p);
      }
      m[stats[n].player := Points(stats[n])]
  }

  /** `scoreMap.get(id) || 0`: a player with no entry scores nothing. */
  function BasePoints(scores: map<PlayerId, nat>, p: PlayerId): nat {
    if p in scores then scores[p] else 0
  }

  /** The multiplier, in halves, the handler applies to a roster entry; the captain test
      comes first, so a player who is both scores as captain only. */
  function HalfMultiplier(squad: Squad, p: PlayerId): nat {
    if p == squad.captain then CaptainHalves
    else if p == squad.viceCaptain then ViceCaptainHalves
    else PlainHalves
  }

  /** Unmultiplied points of a roster. */
  function RosterBase(scores: map<PlayerId, nat>, roster: seq<PlayerId>): nat {
    if |roster| == 0 then 0 else BasePoints(scores, roster[0]) + RosterBase(scores, roster[1..])
  }

  /** Multiplied points of a roster, in half-points: between 1x and 2x the unmultiplied sum. */
  function RosterHalfPoints(squad: Squad, scores: map<PlayerId, nat>, roster: seq<PlayerId>): (h: nat)
    ensures PlainHalves * RosterBase(scores, roster) <= h <= CaptainHalves * RosterBase(scores, roster)
  {
    if |roster| == 0 then 0
    else HalfMultiplier(squad, roster[0]) * BasePoints(scores, roster[0])
         + RosterHalfPoints(squad, scores, roster[1..])
  }

  /** A squad's total for one match, in half-points: the loop over `team.players`. */
  function SquadHalfPoints(squad: Squad, scores: map<PlayerId, nat>): nat {
    RosterHalfPoints(squad, scores, squad.players)
  }

  lemma {:induction false} RosterAppend(squad: Squad, scores: map<PlayerId, nat>, a: seq<PlayerId>, b: seq<PlayerId>)
    ensures RosterHalfPoints(squad, scores, a + b)
         == RosterHalfPoints(squad, scores, a) + RosterHalfPoints(squad, scores, b)
    decreases |a|
  {
    if |a| == 0 {
      assert a + b == b;
    } else {
      assert (a + b)[1..] == a[1..] + b;
      RosterAppend(squad, scores, a[1..], b);
    }
  }

  /** A roster entry with no score adds nothing to the total. */
  lemma AbsentPlayerAddsNothing(squad: Squad, scores: map<PlayerId, nat>, a: seq<PlayerId>, p: PlayerId, b: seq<PlayerId>)
    requires p !in scores
    ensures RosterHalfPoints(squad, scores, a + [p] + b) == RosterHalfPoints(squad, scores, a + b)
  {
    RosterAppend(squad, scores, a + [p], b);
    RosterAppend(squad, scores, a, [p]);
    RosterAppend(squad, scores, a, b);
  }

  /** The points of one roster entry as a function, for the generic sum. */
  function Adjusted(squad: Squad, scores: map<PlayerId, nat>): PlayerId -> int {
    p => HalfMultiplier(squad, p) * BasePoints(scores, p)
  }

  lemma {:induction false} RosterIsSum(squad: Squad, scores: map<PlayerId, nat>, roster: seq<PlayerId>)
    ensures RosterHalfPoints(squad, scores, roster) == Sum(roster, Adjusted(squad, scores))
    decreases |roster|
  {
    if |roster| > 0 {
      RosterIsSum(squad, scores, roster[1..]);
    }
  }

  /** The order of the roster does not matter. */
  lemma RosterPermutation(squad: Squad, scores: map<PlayerId, nat>, a: seq<PlayerId>, b: seq<PlayerId>)
    requires multiset(a) == multiset(b)
    ensures RosterHalfPoints(squad, scores, a) == RosterHalfPoints(squad, scores, b)
  {
    RosterIsSum(squad, scores, a);
    RosterIsSum(squad, scores, b);
    SumPermutation(a, b, Adjusted(squad, scores));
  }

  /** The total depends on the squad only through its captain and vice-captain, so
      overwriting `totalPoints` or `rank` does not change what a rerun computes. */
  lemma {:induction false} RosterDependsOnDesignation(s1: Squad, s2: Squad, scores: map<PlayerId, nat>, roster: seq<PlayerId>)
    requires s1.captain == s2.captain && s1.viceCaptain == s2.viceCaptain
    ensures RosterHalfPoints(s1, scores, roster) == RosterHalfPoints(s2, scores, roster)
    decreases |roster|
  {
    if |roster| > 0 {
      RosterDependsOnDesignation(s1, s2, scores, roster[1..]);
    }
  }

  /** The multipliers as bonuses on top of the plain sum: each captain entry earns its base
      points once more (2x), each vice-captain entry half its base points more (1.5x), and a
      player named both earns only the captain's bonus. */
  lemma {:induction false} RosterBonuses(squad: Squad, scores: map<PlayerId, nat>, roster: seq<PlayerId>)
    ensures RosterHalfPoints(squad, scores, roster)
         == PlainHalves * RosterBase(scores, roster)
            + 2 * (multiset(roster)[squad.captain] * BasePoints(scores, squad.captain))
            + (if squad.viceCaptain != squad.captain
               then multiset(roster)[squad.viceCaptain] * BasePoints(scores, squad.viceCaptain)
               else 0)
    decreases |roster|
  {
    if |roster| > 0 {
      var h, rest := roster[0], roster[1..];
      var c, v := squad.captain, squad.viceCaptain;
      RosterBonuses(squad, scores, rest);
      assert roster == [h] + rest;
      assert multiset(roster) == multiset{h} + multiset(rest);
      assert multiset(roster)[c] == multiset(rest)[c] + (if h == c then 1 else 0);
      assert multiset(roster)[v] == multiset(rest)[v] + (if h == v then 1 else 0);
      BonusStep(HalfMultiplier(squad, h), BasePoints(scores, h), BasePoints(scores, c),
                BasePoints(scores, v), multiset(rest)[c], multiset(rest)[v],
                RosterHalfPoints(squad, scores, rest), RosterBase(scores, rest),
                h == c, h == v, v != c);
    }
  }

  /** The arithmetic of one step of `RosterBonuses`. */
  lemma BonusStep(hm: nat, bh: nat, bc: nat, bv: nat, cc: nat, vc: nat, rr: int, br: int,
                  hc: bool, hv: bool, vnc: bool)
    requires hc ==> hm == CaptainHalves && bh == bc
    requires !hc && hv ==> hm == ViceCaptainHalves && bh == bv
    requires !hc && !hv ==> hm == PlainHalves
    requires hv && !vnc ==> hc
    requires hc && hv ==> !vnc
    requires rr == 2 * br + 2 * (cc * bc) + (if vnc then vc * bv else 0)
    ensures hm * bh + rr == 2 * (bh + br) + 2 * ((cc + (if hc then 1 else 0)) * bc)
            + (if vnc then (vc + (if hv then 1 else 0)) * bv else 0)
  {
    if hc {
      assert (cc + 1) * bc == cc * bc + bc;
    } else if hv {
      assert (vc + 1) * bv == vc * bv + bv;
    }
  }

  lemma {:induction false} RosterUnscored(squad: Squad, scores: map<PlayerId, nat>, roster: seq<PlayerId>)
    requires forall i | 0 <= i < |roster| :: roster[i] !in scores
    ensures RosterHalfPoints(squad, scores, roster) == 0
    decreases |roster|
  {
    if |roster| > 0 {
      RosterUnscored(squad, scores, roster[1..]);
    }
  }

  /** A worked example: captain scoring 50, vice-captain 20 and nine players on 0 give 130
      points, that is 260 half-points. */
  lemma CaptainAndViceExample(bench: seq<PlayerId>)
    requires |bench| == 9
    requires forall i | 0 <= i < |bench| :: bench[i] != "c" && bench[i] != "v"
    ensures
      var squad := Squad("t", "u", "m", "T", ["c", "v"] + bench, "c", "v", 0, 0, false, false, 0);
      SquadHalfPoints(squad, map["c" := 50, "v" := 20]) == 260
  {
    var squad := Squad("t", "u", "m", "T", ["c", "v"] + bench, "c", "v", 0, 0, false, false, 0);
    var scores := map["c" := 50, "v" := 20];
    RosterAppend(squad, scores, ["c", "v"], bench);
    RosterUnscored(squad, scores, bench);
    assert ["c", "v"][1..] == ["v"];
    assert "c" != "v";
  }
}

=== FILE: seqs.dfy ===
/** Sums, filters and distinctness over sequences, with the permutation facts the
    leaderboards rely on. */
module Seqs {

  /** Sum of `f` over the elements of `s`, in order. */
  function Sum<T>(s: seq<T>, f: T -> int): int
  {
    if |s| == 0 then 0 else f(s[0]) + Sum(s[1..], f)
  }

  lemma {:induction false} SumAppend<T>(a: seq<T>, b: seq<T>, f: T -> int)
    ensures Sum(a + b, f) == Sum(a, f) + Sum(b, f)
    decreases |a|
  {
    if |a| == 0 {
      assert a + b == b;
    } else {
      assert (a + b)[1..] == a[1..] + b;
      SumAppend(a[1..], b, f);
    }
  }

  /** A sum does not depend on the order of its terms. */
  lemma {:induction false} SumPermutation<T>(a: seq<T>, b: seq<T>, f: T -> int)
    requires multiset(a) == multiset(b)
    ensures Sum(a, f) == Sum(b, f)
    decreases |a|
  {
    if |a| == 0 {
      assert |multiset(b)| == 0;
    } else {
      var x := a[0];
      assert x in multiset(a);
      var i :| 0 <= i < |b| && b[i] == x;
      var rest := b[..i] + b[i + 1..];
      assert b == b[..i] + [x] + b[i + 1..];
      assert a == [x] + a[1..];
      assert multiset(b) == multiset(b[..i]) + multiset{x} + multiset(b[i + 1..]);
      assert multiset(rest) == multiset(b[..i]) + multiset(b[i + 1..]);
      assert multiset(a) == multiset{x} + multiset(a[1..]);
      assert multiset(a[1..]) == multiset(a) - multiset{x};
      assert multiset(rest) == multiset(b) - multiset{x};
      SumPermutation(a[1..], rest, f);
      SumAppend(b[..i] + [x], b[i + 1..], f);
      SumAppend(b[..i], [x], f);
      SumAppend(b[..i], b[i + 1..], f);
    }
  }

  /** The elements of `s` satisfying `p`, in order. */
  function Filter<T>(s: seq<T>, p: T -> bool): (r: seq<T>)
    ensures |r| <= |s|
    ensures forall i | 0 <= i < |r| :: p(r[i])
    ensures forall i | 0 <= i < |s| && p(s[i]) :: s[i] in r
    ensures multiset(r) <= multiset(s)
  {
    if |s| == 0 then []
    else
      assert s == [s[0]] + s[1..];
      (if p(s[0]) then [s[0]] else []) + Filter(s[1..], p)
  }

  lemma {:induction false} FilterAppend<T>(a: seq<T>, b: seq<T>, p: T -> bool)
    ensures Filter(a + b, p) == Filter(a, p) + Filter(b, p)
    decreases |a|
  {
    if |a| == 0 {
      assert a + b == b;
    } else {
      assert (a + b)[1..] == a[1..] + b;
      FilterAppend(a[1..], b, p);
    }
  }

  /** Filters by predicates that agree on the elements give the same result. */
  lemma {:induction false} FilterAgree<T>(s: seq<T>, p: T -> bool, q: T -> bool)
    requires forall i | 0 <= i < |s| :: p(s[i]) == q(s[i])
    ensures Filter(s, p) == Filter(s, q)
    decreases |s|
  {
    if |s| > 0 {
      FilterAgree(s[1..], p, q);
    }
  }

  /** A filter every element passes changes nothing. */
  lemma {:induction false} FilterAll<T>(s: seq<T>, p: T -> bool)
    requires forall i | 0 <= i < |s| :: p(s[i])
    ensures Filter(s, p) == s
    decreases |s|
  {
    if |s| > 0 {
      FilterAll(s[1..], p);
    }
  }

  /** Every element of a sub-multiset occurs in the larger sequence. */
  lemma SubMultisetMembers<T>(a: seq<T>, b: seq<T>)
    requires multiset(a) <= multiset(b)
    ensures forall i | 0 <= i < |a| :: a[i] in b
  {
    forall i | 0 <= i < |a| ensures a[i] in b {
      assert a[i] in multiset(a);
    }
  }

  /** No element occurs twice. */
  predicate Distinct<T(==)>(s: seq<T>) {
    forall i, j | 0 <= i < j < |s| :: s[i] != s[j]
  }

  /** Distinctness is a property of the multiset: every multiplicity is at most one. */
  lemma {:induction false} DistinctMultiplicity<T>(s: seq<T>)
    ensures Distinct(s) <==> forall x :: multiset(s)[x] <= 1
    decreases |s|
  {
    if |s| > 0 {
      var h, t := s[0], s[1..];
      assert s == [h] + t;
      DistinctMultiplicity(t);
      assert Distinct(s) <==> Distinct(t) && h !in t by {
        if Distinct(s) {
          forall i, j | 0 <= i < j < |t| ensures t[i] != t[j] {
            assert s[i + 1] != s[j + 1];
          }
        }
        if Distinct(t) && h !in t {
          forall i, j | 0 <= i < j < |s| ensures s[i] != s[j] {
            if i == 0 {
              assert s[j] == t[j - 1];
            } else {
              assert s[i] == t[i - 1] && s[j] == t[j - 1];
            }
          }
        }
      }
      assert forall x :: multiset(s)[x] == multiset(t)[x] + (if x == h then 1 else 0);
      if forall x :: multiset(s)[x] <= 1 {
        assert multiset(t)[h] == 0;
      }
    }
  }

  /** Reordering keeps a sequence free of repeats. */
  lemma DistinctPermutation<T>(a: seq<T>, b: seq<T>)
    requires multiset(a) == multiset(b)
    requires Distinct(a)
    ensures Distinct(b)
  {
    DistinctMultiplicity(a);
    DistinctMultiplicity(b);
  }

  /** A subsequence of a repeat-free sequence is repeat-free. */
  lemma DistinctSubMultiset<T>(a: seq<T>, b: seq<T>)
    requires multiset(b) <= multiset(a)
    requires Distinct(a)
    ensures Distinct(b)
  {
    DistinctMultiplicity(a);
    DistinctMultiplicity(b);
  }

  /** The position of the first occurrence of `x`. */
  function IndexOf<T(==)>(s: seq<T>, x: T): (i: nat)
    requires x in s
    ensures i < |s| && s[i] == x
    ensures forall j | 0 <= j < i :: s[j] != x
  {
    if s[0] == x then 0 else 1 + IndexOf(s[1..], x)
  }

  lemma IndexOfDistinct<T>(s: seq<T>, i: nat)
    requires Distinct(s)
    requires i < |s|
    ensures IndexOf(s, s[i]) == i
  {
  }
}

=== FILE: sorting.dfy ===
/** Descending orderings by an integer key. `SortDesc` is a stable insertion sort: it is the
    order `Array.prototype.sort` produces for a comparator `(a, b) => key(b) - key(a)`, since
    that sort is required to be stable (the clause `Array.prototype.sort` of ECMA-262, 2019
    edition onwards).
    Database sorts that give no tie order are described only by `IsDescOrdering`. */
module Sorting {
  import opened Seqs

  /** Keys never increase from left to right. */
  ghost predicate SortedDesc<T>(s: seq<T>, key: T -> int) {
    forall i, j | 0 <= i < j < |s| :: key(s[i]) >= key(s[j])
  }

  /** In a non-increasing sequence a strictly larger key comes strictly earlier. */
  lemma SortedDescBefore<T>(s: seq<T>, key: T -> int, a: nat, b: nat)
    requires SortedDesc(s, key)
    requires a < |s| && b < |s|
    ensures key(s[a]) > key(s[b]) ==> a < b
  {
  }

  /** `out` is some reordering of `input` with non-increasing keys; ties in any order. */
  ghost predicate IsDescOrdering<T>(out: seq<T>, input: seq<T>, key: T -> int) {
    multiset(out) == multiset(input) && SortedDesc(out, key)
  }

  /** The elements of `s` whose key is `k`, in their order in `s`. */
  function KeyClass<T>(s: seq<T>, key: T -> int, k: int): seq<T> {
    if |s| == 0 then []
    else (if key(s[0]) == k then [s[0]] else []) + KeyClass(s[1..], key, k)
  }

  /** `x` placed after every element whose key is at least its own. */
  function Insert<T>(x: T, s: seq<T>, key: T -> int): (r: seq<T>)
    ensures |r| == |s| + 1
  {
    if |s| == 0 then [x]
    else if key(s[0]) < key(x) then [x] + s
    else [s[0]] + Insert(x, s[1..], key)
  }

  /** Insertion adds `x` and nothing else, and keeps a sorted sequence sorted. */
  lemma {:induction false} InsertFacts<T>(x: T, s: seq<T>, key: T -> int)
    ensures multiset(Insert(x, s, key)) == multiset(s) + multiset{x}
    ensures forall y | y in Insert(x, s, key) :: y in s || y == x
    ensures SortedDesc(s, key) ==> SortedDesc(Insert(x, s, key), key)
    decreases |s|
  {
    if |s| == 0 {
    } else if key(s[0]) < key(x) {
      if SortedDesc(s, key) {
        SortedCons(x, s, key);
      }
    } else {
      assert s == [s[0]] + s[1..];
      var rest := Insert(x, s[1..], key);
      InsertFacts(x, s[1..], key);
      assert Insert(x, s, key) == [s[0]] + rest;
      if SortedDesc(s, key) {
        assert SortedDesc(s[1..], key);
        SortedCons(s[0], rest, key);
      }
    }
  }

  /** A head whose key bounds every key of a sorted tail keeps the sequence sorted. */
  lemma SortedCons<T>(h: T, t: seq<T>, key: T -> int)
    requires SortedDesc(t, key)
    requires forall y | y in t :: key(y) <= key(h)
    ensures SortedDesc([h] + t, key)
  {
    var r := [h] + t;
    forall i, j | 0 <= i < j < |r| ensures key(r[i]) >= key(r[j]) {
      assert r[j] == t[j - 1];
      if i > 0 {
        assert r[i] == t[i - 1];
      }
    }
  }

  /** Stable descending sort: elements are taken in input order and each is inserted after
      every element already placed whose key is at least its own. */
  function SortDesc<T>(s: seq<T>, key: T -> int): (r: seq<T>)
    ensures IsDescOrdering(r, s, key)
    ensures |r| == |s|
  {
    if |s| == 0 then []
    else
      var n := |s| - 1;
      assert s == s[..n] + [s[n]];
      InsertFacts(s[n], SortDesc(s[..n], key), key);
      Insert(s[n], SortDesc(s[..n], key), key)
  }

  lemma {:induction false} KeyClassAppend<T>(a: seq<T>, b: seq<T>, key: T -> int, k: int)
    ensures KeyClass(a + b, key, k) == KeyClass(a, key, k) + KeyClass(b, key, k)
    decreases |a|
  {
    if |a| == 0 {
      assert a + b == b;
    } else {
      var h: seq<T> := if key(a[0]) == k then [a[0]] else [];
      assert a + b == [a[0]] + (a[1..] + b);
      KeyClassCons(a[0], a[1..] + b, key, k);
      KeyClassAppend(a[1..], b, key, k);
      calc {
        KeyClass(a + b, key, k);
        h + KeyClass(a[1..] + b, key, k);
        h + (KeyClass(a[1..], key, k) + KeyClass(b, key, k));
        (h + KeyClass(a[1..], key, k)) + KeyClass(b, key, k);
        KeyClass(a, key, k) + KeyClass(b, key, k);
      }
    }
  }

  lemma KeyClassCons<T>(h: T, t: seq<T>, key: T -> int, k: int)
    ensures KeyClass([h] + t, key, k) == (if key(h) == k then [h] else []) + KeyClass(t, key, k)
  {
    assert ([h] + t)[1..] == t;
  }

  lemma KeyClassHead<T>(s: seq<T>, key: T -> int)
    requires |s| > 0
    ensures KeyClass(s, key, key(s[0])) != []
  {
  }

  lemma {:induction false} KeyClassEmpty<T>(s: seq<T>, key: T -> int, k: int)
    requires forall i | 0 <= i < |s| :: key(s[i]) < k
    ensures KeyClass(s, key, k) == []
    decreases |s|
  {
    if |s| > 0 {
      KeyClassEmpty(s[1..], key, k);
    }
  }

  /** Inserting `x` appends it to its own key class and leaves every other class alone. */
  lemma {:induction false} KeyClassInsert<T>(x: T, s: seq<T>, key: T -> int, k: int)
    requires SortedDesc(s, key)
    ensures KeyClass(Insert(x, s, key), key, k)
         == KeyClass(s, key, k) + (if key(x) == k then [x] else [])
    decreases |s|
  {
    if |s| == 0 {
      assert Insert(x, s, key) == [x] + s;
      KeyClassCons(x, s, key, k);
    } else if key(s[0]) < key(x) {
      assert Insert(x, s, key) == [x] + s;
      KeyClassCons(x, s, key, k);
      if key(x) == k {
        KeyClassEmpty(s, key, k);
      }
    } else {
      assert SortedDesc(s[1..], key);
      KeyClassInsert(x, s[1..], key, k);
      KeyClassInsertStep(x, s, key, k);
    }
  }

  /** The inductive step of `KeyClassInsert`, where `x` goes after the head. */
  lemma KeyClassInsertStep<T>(x: T, s: seq<T>, key: T -> int, k: int)
    requires |s| > 0 && key(s[0]) >= key(x)
    requires KeyClass(Insert(x, s[1..], key), key, k)
          == KeyClass(s[1..], key, k) + (if key(x) == k then [x] else [])
    ensures KeyClass(Insert(x, s, key), key, k)
         == KeyClass(s, key, k) + (if key(x) == k then [x] else [])
  {
    var rest := Insert(x, s[1..], key);
    var h: seq<T> := if key(s[0]) == k then [s[0]] else [];
    var e: seq<T> := if key(x) == k then [x] else [];
    assert Insert(x, s, key) == [s[0]] + rest;
    KeyClassCons(s[0], rest, key, k);
    calc {
      KeyClass(Insert(x, s, key), key, k);
      h + KeyClass(rest, key, k);
      h + (KeyClass(s[1..], key, k) + e);
      (h + KeyClass(s[1..], key, k)) + e;
      KeyClass(s, key, k) + e;
    }
  }

  /** Stability: for every key, the elements with that key keep their input order. */
  lemma {:induction false} SortDescStable<T>(s: seq<T>, key: T -> int, k: int)
    ensures KeyClass(SortDesc(s, key), key, k) == KeyClass(s, key, k)
    decreases |s|
  {
    if |s| > 0 {
      var n := |s| - 1;
      assert s == s[..n] + [s[n]];
      SortDescStable(s[..n], key, k);
      KeyClassInsert(s[n], SortDesc(s[..n], key), key, k);
      KeyClassAppend(s[..n], [s[n]], key, k);
    }
  }

  /** Stability characterises the sort: a sorted sequence with the same key classes as the
      input is the stable sort of the input. */
  lemma {:induction false} StableOrderingUnique<T>(out: seq<T>, s: seq<T>, key: T -> int)
    requires SortedDesc(out, key)
    requires forall k :: KeyClass(out, key, k) == KeyClass(s, key, k)
    ensures out == SortDesc(s, key)
  {
    var r := SortDesc(s, key);
    forall k ensures KeyClass(r, key, k) == KeyClass(s, key, k) {
      SortDescStable(s, key, k);
    }
    SortedSameClassesEqual(out, r, key);
  }

  lemma {:induction false} SortedSameClassesEqual<T>(a: seq<T>, b: seq<T>, key: T -> int)
    requires SortedDesc(a, key) && SortedDesc(b, key)
    requires forall k :: KeyClass(a, key, k) == KeyClass(b, key, k)
    ensures a == b
    decreases |a| + |b|
  {
    if |a| == 0 || |b| == 0 {
      if |a| > 0 {
        KeyClassHead(a, key);
      }
      if |b| > 0 {
        KeyClassHead(b, key);
      }
    } else {
      var ka, kb := key(a[0]), key(b[0]);
      if ka < kb {
        assert KeyClass(b, key, kb)[0] == b[0];
        KeyClassEmpty(a, key, kb);
        assert false;
      } else if kb < ka {
        assert KeyClass(a, key, ka)[0] == a[0];
        KeyClassEmpty(b, key, ka);
        assert false;
      } else {
        assert KeyClass(a, key, ka)[0] == a[0];
        assert KeyClass(b, key, ka)[0] == b[0];
        assert a == [a[0]] + a[1..];
        assert b == [b[0]] + b[1..];
        assert a[0] == b[0] by {
          assert KeyClass(a, key, ka) == KeyClass(b, key, ka);
        }
        forall k ensures KeyClass(a[1..], key, k) == KeyClass(b[1..], key, k) {
          KeyClassCons(a[0], a[1..], key, k);
          KeyClassCons(b[0], b[1..], key, k);
          var pre := if ka == k then [a[0]] else [];
          assert KeyClass(a, key, k) == pre + KeyClass(a[1..], key, k);
          assert KeyClass(b, key, k) == pre + KeyClass(b[1..], key, k);
          assert KeyClass(a[1..], key, k) == KeyClass(a, key, k)[|pre|..];
          assert KeyClass(b[1..], key, k) == KeyClass(b, key, k)[|pre|..];
        }
        SortedSameClassesEqual(a[1..], b[1..], key);
      }
    }
  }

  /** `r` is a best-first selection from `input`: sorted non-increasing, drawn from `input`,
      and nothing left out has a larger key than any entry taken. */
  ghost predicate IsTopDesc<T>(r: seq<T>, input: seq<T>, key: T -> int) {
    && SortedDesc(r, key)
    && multiset(r) <= multiset(input)
    && (forall x, i | x in multiset(input) - multiset(r) && 0 <= i < |r| :: key(x) <= key(r[i]))
  }

  /** Cutting a non-increasing ordering after `n` entries keeps the `n` best. */
  lemma TopPrefix<T>(sorted: seq<T>, input: seq<T>, key: T -> int, n: nat)
    requires IsDescOrdering(sorted, input, key)
    requires n <= |sorted|
    ensures IsTopDesc(sorted[..n], input, key)
  {
    var r, tail := sorted[..n], sorted[n..];
    assert sorted == r + tail;
    assert multiset(sorted) == multiset(r) + multiset(tail);
    assert SortedDesc(r, key);
    forall x, i | x in multiset(input) - multiset(r) && 0 <= i < |r| ensures key(x) <= key(r[i]) {
      assert x in multiset(tail);
      var j :| 0 <= j < |tail| && tail[j] == x;
      assert sorted[n + j] == x;
    }
  }

  /** Dropping elements keeps a non-increasing sequence non-increasing. */
  lemma {:induction false} FilterSortedDesc<T>(s: seq<T>, p: T -> bool, key: T -> int)
    requires SortedDesc(s, key)
    ensures SortedDesc(Filter(s, p), key)
    decreases |s|
  {
    if |s| > 0 {
      var rest := Filter(s[1..], p);
      FilterSortedDesc(s[1..], p, key);
      SubMultisetMembers(rest, s[1..]);
      assert forall i | 0 <= i < |rest| :: key(rest[i]) <= key(s[0]);
      var r := Filter(s, p);
      assert r == (if p(s[0]) then [s[0]] else []) + rest;
      if p(s[0]) {
        assert forall i | 1 <= i < |r| :: r[i] == rest[i - 1];
      }
    }
  }
}

=== FILE: squads.dfy ===
/** Fantasy squads: the UserTeam document (backend/models/UserTeam.js) and the squad routes
    (backend/routes/userTeams.js). Points are stored in half-points. */
module Squads {
  import opened Results
  import opened Seqs
  import opened Sorting
  import opened Strings

  type UserId = string
  type MatchId = string
  type PlayerId = string
  type SquadId = string

  /** The roster size the create route insists on, and the schema's upper bound. */
  const SquadSize: nat := 11

  const WrongSizeMessage := "Team must have exactly 11 players"
  const SchemaMessage := "UserTeam validation failed"
  const TeamNotFoundMessage := "Team not found"

  /** A stored squad. `totalPoints` is in half-points; `createdAt` is the timestamp Mongoose
      adds on creation. */
  datatype Squad = Squad(
    id: SquadId,
    user: UserId,
    matchId: MatchId,
    teamName: string,
    players: seq<PlayerId>,
    captain: PlayerId,
    viceCaptain: PlayerId,
    totalPoints: nat,
    rank: nat,
    wicketKeeperSelected: bool,
    valid: bool,
    createdAt: nat)

  function TotalOf(s: Squad): int { s.totalPoints }

  function CreatedAtOf(s: Squad): int { s.createdAt }

  /** The schema's own checks: the four required references and at most 11 players. */
  predicate SchemaValid(s: Squad) {
    s.user != "" && s.matchId != "" && s.captain != "" && s.viceCaptain != ""
    && |s.players| <= SquadSize
  }

  /** Stored squads never share an `_id`. */
  predicate UniqueIds(store: seq<Squad>) {
    forall i, j | 0 <= i < j < |store| :: store[i].id != store[j].id
  }

  lemma UniqueIdsDistinct(store: seq<Squad>)
    requires UniqueIds(store)
    ensures Distinct(store)
  {
  }

  /** The squads of one match, in storage order. */
  function ForMatch(store: seq<Squad>, m: MatchId): (r: seq<Squad>)
    ensures forall i | 0 <= i < |r| :: r[i].matchId == m
    ensures forall i | 0 <= i < |store| && store[i].matchId == m :: store[i] in r
    ensures multiset(r) <= multiset(store)
  {
    Filter(store, (s: Squad) => s.matchId == m)
  }

  /** The squads of one user, in storage order. */
  function OwnedBy(store: seq<Squad>, u: UserId): (r: seq<Squad>)
    ensures forall i | 0 <= i < |r| :: r[i].user == u
    ensures forall i | 0 <= i < |store| && store[i].user == u :: store[i] in r
    ensures multiset(r) <= multiset(store)
  {
    Filter(store, (s: Squad) => s.user == u)
  }

  /** The body of `POST /api/teams`. */
  datatype CreateRequest = CreateRequest(
    userId: Option<string>,
    matchId: Option<string>,
    players: Option<seq<PlayerId>>,
    captainId: Option<string>,
    viceCaptainId: Option<string>,
    teamName: Option<string>)

  /** The schema default for a missing name: "Team " and the creation time in milliseconds. */
  function DefaultTeamName(now: nat): string {
    "Team " + Decimal(now)
  }

  function OrEmpty(o: Option<string>): string {
    if o.Some? then o.value else ""
  }

  /** A new document from the request, with the schema defaults filled in. */
  function NewSquad(req: CreateRequest, id: SquadId, now: nat): Squad
    requires req.players.Some?
  {
    Squad(id, OrEmpty(req.userId), OrEmpty(req.matchId),
          if req.teamName.Some? then req.teamName.value else DefaultTeamName(now),
          req.players.value, OrEmpty(req.captainId), OrEmpty(req.viceCaptainId),
          0, 0, false, false, now)
  }

  /** The schema's defaults: a new squad has 0 points and rank 0, and without a name gets the
      timestamped default; a roster longer than 11 never passes the schema. */
  lemma NewSquadDefaults(req: CreateRequest, id: SquadId, now: nat)
    requires req.players.Some?
    ensures var s := NewSquad(req, id, now);
      && s.totalPoints == 0 && s.rank == 0 && !s.wicketKeeperSelected && !s.valid
      && (req.teamName.None? ==> s.teamName == DefaultTeamName(now))
      && (|req.players.value| > SquadSize ==> !SchemaValid(s))
  {
  }

  /** `POST /api/teams`: the route's count check, then the schema's checks on save. The roster
      is otherwise taken as given: membership of captain and vice-captain, their distinctness,
      repeated players and credits are not checked. */
  function CreateSquad(req: CreateRequest, id: SquadId, now: nat): (r: Result<Squad>)
    ensures r.Err? && r.message == WrongSizeMessage
        <==> req.players.None? || |req.players.value| != SquadSize
    ensures r.Ok? <==>
      && req.players.Some? && |req.players.value| == SquadSize
      && Present(req.userId) && Present(req.matchId)
      && Present(req.captainId) && Present(req.viceCaptainId)
    ensures r.Err? ==> r.status == BadRequest
    ensures r.Ok? ==>
      && SchemaValid(r.value)
      && r.value.id == id
      && Some(r.value.user) == req.userId && Some(r.value.matchId) == req.matchId
      && Some(r.value.players) == req.players
      && Some(r.value.captain) == req.captainId && Some(r.value.viceCaptain) == req.viceCaptainId
      && (req.teamName.Some? ==> r.value.teamName == req.teamName.value)
      && r.value.totalPoints == 0 && r.value.rank == 0
  {
    if req.players.None? || |req.players.value| != SquadSize then
      Err(BadRequest, WrongSizeMessage)
    else
      var s := NewSquad(req, id, now);
      if SchemaValid(s) then Ok(s) else Err(BadRequest, SchemaMessage)
  }

  /** `GET /api/teams/match/:matchId/user/:userId`: some squad of that user for that match
      (`findOne` promises no particular one), or 404. */
  function FindSquad(store: seq<Squad>, m: MatchId, u: UserId): (r: Result<Squad>)
    ensures r.Ok? ==> r.value in store && r.value.matchId == m && r.value.user == u
    ensures r.Err? <==> forall i | 0 <= i < |store| :: !(store[i].matchId == m && store[i].user == u)
    ensures r.Err? ==> r.status == NotFound && r.message == TeamNotFoundMessage
  {
    if |store| == 0 then Err(NotFound, TeamNotFoundMessage)
    else if store[0].matchId == m && store[0].user == u then Ok(store[0])
    else
      var r := FindSquad(store[1..], m, u);
      assert forall i | 1 <= i < |store| :: store[i] == store[1..][i - 1];
      r
  }

  /** `GET /api/teams/user/:userId`: the user's squads, newest first. */
  function UserSquads(store: seq<Squad>, u: UserId): (r: seq<Squad>)
    ensures IsDescOrdering(r, OwnedBy(store, u), CreatedAtOf)
    ensures forall i | 0 <= i < |r| :: r[i].user == u && r[i] in store
  {
    var owned := OwnedBy(store, u);
    var r := SortDesc(owned, CreatedAtOf);
    SubMultisetMembers(r, owned);
    SubMultisetMembers(owned, store);
    assert forall i | 0 <= i < |r| :: r[i].user == u && r[i] in store by {
      forall i | 0 <= i < |r| ensures r[i].user == u && r[i] in store {
        var j :| 0 <= j < |owned| && owned[j] == r[i];
      }
    }
    r
  }
}

=== FILE: strings.dfy ===
/** The JavaScript string operations the routes and the client rely on, over Dafny strings
    (sequences of Unicode scalar values). */
module Strings {

  /** The code points of the WhiteSpace and LineTerminator productions of ECMA-262 (the clauses
      "White Space" and "Line Terminators"): exactly what `String.prototype.trim` removes. */
  predicate IsSpace(c: char) {
    || c == '\t' || c == '\n' || c == '\U{000B}' || c == '\U{000C}' || c == '\r' || c == ' '
    || c == '\U{00A0}' || c == '\U{1680}' || ('\U{2000}' <= c <= '\U{200A}')
    || c == '\U{2028}' || c == '\U{2029}' || c == '\U{202F}' || c == '\U{205F}'
    || c == '\U{3000}' || c == '\U{FEFF}'
  }

  predicate AllSpace(s: string) {
    forall i | 0 <= i < |s| :: IsSpace(s[i])
  }

  /** Neither the first nor the last character is white space. */
  predicate NoEdgeSpace(s: string) {
    |s| == 0 || (!IsSpace(s[0]) && !IsSpace(s[|s| - 1]))
  }

  /** `s` is `r` with some white space before and after it. */
  ghost predicate Surrounds(s: string, r: string) {
    exists i | 0 <= i <= |s| - |r| :: s[i..i + |r|] == r && AllSpace(s[..i]) && AllSpace(s[i + |r|..])
  }

  function TrimStart(s: string): (r: string)
    ensures |r| <= |s| && r == s[|s| - |r|..]
    ensures AllSpace(s[..|s| - |r|])
    ensures |r| == 0 || !IsSpace(r[0])
  {
    if |s| > 0 && IsSpace(s[0]) then TrimStart(s[1..]) else s
  }

  function TrimEnd(s: string): (r: string)
    ensures |r| <= |s| && r == s[..|r|]
    ensures AllSpace(s[|r|..])
    ensures |r| == 0 || !IsSpace(r[|r| - 1])
  {
    if |s| > 0 && IsSpace(s[|s| - 1]) then TrimEnd(s[..|s| - 1]) else s
  }

  /** `String.prototype.trim`: the input without its leading and trailing white space. */
  function Trim(s: string): (r: string)
    ensures |r| <= |s|
    ensures NoEdgeSpace(r)
  {
    TrimEnd(TrimStart(s))
  }

  /** Trimming removes white space only, and only at the ends. */
  lemma TrimSurrounds(s: string)
    ensures Surrounds(s, Trim(s))
  {
    var a := TrimStart(s);
    var r := TrimEnd(a);
    var i := |s| - |a|;
    SliceOfSuffix(s, a, r, i);
    SurroundsAt(s, r, i);
  }

  lemma SliceOfSuffix(s: string, a: string, r: string, i: nat)
    requires i + |a| == |s| && a == s[i..]
    requires |r| <= |a| && r == a[..|r|]
    ensures s[i..i + |r|] == r && s[i + |r|..] == a[|r|..]
  {
  }

  lemma SurroundsAt(s: string, r: string, i: nat)
    requires i + |r| <= |s| && s[i..i + |r|] == r
    requires AllSpace(s[..i]) && AllSpace(s[i + |r|..])
    ensures Surrounds(s, r)
  {
  }

  /** A clean string trims to itself, with white space around it or without. */
  lemma PaddedTrimsAlike(pre: string, s: string, post: string)
    requires AllSpace(pre) && AllSpace(post)
    requires s != "" && NoEdgeSpace(s)
    ensures pre + s + post != "" && Trim(pre + s + post) == s && Trim(s) == s
  {
    assert |pre + s + post| == |pre| + |s| + |post|;
    TrimPadded(pre, s, post);
    TrimNoEdgeSpace(s);
  }

  /** Trimming stops at the first and last non-space characters, so it is idempotent and
      leaves an already trimmed string alone. */
  lemma {:induction false} TrimNoEdgeSpace(s: string)
    requires NoEdgeSpace(s)
    ensures Trim(s) == s
  {
  }

  /** White space added around a trimmed, non-empty string is exactly what trimming removes. */
  lemma TrimPadded(pre: string, s: string, post: string)
    requires AllSpace(pre) && AllSpace(post)
    requires s != "" && NoEdgeSpace(s)
    ensures Trim(pre + s + post) == s
  {
    assert pre + s + post == pre + (s + post);
    assert (s + post)[0] == s[0];
    TrimStartPadded(pre, s + post);
    TrimEndPadded(s, post);
  }

  lemma {:induction false} TrimStartPadded(pre: string, x: string)
    requires AllSpace(pre) && |x| > 0 && !IsSpace(x[0])
    ensures TrimStart(pre + x) == x
    decreases |pre|
  {
    if |pre| == 0 {
      assert pre + x == x;
    } else {
      assert (pre + x)[0] == pre[0];
      assert (pre + x)[1..] == pre[1..] + x;
      TrimStartPadded(pre[1..], x);
    }
  }

  lemma {:induction false} TrimEndPadded(x: string, post: string)
    requires AllSpace(post) && |x| > 0 && !IsSpace(x[|x| - 1])
    ensures TrimEnd(x + post) == x
    decreases |post|
  {
    if |post| == 0 {
      assert x + post == x;
    } else {
      var n := |post| - 1;
      assert (x + post)[|x + post| - 1] == post[n];
      assert (x + post)[..|x + post| - 1] == x + post[..n];
      TrimEndPadded(x, post[..n]);
    }
  }

  /** A string of white space only trims to nothing. */
  lemma TrimAllSpace(s: string)
    requires AllSpace(s)
    ensures Trim(s) == ""
  {
  }

  lemma TrimIdempotent(s: string)
    ensures Trim(Trim(s)) == Trim(s)
  {
    TrimNoEdgeSpace(Trim(s));
  }

  /** Only the characters `'A'`..`'Z'` are lowered. */
  function LowerChar(c: char): char {
    if 'A' <= c <= 'Z' then (c as int - 'A' as int + 'a' as int) as char else c
  }

  function ToLowerAscii(s: string): (r: string)
    ensures |r| == |s|
    ensures forall i | 0 <= i < |s| :: r[i] == LowerChar(s[i])
  {
    if |s| == 0 then [] else [LowerChar(s[0])] + ToLowerAscii(s[1..])
  }

  predicate NoUpperAscii(s: string) {
    forall i | 0 <= i < |s| :: !('A' <= s[i] <= 'Z')
  }

  lemma LowerCharNotUpper(c: char)
    ensures !('A' <= LowerChar(c) <= 'Z')
  {
  }

  /** A lowered string has no upper-case ASCII letter left. */
  lemma LowerHasNoUpper(s: string)
    ensures NoUpperAscii(ToLowerAscii(s))
  {
    var r := ToLowerAscii(s);
    forall i | 0 <= i < |r| ensures !('A' <= r[i] <= 'Z') {
      LowerCharNotUpper(s[i]);
    }
  }

  /** Lowering changes nothing in a string without upper-case ASCII letters. */
  lemma LowerNoUpperFixed(s: string)
    requires NoUpperAscii(s)
    ensures ToLowerAscii(s) == s
  {
  }

  lemma ToLowerAsciiIdempotent(s: string)
    ensures ToLowerAscii(ToLowerAscii(s)) == ToLowerAscii(s)
  {
  }

  /** Lowering neither creates nor removes white space, so it commutes with trimming. */
  lemma LowerKeepsSpaces(c: char)
    ensures IsSpace(LowerChar(c)) <==> IsSpace(c)
  {
  }

  lemma LowerNoEdgeSpace(s: string)
    requires NoEdgeSpace(s)
    ensures NoEdgeSpace(ToLowerAscii(s))
  {
    if |s| > 0 {
      LowerKeepsSpaces(s[0]);
      LowerKeepsSpaces(s[|s| - 1]);
    }
  }

  predicate StartsWith(s: string, prefix: string) {
    |prefix| <= |s| && s[..|prefix|] == prefix
  }

  predicate EndsWith(s: string, suffix: string) {
    |suffix| <= |s| && s[|s| - |suffix|..] == suffix
  }

  /** The parts joined back with the separator between them. */
  function Join(parts: seq<string>, sep: char): string
  {
    if |parts| == 0 then ""
    else if |parts| == 1 then parts[0]
    else parts[0] + [sep] + Join(parts[1..], sep)
  }

  /** `String.prototype.split` with a one-character separator. */
  function Split(s: string, sep: char): (parts: seq<string>)
    ensures |parts| >= 1
    ensures forall i | 0 <= i < |parts| :: sep !in parts[i]
    ensures Join(parts, sep) == s
  {
    if sep !in s then [s]
    else
      var i := FirstIndex(s, sep);
      var rest := Split(s[i + 1..], sep);
      assert s == s[..i] + [sep] + s[i + 1..];
      [s[..i]] + rest
  }

  function FirstIndex(s: string, c: char): (i: nat)
    requires c in s
    ensures i < |s| && s[i] == c && c !in s[..i]
  {
    if s[0] == c then 0 else 1 + FirstIndex(s[1..], c)
  }

  lemma {:induction false} FirstIndexAfter(a: string, sep: char, b: string)
    requires sep !in a
    ensures sep in a + [sep] + b
    ensures FirstIndex(a + [sep] + b, sep) == |a|
    decreases |a|
  {
    var s := a + [sep] + b;
    assert s[|a|] == sep;
    if |a| > 0 {
      assert s[1..] == a[1..] + [sep] + b;
      FirstIndexAfter(a[1..], sep, b);
    }
  }

  /** Splitting undoes joining: the separator-free parts of a join are recovered exactly. */
  lemma {:induction false} SplitJoin(parts: seq<string>, sep: char)
    requires |parts| >= 1
    requires forall i | 0 <= i < |parts| :: sep !in parts[i]
    ensures Split(Join(parts, sep), sep) == parts
    decreases |parts|
  {
    if |parts| > 1 {
      var head, tail := parts[0], Join(parts[1..], sep);
      var s := head + [sep] + tail;
      assert Join(parts, sep) == s;
      FirstIndexAfter(head, sep, tail);
      assert s[..|head|] == head;
      assert s[|head| + 1..] == tail;
      assert Split(s, sep) == [head] + Split(tail, sep);
      SplitJoin(parts[1..], sep);
      assert parts == [head] + parts[1..];
    }
  }

  /** The length JavaScript reports: UTF-16 code units, two for a character above U+FFFF. */
  function Utf16Length(s: string): (n: nat)
    ensures |s| <= n <= 2 * |s|
  {
    if |s| == 0 then 0
    else (if s[0] as int > 0xFFFF then 2 else 1) + Utf16Length(s[1..])
  }

  function DigitChar(d: nat): char
    requires d < 10
    ensures '0' <= DigitChar(d) <= '9'
  {
    ('0' as int + d) as char
  }

  /** `String(n)` for a whole number: its decimal digits, no leading zero. */
  function Decimal(n: nat): (r: string)
    ensures |r| >= 1 && (r[0] == '0' <==> n == 0)
    ensures forall i | 0 <= i < |r| :: '0' <= r[i] <= '9'
  {
    if n < 10 then [DigitChar(n)] else Decimal(n / 10) + [DigitChar(n % 10)]
  }

  /** `String(n)` for an integer. */
  function IntString(n: int): string {
    if n < 0 then "-" + Decimal(-n) else Decimal(n)
  }
}

=== FILE: teambuilder.dfy ===
/** The team builder page (frontend/src/components/TeamBuilder.jsx) as a state machine: pick
    eleven players within a budget of 100 credits, move on to name a captain and a
    vice-captain, and post the squad to `POST /api/teams`. Credits are in half-credits, as in
    Roster. The server's answer is a parameter. */
module TeamBuilder {
  import opened Results
  import opened Seqs
  import opened Squads
  import opened Roster

  const MaxPlayers: nat := 11
  /** 100 credits. */
  const BudgetHalves: nat := 200

  /** Step 1 picks players, step 2 picks the captain and vice-captain. */
  datatype Step = SelectPlayers | ChooseRoles

  datatype Builder = Builder(
    step: Step,
    selected: seq<Player>,
    totalCredits: int,
    captain: Option<Player>,
    viceCaptain: Option<Player>)

  const Initial := Builder(SelectPlayers, [], 0, None, None)

  /** What the page keeps true of its state: no player twice, at most eleven, the running
      total is the sum of the selection and within budget, step 2 only with a full side, and
      captain and vice-captain are different players. */
  predicate Valid(b: Builder) {
    && Distinct(Ids(b.selected))
    && |b.selected| <= MaxPlayers
    && b.totalCredits == Sum(b.selected, CreditsOf)
    && b.totalCredits <= BudgetHalves
    && (b.step == ChooseRoles ==> |b.selected| == MaxPlayers)
    && RolesApart(b)
  }

  predicate RolesApart(b: Builder) {
    b.captain.Some? && b.viceCaptain.Some? ==> b.captain.value.id != b.viceCaptain.value.id
  }

  /** Captain and vice-captain, when named, are members of the selection. */
  predicate RolesInSquad(b: Builder) {
    && (b.captain.Some? ==> b.captain.value in b.selected)
    && (b.viceCaptain.Some? ==> b.viceCaptain.value in b.selected)
  }

  /** The card handed to `togglePlayer` is the same player object the selection holds under
      that id: both come from the one list the page fetched. */
  predicate Consistent(b: Builder, p: Player) {
    forall q | q in b.selected && q.id == p.id :: q == p
  }

  lemma ValidInitial()
    ensures Valid(Initial) && RolesInSquad(Initial)
  {
    assert Ids([]) == [];
  }

  /** `togglePlayer` as written: only in step 1; a selected player is removed by id and the
      card's credits refunded; otherwise the card is added unless eleven are already chosen or
      it would take the total over 100 credits. Captain and vice-captain are left alone. */
  function Toggle(b: Builder, p: Player): (r: Builder)
    ensures r.step == b.step && r.captain == b.captain && r.viceCaptain == b.viceCaptain
    ensures b.step == ChooseRoles ==> r == b
    ensures b.step == SelectPlayers && p.id in Ids(b.selected) ==>
      && p.id !in Ids(r.selected)
      && multiset(r.selected) <= multiset(b.selected)
      && r.totalCredits == b.totalCredits - p.credits
    ensures b.step == SelectPlayers && p.id !in Ids(b.selected) ==>
      (r == b <==> |b.selected| >= MaxPlayers || b.totalCredits + p.credits > BudgetHalves)
    ensures r != b && p.id !in Ids(b.selected) ==>
      r.selected == b.selected + [p] && r.totalCredits == b.totalCredits + p.credits
  {
    if b.step != SelectPlayers then b
    else if p.id in Ids(b.selected) then
      WithoutIdFacts(b.selected, p.id);
      b.(selected := WithoutId(b.selected, p.id), totalCredits := b.totalCredits - p.credits)
    else if |b.selected| >= MaxPlayers || b.totalCredits + p.credits > BudgetHalves then b
    else
      assert (b.selected + [p])[|b.selected|] == p;
      b.(selected := b.selected + [p], totalCredits := b.totalCredits + p.credits)
  }

  /** `togglePlayer` with the defect corrected: removing the captain or the vice-captain from
      the selection also clears that role. */
  function ToggleFixed(b: Builder, p: Player): (r: Builder)
    ensures r.selected == Toggle(b, p).selected && r.totalCredits == Toggle(b, p).totalCredits
    ensures r.step == b.step
    ensures b.step == SelectPlayers && p.id in Ids(b.selected) ==>
      && r.captain == (if b.captain.Some? && b.captain.value.id == p.id then None else b.captain)
      && r.viceCaptain ==
           (if b.viceCaptain.Some? && b.viceCaptain.value.id == p.id then None else b.viceCaptain)
    ensures !(b.step == SelectPlayers && p.id in Ids(b.selected)) ==> r == Toggle(b, p)
  {
    var t := Toggle(b, p);
    if b.step == SelectPlayers && p.id in Ids(b.selected) then
      t.(captain := if b.captain.Some? && b.captain.value.id == p.id then None else b.captain,
         viceCaptain :=
           if b.viceCaptain.Some? && b.viceCaptain.value.id == p.id then None else b.viceCaptain)
    else t
  }

  /** `handleRoleSelect`: naming the captain drops the vice-captain if it is the same player,
      and the other way round; any other role changes nothing. */
  function RoleSelect(b: Builder, p: Player, role: string): (r: Builder)
    ensures r.step == b.step && r.selected == b.selected && r.totalCredits == b.totalCredits
    ensures role == "C" ==>
      && r.captain == Some(p)
      && (r.viceCaptain == None || r.viceCaptain == b.viceCaptain)
      && (r.viceCaptain.Some? ==> r.viceCaptain.value.id != p.id)
      && (b.viceCaptain.Some? && b.viceCaptain.value.id != p.id ==> r.viceCaptain == b.viceCaptain)
    ensures role == "VC" ==>
      && r.viceCaptain == Some(p)
      && (r.captain == None || r.captain == b.captain)
      && (r.captain.Some? ==> r.captain.value.id != p.id)
      && (b.captain.Some? && b.captain.value.id != p.id ==> r.captain == b.captain)
    ensures role != "C" && role != "VC" ==> r == b
  {
    if role == "C" then
      var vice := if b.viceCaptain.Some? && b.viceCaptain.value.id == p.id then None else b.viceCaptain;
      b.(captain := Some(p), viceCaptain := vice)
    else if role == "VC" then
      var cap := if b.captain.Some? && b.captain.value.id == p.id then None else b.captain;
      b.(captain := cap, viceCaptain := Some(p))
    else b
  }

  /** The Next button: enabled only in step 1 with exactly eleven players. */
  function Next(b: Builder): (r: Builder)
    ensures r.step.ChooseRoles? <==> b.step.ChooseRoles? || |b.selected| == MaxPlayers
    ensures r.(step := b.step) == b
  {
    if b.step == SelectPlayers && |b.selected| == MaxPlayers then b.(step := ChooseRoles) else b
  }

  /** The Back button of step 2. */
  function Back(b: Builder): (r: Builder)
    ensures r.step == SelectPlayers && r.(step := b.step) == b
  {
    b.(step := SelectPlayers)
  }

  datatype Outcome = Outcome(payload: Option<CreateRequest>, after: Builder)

  /** `handleSubmit`: refused while either role is open; otherwise the body of the post (the
      user, the match, the selected ids, the two role ids and the team name), and the page
      starts over when the server accepts it and stays as it was when it does not. */
  function Submit(b: Builder, userId: string, matchId: Option<string>, teamName: string,
                  serverOk: bool): (r: Outcome)
    ensures r.payload.Some? <==> b.captain.Some? && b.viceCaptain.Some?
    ensures r.payload.Some? ==>
      && r.payload.value.userId == Some(userId)
      && r.payload.value.matchId == matchId
      && r.payload.value.teamName == Some(teamName)
      && r.payload.value.players == Some(Ids(b.selected))
      && r.payload.value.captainId == Some(b.captain.value.id)
      && r.payload.value.viceCaptainId == Some(b.viceCaptain.value.id)
    ensures r.after == (if r.payload.Some? && serverOk then Initial else b)
  {
    if b.captain.None? || b.viceCaptain.None? then Outcome(None, b)
    else
      var req := CreateRequest(Some(userId), matchId, Some(Ids(b.selected)),
                               Some(b.captain.value.id), Some(b.viceCaptain.value.id),
                               Some(teamName));
      Outcome(Some(req), if serverOk then Initial else b)
  }

  /** Removing a selected player keeps the state valid and refunds exactly its credits. */
  lemma RemoveValid(b: Builder, p: Player)
    requires Valid(b) && Consistent(b, p)
    requires b.step == SelectPlayers && p.id in Ids(b.selected)
    ensures Valid(Toggle(b, p))
    ensures Sum(Toggle(b, p).selected, CreditsOf) == Sum(b.selected, CreditsOf) - p.credits
  {
    var i := IndexOf(Ids(b.selected), p.id);
    assert b.selected[i] == p;
    WithoutPresentId(b.selected, i);
    WithoutIdDistinct(b.selected, p.id);
  }

  /** `togglePlayer` keeps the state valid whichever way it goes. */
  lemma ToggleValid(b: Builder, p: Player)
    requires Valid(b) && Consistent(b, p)
    ensures Valid(Toggle(b, p))
  {
    if b.step == SelectPlayers {
      if p.id in Ids(b.selected) {
        RemoveValid(b, p);
      } else if Toggle(b, p) != b {
        AppendFreshId(b.selected, p);
      }
    }
  }

  /** Adding a player and toggling it again restores the state exactly. */
  lemma ToggleOnOff(b: Builder, p: Player)
    requires b.step == SelectPlayers && p.id !in Ids(b.selected)
    requires Toggle(b, p) != b
    ensures Toggle(Toggle(b, p), p) == b
  {
    var t := Toggle(b, p);
    assert p.id in Ids(t.selected) by {
      assert Ids(t.selected)[|b.selected|] == p.id;
    }
    WithoutIdAppend(b.selected, [p], p.id);
    WithoutAbsentId(b.selected, p.id);
    assert WithoutId([p], p.id) == [] + WithoutId([], p.id);
  }

  /** Removing a player and adding it back is always accepted and restores the same players
      and the same total, the player now last. */
  lemma ToggleOffOn(b: Builder, p: Player)
    requires Valid(b) && Consistent(b, p)
    requires b.step == SelectPlayers && p.id in Ids(b.selected)
    ensures Toggle(Toggle(b, p), p) != Toggle(b, p)
    ensures multiset(Toggle(Toggle(b, p), p).selected) == multiset(b.selected)
    ensures Toggle(Toggle(b, p), p).totalCredits == b.totalCredits
  {
    var i := IndexOf(Ids(b.selected), p.id);
    assert b.selected[i] == p;
    WithoutPresentId(b.selected, i);
    var t := Toggle(b, p);
    WithoutIdFacts(b.selected, p.id);
    assert |t.selected| < |b.selected| by {
      assert |multiset(t.selected)| < |multiset(b.selected)|;
    }
  }

  /** Once eleven players are chosen, a new player is refused. */
  lemma ToggleFullRefuses(b: Builder, p: Player)
    requires Valid(b) && |b.selected| == MaxPlayers && p.id !in Ids(b.selected)
    ensures Toggle(b, p) == b
  {
  }

  /** `handleRoleSelect` keeps the state valid, and keeps both roles inside the selection when
      the named player is one of the selection, as the list of step 2 offers only those. */
  lemma RoleSelectValid(b: Builder, p: Player, role: string)
    requires Valid(b)
    ensures Valid(RoleSelect(b, p, role))
    ensures RolesInSquad(b) && p in b.selected ==> RolesInSquad(RoleSelect(b, p, role))
  {
  }

  /** The corrected toggle keeps the state valid and the roles inside the selection. */
  lemma ToggleFixedValid(b: Builder, p: Player)
    requires Valid(b) && RolesInSquad(b) && Consistent(b, p)
    ensures Valid(ToggleFixed(b, p)) && RolesInSquad(ToggleFixed(b, p))
  {
    ToggleValid(b, p);
    var r := ToggleFixed(b, p);
    if b.step == SelectPlayers && p.id in Ids(b.selected) {
      WithoutIdFacts(b.selected, p.id);
      if r.captain.Some? {
        var c := r.captain.value;
        var k :| 0 <= k < |b.selected| && b.selected[k] == c;
      }
      if r.viceCaptain.Some? {
        var v := r.viceCaptain.value;
        var k :| 0 <= k < |b.selected| && b.selected[k] == v;
      }
    }
  }

  /** A submitted payload of a valid state in step 2 passes the create route: eleven players,
      all the route and the schema ask for, given a signed-in user, a match and non-empty
      player ids. */
  lemma SubmitAccepted(b: Builder, userId: string, matchId: string, teamName: string,
                       ok: bool, id: SquadId, now: nat)
    requires Valid(b) && b.step == ChooseRoles
    requires b.captain.Some? && b.viceCaptain.Some?
    requires userId != "" && matchId != ""
    requires b.captain.value.id != "" && b.viceCaptain.value.id != ""
    ensures Submit(b, userId, Some(matchId), teamName, ok).payload.Some?
    ensures CreateSquad(Submit(b, userId, Some(matchId), teamName, ok).payload.value, id, now).Ok?
  {
  }

  /** What a payload of a valid state with the roles inside the selection promises the
      server: distinct players, captain and vice-captain among them and apart. */
  lemma SubmitPayloadSound(b: Builder, userId: string, matchId: Option<string>,
                           teamName: string, ok: bool)
    requires Valid(b) && RolesInSquad(b)
    requires b.captain.Some? && b.viceCaptain.Some?
    ensures var req := Submit(b, userId, matchId, teamName, ok).payload.value;
      && Distinct(req.players.value)
      && req.captainId.value in req.players.value
      && req.viceCaptainId.value in req.players.value
      && req.captainId != req.viceCaptainId
  {
    var c, v := b.captain.value, b.viceCaptain.value;
    var i :| 0 <= i < |b.selected| && b.selected[i] == c;
    var j :| 0 <= j < |b.selected| && b.selected[j] == v;
    assert Ids(b.selected)[i] == c.id && Ids(b.selected)[j] == v.id;
  }

  /** The defect of `togglePlayer` as written: from a valid step 2 with both roles named, Back,
      deselecting the captain and picking a cheaper new player lets the page return to step 2
      and post a squad whose captain is not one of its players, and the server accepts it. */
  lemma CaptainCanLeaveSquad(b: Builder, q: Player, userId: string, matchId: string,
                             teamName: string, id: SquadId, now: nat)
    requires Valid(b) && RolesInSquad(b) && b.step == ChooseRoles
    requires b.captain.Some? && b.viceCaptain.Some?
    requires q.id !in Ids(b.selected) && q.credits <= b.captain.value.credits
    requires userId != "" && matchId != "" && b.captain.value.id != "" && b.viceCaptain.value.id != ""
    ensures var c := b.captain.value;
      var after := Next(Toggle(Toggle(Back(b), c), q));
      var req := Submit(after, userId, Some(matchId), teamName, true).payload;
      && after.step == ChooseRoles
      && req.Some? && req.value.captainId == Some(c.id)
      && c.id !in req.value.players.value
      && CreateSquad(req.value, id, now).Ok?
  {
    var c := b.captain.value;
    DeselectCaptain(b);
    var b1 := Toggle(Back(b), c);
    IdsSubMultiset(b1.selected, b.selected, q.id);
    AppendFreshId(b1.selected, q);
    var b2 := Toggle(b1, q);
    assert c.id !in Ids(b2.selected) by {
      assert Ids(b2.selected) == Ids(b1.selected) + [q.id];
    }
  }

  /** Step back and deselect the captain: a valid step 1 with ten players, none of them the
      captain, who stays named. */
  lemma DeselectCaptain(b: Builder)
    requires Valid(b) && RolesInSquad(b) && b.step == ChooseRoles && b.captain.Some?
    ensures var c := b.captain.value;
      var b1 := Toggle(Back(b), c);
      && Valid(b1) && b1.step == SelectPlayers && |b1.selected| == MaxPlayers - 1
      && c.id !in Ids(b1.selected) && b1.captain == b.captain && b1.viceCaptain == b.viceCaptain
      && b1.totalCredits == b.totalCredits - c.credits
      && multiset(b1.selected) <= multiset(b.selected)
  {
    var c := b.captain.value;
    var b0 := Back(b);
    var i :| 0 <= i < |b.selected| && b.selected[i] == c;
    assert Consistent(b0, c) by {
      forall x | x in b.selected && x.id == c.id ensures x == c {
        var j :| 0 <= j < |b.selected| && b.selected[j] == x;
        assert Ids(b.selected)[i] == Ids(b.selected)[j];
      }
    }
    assert Ids(b0.selected)[i] == c.id;
    RemoveValid(b0, c);
    WithoutPresentId(b0.selected, i);
  }

  /** One user action on the page. A card is named by its place in the fetched player list,
      a role button by its place in the list of step 2 (the selection); places outside those
      lists stand for no click. Save is the Save Team button with the server's answer. */
  datatype Action =
    | Pick(card: nat)
    | Name(slot: nat, role: string)
    | NextStep
    | BackStep
    | Save(userId: string, matchId: Option<string>, teamName: string, serverOk: bool)

  /** The page's reaction to one action, with the corrected toggle. */
  function Apply(catalogue: seq<Player>, b: Builder, a: Action): (r: Builder)
    ensures a.Pick? && b.step == ChooseRoles ==> r == b
    ensures (a.Name? || a.BackStep? || a.Save?) && b.step == SelectPlayers ==> r == b
    ensures b.step == SelectPlayers && r.step == ChooseRoles ==> a.NextStep? && |b.selected| == MaxPlayers
    ensures b.step == ChooseRoles && r.step == ChooseRoles ==> r.selected == b.selected
  {
    match a
    case Pick(k) => if k < |catalogue| then ToggleFixed(b, catalogue[k]) else b
    case Name(k, role) =>
      if b.step == ChooseRoles && k < |b.selected| then RoleSelect(b, b.selected[k], role) else b
    case NextStep => Next(b)
    case BackStep => if b.step == ChooseRoles then Back(b) else b
    case Save(u, m, name, ok) =>
      if b.step == ChooseRoles then Submit(b, u, m, name, ok).after else b
  }

  /** The state after a sequence of actions from a fresh page. */
  function Run(catalogue: seq<Player>, actions: seq<Action>): (r: Builder)
    ensures r.step == ChooseRoles ==> |r.selected| == MaxPlayers
    decreases |actions|
  {
    if |actions| == 0 then Initial
    else Apply(catalogue, Run(catalogue, actions[..|actions| - 1]), actions[|actions| - 1])
  }

  /** Every selected player is a card of the catalogue. */
  predicate FromCatalogue(catalogue: seq<Player>, b: Builder) {
    forall q | q in b.selected :: q in catalogue
  }

  /** With distinct catalogue ids, every card is consistent with a selection drawn from it. */
  lemma CatalogueConsistent(catalogue: seq<Player>, b: Builder, k: nat)
    requires Distinct(Ids(catalogue)) && k < |catalogue| && FromCatalogue(catalogue, b)
    ensures Consistent(b, catalogue[k])
  {
    forall q | q in b.selected && q.id == catalogue[k].id ensures q == catalogue[k] {
      var j :| 0 <= j < |catalogue| && catalogue[j] == q;
      assert Ids(catalogue)[j] == Ids(catalogue)[k];
    }
  }

  /** One action keeps the invariant. */
  lemma ApplyValid(catalogue: seq<Player>, b: Builder, a: Action)
    requires Distinct(Ids(catalogue))
    requires Valid(b) && RolesInSquad(b) && FromCatalogue(catalogue, b)
    ensures var r := Apply(catalogue, b, a);
      Valid(r) && RolesInSquad(r) && FromCatalogue(catalogue, r)
  {
    match a
    case Pick(k) =>
      if k < |catalogue| {
        CatalogueConsistent(catalogue, b, k);
        ToggleFixedValid(b, catalogue[k]);
        var r := ToggleFixed(b, catalogue[k]);
        if b.step == SelectPlayers && catalogue[k].id in Ids(b.selected) {
          WithoutIdFacts(b.selected, catalogue[k].id);
          SubMultisetMembers(r.selected, b.selected);
        }
      }
    case Name(k, role) =>
      if b.step == ChooseRoles && k < |b.selected| {
        RoleSelectValid(b, b.selected[k], role);
      }
    case NextStep =>
    case BackStep =>
    case Save(u, m, name, ok) =>
      if b.step == ChooseRoles {
        ValidInitial();
      }
  }

  /** Whatever the user does, the page stays valid and never names a captain or vice-captain
      outside the selection, so every post it makes names both among its players. */
  lemma {:induction false} RunValid(catalogue: seq<Player>, actions: seq<Action>)
    requires Distinct(Ids(catalogue))
    ensures var b := Run(catalogue, actions);
      Valid(b) && RolesInSquad(b) && FromCatalogue(catalogue, b)
    decreases |actions|
  {
    if |actions| == 0 {
      ValidInitial();
    } else {
      RunValid(catalogue, actions[..|actions| - 1]);
      ApplyValid(catalogue, Run(catalogue, actions[..|actions| - 1]), actions[|actions| - 1]);
    }
  }
}

=== FILE: tournaments.dfy ===
/** Tournaments (backend/routes/tournaments.js over backend/models/Tournament.js): attaching
    matches to a tournament, and the season leaderboard that sums every user's squad totals over
    the tournament's matches. */
module Tournaments {
  import opened Results
  import opened Seqs
  import opened Sorting
  import opened Squads

  type TournamentId = string

  const TournamentNotFoundMessage := "Tournament not found"
  /** What spreading a missing `matchIds` into `push` throws. */
  const NotIterableMessage := "Spread syntax requires ...iterable[Symbol.iterator] to be a function"
  /** The `$limit` stage of the season leaderboard. */
  const SeasonLimit: nat := 100

  datatype TournamentStatus = Upcoming | Ongoing | Completed

  datatype Tournament = Tournament(
    id: TournamentId,
    name: string,
    year: int,
    status: TournamentStatus,
    matches: seq<MatchId>)

  /** `Tournament.findById`: the position of the tournament with that id, if any. */
  function FindTournament(ts: seq<Tournament>, id: TournamentId): (r: Option<nat>)
    ensures r.Some? ==> r.value < |ts| && ts[r.value].id == id
    ensures r.None? <==> forall i | 0 <= i < |ts| :: ts[i].id != id
  {
    if |ts| == 0 then None
    else if ts[0].id == id then Some(0)
    else
      var r := FindTournament(ts[1..], id);
      assert forall i | 1 <= i < |ts| :: ts[i] == ts[1..][i - 1];
      if r.Some? then Some(r.value + 1) else None
  }

  /** `POST /api/tournaments/:id/matches`: the given ids are appended in order, repeats
      included; the tournament is saved in its place. */
  function AddMatches(ts: seq<Tournament>, id: TournamentId, matchIds: Option<seq<MatchId>>): (r: Result<Tournament>)
    ensures r.Err? && r.status == NotFound <==> forall i | 0 <= i < |ts| :: ts[i].id != id
    ensures r.Err? && r.status == ServerError <==> FindTournament(ts, id).Some? && matchIds.None?
    ensures r.Err? ==> r.status in {NotFound, ServerError}
    ensures r.Ok? ==>
      && matchIds.Some? && FindTournament(ts, id).Some?
      && var t := ts[FindTournament(ts, id).value];
      && r.value.(matches := t.matches) == t
      && |r.value.matches| == |t.matches| + |matchIds.value|
      && r.value.matches[..|t.matches|] == t.matches
      && r.value.matches[|t.matches|..] == matchIds.value
  {
    var found := FindTournament(ts, id);
    if found.None? then Err(NotFound, TournamentNotFoundMessage)
    else if matchIds.None? then Err(ServerError, NotIterableMessage)
    else
      var t := ts[found.value];
      var r := t.(matches := t.matches + matchIds.value);
      assert r.matches[..|t.matches|] == t.matches;
      assert r.matches[|t.matches|..] == matchIds.value;
      Ok(r)
  }

  /** The `$match` stage: squads of a match the tournament lists and that still exists (the
      populate step drops ids with no match document). */
  function Qualifying(squads: seq<Squad>, matches: seq<MatchId>, known: set<MatchId>): (r: seq<Squad>)
    ensures forall i | 0 <= i < |r| :: r[i].matchId in matches && r[i].matchId in known
    ensures forall i | 0 <= i < |squads| && squads[i].matchId in matches && squads[i].matchId in known ::
      squads[i] in r
    ensures multiset(r) <= multiset(squads)
  {
    Filter(squads, (s: Squad) => s.matchId in matches && s.matchId in known)
  }

  /** Reference definitions of the `$group` accumulators: a user's summed totals and number
      of squads. */
  function UserTotal(qs: seq<Squad>, u: UserId): int {
    if |qs| == 0 then 0
    else UserTotal(qs[..|qs| - 1], u) + (if qs[|qs| - 1].user == u then qs[|qs| - 1].totalPoints else 0)
  }

  function UserCount(qs: seq<Squad>, u: UserId): nat {
    if |qs| == 0 then 0
    else UserCount(qs[..|qs| - 1], u) + (if qs[|qs| - 1].user == u then 1 else 0)
  }

  /** A `$group` output document: `_id` is the user. */
  datatype Group = Group(user: UserId, totalScore: int, teamsCount: nat)

  function ScoreOf(g: Group): int { g.totalScore }

  predicate UsersDistinct(gs: seq<Group>) {
    forall i, j | 0 <= i < j < |gs| :: gs[i].user != gs[j].user
  }

  function FindUser(gs: seq<Group>, u: UserId): (r: Option<nat>)
    ensures r.Some? ==> r.value < |gs| && gs[r.value].user == u
    ensures r.None? <==> forall i | 0 <= i < |gs| :: gs[i].user != u
  {
    if |gs| == 0 then None
    else if gs[|gs| - 1].user == u then Some(|gs| - 1)
    else
      var r := FindUser(gs[..|gs| - 1], u);
      if r.Some? then Some(r.value) else None
  }

  /** Folding one squad into the groups: its user's group grows, or a new group starts. */
  function AddSquad(gs: seq<Group>, s: Squad): seq<Group> {
    var found := FindUser(gs, s.user);
    if found.Some? then
      var g := gs[found.value];
      gs[found.value := Group(g.user, g.totalScore + s.totalPoints, g.teamsCount + 1)]
    else gs + [Group(s.user, s.totalPoints, 1)]
  }

  /** `gs` holds exactly one group per user of `qs`, with that user's sum and count. */
  ghost predicate Grouped(gs: seq<Group>, qs: seq<Squad>) {
    && UsersDistinct(gs)
    && (forall i | 0 <= i < |gs| ::
          && gs[i].totalScore == UserTotal(qs, gs[i].user)
          && gs[i].teamsCount == UserCount(qs, gs[i].user)
          && gs[i].teamsCount >= 1)
    && (forall k | 0 <= k < |qs| :: FindUser(gs, qs[k].user).Some?)
  }

  /** The `$group` stage: one group per user, holding the sum and the count of that user's
      squads. */
  function GroupByUser(qs: seq<Squad>): (gs: seq<Group>)
    ensures Grouped(gs, qs)
  {
    if |qs| == 0 then []
    else
      var n := |qs| - 1;
      var prev := GroupByUser(qs[..n]);
      AddSquadFacts(qs, prev);
      AddSquad(prev, qs[n])
  }

  lemma AddSquadFacts(qs: seq<Squad>, prev: seq<Group>)
    requires |qs| > 0
    requires Grouped(prev, qs[..|qs| - 1])
    ensures Grouped(AddSquad(prev, qs[|qs| - 1]), qs)
  {
    var n := |qs| - 1;
    var s := qs[n];
    var gs := AddSquad(prev, s);
    var found := FindUser(prev, s.user);
    if found.None? {
      assert UserCount(qs[..n], s.user) == 0 by {
        UserCountZero(qs[..n], s.user, prev);
      }
      assert UserTotal(qs[..n], s.user) == 0 by {
        UserCountZero(qs[..n], s.user, prev);
      }
    }
    assert forall k | 0 <= k < n :: qs[..n][k] == qs[k];
    forall k | 0 <= k < |qs| ensures FindUser(gs, qs[k].user).Some? {
      if k < n {
        var j := FindUser(prev, qs[k].user).value;
        assert gs[j].user == qs[k].user;
      } else {
        if found.Some? {
          assert gs[found.value].user == s.user;
        } else {
          assert gs[|gs| - 1].user == s.user;
        }
      }
    }
  }

  /** A user without a group has no squad, and hence nothing summed. */
  lemma {:induction false} UserCountZero(qs: seq<Squad>, u: UserId, gs: seq<Group>)
    requires forall k | 0 <= k < |qs| :: FindUser(gs, qs[k].user).Some?
    requires FindUser(gs, u).None?
    ensures UserCount(qs, u) == 0 && UserTotal(qs, u) == 0
    decreases |qs|
  {
    if |qs| > 0 {
      var n := |qs| - 1;
      assert forall k | 0 <= k < n :: qs[..n][k] == qs[k];
      UserCountZero(qs[..n], u, gs);
      assert qs[n].user != u;
    }
  }

  /** A season leaderboard line: the `$project` stage's output. */
  datatype SeasonRow = SeasonRow(user: UserId, username: string, totalScore: int, teamsCount: nat)

  function RowScore(r: SeasonRow): int { r.totalScore }

  /** `row` is the line for group `g`, whose user exists. */
  predicate RowOf(row: SeasonRow, g: Group, usernames: map<UserId, string>) {
    g.user in usernames && row == SeasonRow(g.user, usernames[g.user], g.totalScore, g.teamsCount)
  }

  /** The groups whose user exists, in order. */
  function KnownUsers(gs: seq<Group>, usernames: map<UserId, string>): (k: seq<Group>)
    ensures forall i | 0 <= i < |k| :: k[i].user in usernames
    ensures forall j | 0 <= j < |gs| && gs[j].user in usernames :: gs[j] in k
    ensures multiset(k) <= multiset(gs)
    ensures SortedDesc(gs, ScoreOf) ==> SortedDesc(k, ScoreOf)
  {
    var k := Filter(gs, (g: Group) => g.user in usernames);
    assert SortedDesc(gs, ScoreOf) ==> SortedDesc(k, ScoreOf) by {
      if SortedDesc(gs, ScoreOf) {
        FilterSortedDesc(gs, (g: Group) => g.user in usernames, ScoreOf);
      }
    }
    k
  }

  /** The `$lookup` and `$unwind` stages: each group joined with its user's name, and groups
      whose user does not exist dropped, order kept. */
  function AttachUsers(gs: seq<Group>, usernames: map<UserId, string>): (r: seq<SeasonRow>)
    ensures |r| == |KnownUsers(gs, usernames)|
    ensures forall i | 0 <= i < |r| :: RowOf(r[i], KnownUsers(gs, usernames)[i], usernames)
  {
    var k := KnownUsers(gs, usernames);
    seq(|k|, i requires 0 <= i < |k| => SeasonRow(k[i].user, usernames[k[i].user], k[i].totalScore, k[i].teamsCount))
  }

  /** What every listed row carries: an existing user's name, and that user's sum and count
      over the qualifying squads; best first, one row per user, at most 100. */
  ghost predicate RowsFaithful(r: seq<SeasonRow>, qs: seq<Squad>, usernames: map<UserId, string>) {
    && |r| <= SeasonLimit
    && SortedDesc(r, RowScore)
    && (forall i, k | 0 <= i < k < |r| :: r[i].user != r[k].user)
    && (forall i | 0 <= i < |r| ::
          && r[i].user in usernames && r[i].username == usernames[r[i].user]
          && r[i].totalScore == UserTotal(qs, r[i].user)
          && r[i].teamsCount == UserCount(qs, r[i].user) >= 1)
  }

  /** Who is listed: an existing user with a qualifying squad is either listed or scored no
      more than anyone listed; with at most 100 such users in all, every one is listed. */
  ghost predicate RowsComplete(r: seq<SeasonRow>, qs: seq<Squad>, usernames: map<UserId, string>) {
    && (forall k | 0 <= k < |qs| && qs[k].user in usernames ::
          (exists i | 0 <= i < |r| :: r[i].user == qs[k].user)
          || forall i | 0 <= i < |r| :: r[i].totalScore >= UserTotal(qs, qs[k].user))
    && (|GroupByUser(qs)| <= SeasonLimit ==>
          forall k | 0 <= k < |qs| && qs[k].user in usernames ::
            exists i | 0 <= i < |r| :: r[i].user == qs[k].user)
  }

  /** The `$sort`, `$limit` and `$lookup`/`$unwind` stages in that order: the best
      min(100, |gs|) groups, in some tie order, and only then joined with their users. */
  ghost predicate LimitThenJoin(r: seq<SeasonRow>, gs: seq<Group>, usernames: map<UserId, string>): (b: bool)
    ensures b ==> |r| <= SeasonLimit && |r| <= |gs|
  {
    exists top :: && IsTopDesc(top, gs, ScoreOf)
                  && |top| == (if |gs| <= SeasonLimit then |gs| else SeasonLimit)
                  && r == AttachUsers(top, usernames)
  }

  lemma LimitThenJoinAt(top: seq<Group>, gs: seq<Group>, usernames: map<UserId, string>)
    requires IsTopDesc(top, gs, ScoreOf)
    requires |top| == (if |gs| <= SeasonLimit then |gs| else SeasonLimit)
    ensures LimitThenJoin(AttachUsers(top, usernames), gs, usernames)
  {
  }

  /** `GET /api/tournaments/:id/leaderboard`. The database's `$sort` promises no tie order;
      the model sorts stably, and the contract speaks only of what every tie order gives: one
      row per existing user with a qualifying squad, their sum and count, best first, at most
      100, and nobody left out who scored more than someone listed. */
  function SeasonLeaderboard(ts: seq<Tournament>, id: TournamentId, known: set<MatchId>, squads: seq<Squad>,
                             usernames: map<UserId, string>): (r: Result<seq<SeasonRow>>)
    ensures r.Err? <==> forall i | 0 <= i < |ts| :: ts[i].id != id
    ensures r.Err? ==> r.status == NotFound
    ensures r.Ok? ==>
      && FindTournament(ts, id).Some?
      && var qs := Qualifying(squads, ts[FindTournament(ts, id).value].matches, known);
      && RowsFaithful(r.value, qs, usernames)
      && RowsComplete(r.value, qs, usernames)
      && LimitThenJoin(r.value, GroupByUser(qs), usernames)
  {
    var found := FindTournament(ts, id);
    if found.None? then Err(NotFound, TournamentNotFoundMessage)
    else
      var qs := Qualifying(squads, ts[found.value].matches, known);
      var gs := GroupByUser(qs);
      var sorted := SortDesc(gs, ScoreOf);
      var n := if |sorted| <= SeasonLimit then |sorted| else SeasonLimit;
      var top := sorted[..n];
      var rows := AttachUsers(top, usernames);
      SeasonFacts(qs, gs, sorted, n, usernames);
      Ok(rows)
  }

  lemma SeasonFacts(qs: seq<Squad>, gs: seq<Group>, sorted: seq<Group>, n: nat, usernames: map<UserId, string>)
    requires Grouped(gs, qs)
    requires |gs| == |GroupByUser(qs)|
    requires IsDescOrdering(sorted, gs, ScoreOf)
    requires n == (if |sorted| <= SeasonLimit then |sorted| else SeasonLimit)
    ensures RowsFaithful(AttachUsers(sorted[..n], usernames), qs, usernames)
    ensures RowsComplete(AttachUsers(sorted[..n], usernames), qs, usernames)
    ensures LimitThenJoin(AttachUsers(sorted[..n], usernames), gs, usernames)
  {
    TopPrefix(sorted, gs, ScoreOf, n);
    SeasonRowsFaithful(qs, gs, sorted[..n], usernames);
    SeasonRowsListed(qs, gs, sorted[..n], usernames);
    assert |sorted| == |gs| by {
      assert |sorted| == |multiset(sorted)| == |multiset(gs)| == |gs|;
    }
    LimitThenJoinAt(sorted[..n], gs, usernames);
    if |gs| <= SeasonLimit {
      assert sorted[..n] == sorted;
      SeasonAllListed(qs, gs, sorted, usernames);
    }
  }

  lemma SeasonRowsFaithful(qs: seq<Squad>, gs: seq<Group>, top: seq<Group>, usernames: map<UserId, string>)
    requires Grouped(gs, qs)
    requires IsTopDesc(top, gs, ScoreOf)
    requires |top| <= SeasonLimit
    ensures RowsFaithful(AttachUsers(top, usernames), qs, usernames)
  {
    var k := KnownUsers(top, usernames);
    var r := AttachUsers(top, usernames);
    assert multiset(k) <= multiset(gs);
    SubMultisetMembers(k, gs);
    TopUsersDistinct(gs, k);
    assert SortedDesc(k, ScoreOf);
    assert forall i | 0 <= i < |r| :: r[i].user == k[i].user && r[i].totalScore == k[i].totalScore;
    forall i | 0 <= i < |r|
      ensures && r[i].totalScore == UserTotal(qs, r[i].user)
              && r[i].teamsCount == UserCount(qs, r[i].user) >= 1
    {
      var m :| 0 <= m < |gs| && gs[m] == k[i];
    }
  }

  lemma SeasonRowsListed(qs: seq<Squad>, gs: seq<Group>, top: seq<Group>, usernames: map<UserId, string>)
    requires Grouped(gs, qs)
    requires IsTopDesc(top, gs, ScoreOf)
    ensures var r := AttachUsers(top, usernames);
      forall k | 0 <= k < |qs| && qs[k].user in usernames ::
        (exists i | 0 <= i < |r| :: r[i].user == qs[k].user)
        || forall i | 0 <= i < |r| :: r[i].totalScore >= UserTotal(qs, qs[k].user)
  {
    var r := AttachUsers(top, usernames);
    forall k | 0 <= k < |qs| && qs[k].user in usernames
      ensures (exists i | 0 <= i < |r| :: r[i].user == qs[k].user)
              || forall i | 0 <= i < |r| :: r[i].totalScore >= UserTotal(qs, qs[k].user)
    {
      var g := gs[FindUser(gs, qs[k].user).value];
      GroupListedOrOutscored(gs, top, usernames, g);
    }
  }

  /** A group of an existing user is either listed or outscored by every listed row. */
  lemma GroupListedOrOutscored(gs: seq<Group>, top: seq<Group>, usernames: map<UserId, string>, g: Group)
    requires IsTopDesc(top, gs, ScoreOf)
    requires g in gs && g.user in usernames
    ensures var r := AttachUsers(top, usernames);
      (exists i | 0 <= i < |r| :: r[i].user == g.user)
      || forall i | 0 <= i < |r| :: r[i].totalScore >= g.totalScore
  {
    var known := KnownUsers(top, usernames);
    var r := AttachUsers(top, usernames);
    if g in top {
      var i :| 0 <= i < |known| && known[i] == g;
      assert r[i].user == g.user;
    } else {
      assert g in multiset(gs) - multiset(top);
      SubMultisetMembers(known, top);
      forall i | 0 <= i < |r| ensures r[i].totalScore >= g.totalScore {
        var j :| 0 <= j < |top| && top[j] == known[i];
        assert ScoreOf(g) <= ScoreOf(top[j]);
      }
    }
  }

  lemma SeasonAllListed(qs: seq<Squad>, gs: seq<Group>, top: seq<Group>, usernames: map<UserId, string>)
    requires Grouped(gs, qs)
    requires multiset(top) == multiset(gs)
    ensures var r := AttachUsers(top, usernames);
      forall k | 0 <= k < |qs| && qs[k].user in usernames :: exists i | 0 <= i < |r| :: r[i].user == qs[k].user
  {
    var known := KnownUsers(top, usernames);
    var r := AttachUsers(top, usernames);
    forall k | 0 <= k < |qs| && qs[k].user in usernames
      ensures exists i | 0 <= i < |r| :: r[i].user == qs[k].user
    {
      var g := gs[FindUser(gs, qs[k].user).value];
      assert g in multiset(gs);
      var j :| 0 <= j < |top| && top[j] == g;
      var i :| 0 <= i < |known| && known[i] == g;
      assert r[i].user == qs[k].user;
    }
  }

  /** Groups drawn from groups with distinct users have distinct users. */
  lemma TopUsersDistinct(gs: seq<Group>, top: seq<Group>)
    requires UsersDistinct(gs)
    requires multiset(top) <= multiset(gs)
    ensures UsersDistinct(top)
  {
    assert Distinct(gs);
    DistinctSubMultiset(gs, top);
    SubMultisetMembers(top, gs);
    forall i, j | 0 <= i < j < |top| ensures top[i].user != top[j].user {
      var a :| 0 <= a < |gs| && gs[a] == top[i];
      var b :| 0 <= b < |gs| && gs[b] == top[j];
    }
  }

  /** Listing a match twice counts its squads once: the qualifying squads depend only on the
      set of listed matches. */
  lemma RepeatedMatchIgnored(squads: seq<Squad>, matches: seq<MatchId>, known: set<MatchId>, extra: seq<MatchId>)
    requires forall i | 0 <= i < |extra| :: extra[i] in matches
    ensures Qualifying(squads, matches + extra, known) == Qualifying(squads, matches, known)
  {
    FilterAgree(squads, (s: Squad) => s.matchId in matches + extra && s.matchId in known,
                (s: Squad) => s.matchId in matches && s.matchId in known);
  }

  /** Re-adding matches the tournament already lists leaves its season leaderboard as it was. */
  lemma AddKnownMatchesKeepsLeaderboard(ts: seq<Tournament>, id: TournamentId, extra: seq<MatchId>,
                                        known: set<MatchId>, squads: seq<Squad>, usernames: map<UserId, string>)
    requires FindTournament(ts, id).Some?
    requires forall i | 0 <= i < |extra| :: extra[i] in ts[FindTournament(ts, id).value].matches
    ensures var r := AddMatches(ts, id, Some(extra));
      r.Ok? && SeasonLeaderboard(ts[FindTournament(ts, id).value := r.value], id, known, squads, usernames)
            == SeasonLeaderboard(ts, id, known, squads, usernames)
  {
    var i := FindTournament(ts, id).value;
    var t := ts[i];
    var r := AddMatches(ts, id, Some(extra));
    var after := ts[i := r.value];
    assert forall j | 0 <= j < |after| :: after[j].id == ts[j].id;
    assert FindTournament(after, id) == Some(i) by {
      FindTournamentSameIds(ts, after, id);
    }
    assert r.value.matches == t.matches + extra by {
      assert r.value.matches == r.value.matches[..|t.matches|] + r.value.matches[|t.matches|..];
    }
    RepeatedMatchIgnored(squads, t.matches, known, extra);
  }

  /** The lookup by id depends only on the ids. */
  lemma {:induction false} FindTournamentSameIds(a: seq<Tournament>, b: seq<Tournament>, id: TournamentId)
    requires |a| == |b|
    requires forall j | 0 <= j < |a| :: a[j].id == b[j].id
    ensures FindTournament(a, id) == FindTournament(b, id)
    decreases |a|
  {
    if |a| > 0 && a[0].id != id {
      FindTournamentSameIds(a[1..], b[1..], id);
    }
  }
}

=== FILE: users.dfy ===
/** Accounts (backend/routes/users.js): input normalisation for registration and login, the
    profile update, and the list of client origins read from the environment. Password hashing
    is an ideal hash: `Hashed(p)` matches exactly the password `p`. */
module Users {
  import opened Results
  import opened Strings

  type UserId = string

  const DefaultClientOrigin := "http://localhost:5173"
  /** The shortest password registration accepts, in UTF-16 code units. */
  const MinPasswordLength: nat := 8

  const RegisterFieldsMessage := "Please provide a username, email, and password."
  const ShortPasswordMessage := "Password must be at least 8 characters long."
  const UserExistsMessage := "User already exists"
  const LoginFieldsMessage := "Please enter both email and password."
  const NoSuchUserMessage := "User does not exist"
  const InvalidCredentialsMessage := "Invalid credentials"
  const UserNotFoundMessage := "User not found"
  /** What the hashing library throws for a password that is not a string. */
  const IllegalArgumentsMessage := "Illegal arguments"
  const UserValidationMessage := "User validation failed"

  /** A JSON request field as the handler sees it. `Other` is an object or array. */
  datatype JsValue = Undefined | Null | Str(s: string) | Num(n: int) | Bool(b: bool) | Other

  /** JavaScript truthiness. */
  predicate Truthy(v: JsValue) {
    match v
    case Undefined => false
    case Null => false
    case Str(s) => s != ""
    case Num(n) => n != 0
    case Bool(b) => b
    case Other => true
  }

  /** `value.length` where it is a number: the UTF-16 length of a string. */
  function LengthOf(v: JsValue): Option<nat> {
    if v.Str? then Some(Utf16Length(v.s)) else None
  }

  datatype Hash = Hashed(secret: string)

  datatype User = User(id: UserId, username: string, email: string, password: Hash)

  /** `typeof username === 'string' ? username.trim() : ''`. */
  function NormalizeUsername(v: JsValue): (r: string)
    ensures NoEdgeSpace(r)
    ensures v.Str? ==> Surrounds(v.s, r)
    ensures !v.Str? ==> r == ""
  {
    if v.Str? then
      TrimSurrounds(v.s);
      Trim(v.s)
    else ""
  }

  /** `typeof email === 'string' ? email.trim().toLowerCase() : ''`. */
  function NormalizeEmail(v: JsValue): (r: string)
    ensures NoEdgeSpace(r)
    ensures NoUpperAscii(r)
    ensures v.Str? ==> r == ToLowerAscii(Trim(v.s))
    ensures !v.Str? ==> r == ""
  {
    if v.Str? then
      var t := Trim(v.s);
      LowerNoEdgeSpace(t);
      LowerHasNoUpper(t);
      ToLowerAscii(t)
    else ""
  }

  /** Normalising a normalised email changes nothing, so any spelling that normalises to a
      stored email finds it. */
  lemma NormalizeEmailIdempotent(v: JsValue)
    ensures NormalizeEmail(Str(NormalizeEmail(v))) == NormalizeEmail(v)
  {
    NormalEmailFixed(NormalizeEmail(v));
  }

  /** `User.findOne({ email })`: the position of the first user with that email. */
  function FindEmail(users: seq<User>, email: string): (r: Option<nat>)
    ensures r.Some? ==> r.value < |users| && users[r.value].email == email
    ensures r.None? <==> forall i | 0 <= i < |users| :: users[i].email != email
  {
    if |users| == 0 then None
    else if users[0].email == email then Some(0)
    else
      var r := FindEmail(users[1..], email);
      assert forall i | 1 <= i < |users| :: users[i] == users[1..][i - 1];
      if r.Some? then Some(r.value + 1) else None
  }

  predicate UniqueEmails(users: seq<User>) {
    forall i, j | 0 <= i < j < |users| :: users[i].email != users[j].email
  }

  /** `POST /api/users/register`: the new user, stored with the trimmed name, the normalised
      email and the hashed password. Every refusal is a 400, in this order. */
  function Register(users: seq<User>, username: JsValue, email: JsValue, password: JsValue, id: UserId): (r: Result<User>)
    ensures r.Err? ==> r.status == BadRequest
    ensures r.Err? && r.message == RegisterFieldsMessage <==>
      NormalizeUsername(username) == "" || NormalizeEmail(email) == "" || !Truthy(password)
    ensures r.Err? && r.message == ShortPasswordMessage <==>
      && NormalizeUsername(username) != "" && NormalizeEmail(email) != "" && Truthy(password)
      && LengthOf(password).Some? && LengthOf(password).value < MinPasswordLength
    ensures r.Err? && r.message == UserExistsMessage <==>
      && NormalizeUsername(username) != "" && NormalizeEmail(email) != "" && Truthy(password)
      && !(LengthOf(password).Some? && LengthOf(password).value < MinPasswordLength)
      && exists i | 0 <= i < |users| :: users[i].email == NormalizeEmail(email)
    ensures r.Ok? <==>
      && NormalizeUsername(username) != "" && NormalizeEmail(email) != ""
      && password.Str? && Utf16Length(password.s) >= MinPasswordLength
      && forall i | 0 <= i < |users| :: users[i].email != NormalizeEmail(email)
    ensures r.Ok? ==> r.value == User(id, NormalizeUsername(username), NormalizeEmail(email), Hashed(password.s))
  {
    var name, mail := NormalizeUsername(username), NormalizeEmail(email);
    if name == "" || mail == "" || !Truthy(password) then Err(BadRequest, RegisterFieldsMessage)
    else if LengthOf(password).Some? && LengthOf(password).value < MinPasswordLength then
      Err(BadRequest, ShortPasswordMessage)
    else if FindEmail(users, mail).Some? then Err(BadRequest, UserExistsMessage)
    else if !password.Str? then Err(BadRequest, IllegalArgumentsMessage)
    else Ok(User(id, name, mail, Hashed(password.s)))
  }

  /** `POST /api/users/login`: the user whose stored email is the normalised one, when the
      password matches its hash. Every refusal is a 400, in this order. */
  function Login(users: seq<User>, email: JsValue, password: JsValue): (r: Result<User>)
    ensures r.Err? ==> r.status == BadRequest
    ensures r.Err? && r.message == LoginFieldsMessage <==> NormalizeEmail(email) == "" || !Truthy(password)
    ensures r.Err? && r.message == NoSuchUserMessage <==>
      && NormalizeEmail(email) != "" && Truthy(password)
      && forall i | 0 <= i < |users| :: users[i].email != NormalizeEmail(email)
    ensures r.Ok? <==>
      && NormalizeEmail(email) != "" && password.Str? && password.s != ""
      && FindEmail(users, NormalizeEmail(email)).Some?
      && users[FindEmail(users, NormalizeEmail(email)).value].password == Hashed(password.s)
    ensures r.Ok? ==> r.value in users && r.value.email == NormalizeEmail(email)
  {
    assert NoSuchUserMessage != InvalidCredentialsMessage by {
      assert NoSuchUserMessage[0] != InvalidCredentialsMessage[0];
    }
    var mail := NormalizeEmail(email);
    if mail == "" || !Truthy(password) then Err(BadRequest, LoginFieldsMessage)
    else
      var found := FindEmail(users, mail);
      if found.None? then Err(BadRequest, NoSuchUserMessage)
      else if !password.Str? then Err(BadRequest, IllegalArgumentsMessage)
      else if users[found.value].password != Hashed(password.s) then Err(BadRequest, InvalidCredentialsMessage)
      else Ok(users[found.value])
  }

  /** Registration keeps emails unique, and the new account can log in with the same password
      under any spelling of its email that normalises alike. */
  lemma RegisterThenLogin(users: seq<User>, username: JsValue, email: JsValue, password: JsValue, id: UserId, email2: JsValue)
    requires UniqueEmails(users)
    requires NormalizeEmail(email2) == NormalizeEmail(email)
    ensures var r := Register(users, username, email, password, id);
      r.Ok? ==> UniqueEmails(users + [r.value]) && Login(users + [r.value], email2, password) == Ok(r.value)
  {
    var r := Register(users, username, email, password, id);
    if r.Ok? {
      var mail := NormalizeEmail(email);
      assert r.value.email == mail && r.value.password == Hashed(password.s);
      assert password.Str? && password.s != "" by {
        assert Utf16Length(password.s) >= MinPasswordLength;
      }
      AppendFreshEmail(users, r.value);
      var after := users + [r.value];
      FindUniqueEmail(after, |users|);
      assert FindEmail(after, mail) == Some(|users|);
      LoginFound(after, email2, password, |users|);
    }
  }

  /** Appending a user whose email is not stored keeps emails unique. */
  lemma AppendFreshEmail(users: seq<User>, u: User)
    requires UniqueEmails(users)
    requires forall i | 0 <= i < |users| :: users[i].email != u.email
    ensures UniqueEmails(users + [u])
  {
    var after := users + [u];
    forall i, j | 0 <= i < j < |after| ensures after[i].email != after[j].email {
      assert after[i] == users[i];
      if j < |users| {
        assert after[j] == users[j];
      }
    }
  }

  /** With unique emails, looking up a stored email finds exactly its user. */
  lemma FindUniqueEmail(users: seq<User>, i: nat)
    requires UniqueEmails(users) && i < |users|
    ensures FindEmail(users, users[i].email) == Some(i)
  {
    var r := FindEmail(users, users[i].email);
    assert r.Some?;
    assert users[r.value].email == users[i].email;
  }

  /** Login succeeds for the user the lookup finds when the password matches its hash. */
  lemma LoginFound(users: seq<User>, email: JsValue, password: JsValue, i: nat)
    requires NormalizeEmail(email) != "" && password.Str? && password.s != ""
    requires FindEmail(users, NormalizeEmail(email)) == Some(i)
    requires users[i].password == Hashed(password.s)
    ensures Login(users, email, password) == Ok(users[i])
  {
  }

  /** Registering twice with the same email, in any spelling that normalises alike, is
      refused the second time. */
  lemma RegisterTwiceRefused(users: seq<User>, username: JsValue, email: JsValue, password: JsValue, id: UserId,
                             username2: JsValue, email2: JsValue, password2: JsValue, id2: UserId)
    requires NormalizeEmail(email2) == NormalizeEmail(email)
    requires NormalizeUsername(username2) != "" && Truthy(password2)
    requires !(LengthOf(password2).Some? && LengthOf(password2).value < MinPasswordLength)
    ensures var r := Register(users, username, email, password, id);
      r.Ok? ==> Register(users + [r.value], username2, email2, password2, id2) == Err(BadRequest, UserExistsMessage)
  {
    var r := Register(users, username, email, password, id);
    if r.Ok? {
      var after := users + [r.value];
      assert after[|users|].email == NormalizeEmail(email2);
    }
  }

  /** `User.findById`: the position of the user with that id, if any. */
  function FindUser(users: seq<User>, id: UserId): (r: Option<nat>)
    ensures r.Some? ==> r.value < |users| && users[r.value].id == id
    ensures r.None? <==> forall i | 0 <= i < |users| :: users[i].id != id
  {
    if |users| == 0 then None
    else if users[0].id == id then Some(0)
    else
      var r := FindUser(users[1..], id);
      assert forall i | 1 <= i < |users| :: users[i] == users[1..][i - 1];
      if r.Some? then Some(r.value + 1) else None
  }

  /** What the schema stores for a username assigned from the request: strings as they are,
      numbers and booleans as their text, anything else is not a string. */
  function CastToString(v: JsValue): (r: Option<string>)
    ensures r.Some? <==> v.Str? || v.Num? || v.Bool?
    ensures v.Str? ==> r == Some(v.s)
    ensures v.Num? ==> r.value != "" && (r.value[0] == '-' <==> v.n < 0)
    ensures v.Bool? ==> (r.value == "true" <==> v.b) && (r.value == "false" <==> !v.b)
  {
    match v
    case Str(s) => Some(s)
    case Num(n) => Some(IntString(n))
    case Bool(b) => Some(if b then "true" else "false")
    case _ => None
  }

  /** `PUT /api/users/profile/:id`: a supplied username replaces the stored one untrimmed, a
      supplied password is hashed and replaces the stored hash; nothing else changes. */
  function UpdateProfile(users: seq<User>, id: UserId, username: JsValue, password: JsValue): (r: Result<User>)
    ensures r.Err? && r.status == NotFound <==> forall i | 0 <= i < |users| :: users[i].id != id
    ensures r.Err? ==> r.status in {NotFound, ServerError}
    ensures r.Ok? <==>
      && FindUser(users, id).Some?
      && (Truthy(password) ==> password.Str?)
      && (Truthy(username) ==> CastToString(username).Some?)
    ensures r.Ok? ==>
      var prior := users[FindUser(users, id).value];
      && r.value.id == prior.id && r.value.email == prior.email
      && r.value.username == (if Truthy(username) then CastToString(username).value else prior.username)
      && r.value.password == (if Truthy(password) then Hashed(password.s) else prior.password)
  {
    var found := FindUser(users, id);
    if found.None? then Err(NotFound, UserNotFoundMessage)
    else
      var u := users[found.value];
      if Truthy(password) && !password.Str? then Err(ServerError, IllegalArgumentsMessage)
      else if Truthy(username) && CastToString(username).None? then Err(ServerError, UserValidationMessage)
      else
        var name := if Truthy(username) then CastToString(username).value else u.username;
        var hash := if Truthy(password) then Hashed(password.s) else u.password;
        Ok(u.(username := name, password := hash))
  }

  /** An email in normalised form: no white space at either end, no upper-case ASCII letter. */
  predicate IsNormalEmail(e: string) {
    NoEdgeSpace(e) && NoUpperAscii(e)
  }

  /** Normalisation leaves exactly the normalised emails unchanged. */
  lemma NormalEmailFixed(e: string)
    ensures NormalizeEmail(Str(e)) == e <==> IsNormalEmail(e)
  {
    if IsNormalEmail(e) {
      TrimNoEdgeSpace(e);
      LowerNoUpperFixed(e);
    }
  }

  /** Stored emails are in normalised form, as registration writes them. */
  predicate EmailsNormalized(users: seq<User>) {
    forall i | 0 <= i < |users| :: IsNormalEmail(users[i].email)
  }

  /** Registration keeps stored emails normalised. */
  lemma RegisterNormalizes(users: seq<User>, username: JsValue, email: JsValue, password: JsValue, id: UserId)
    requires EmailsNormalized(users)
    ensures var r := Register(users, username, email, password, id);
      r.Ok? ==> EmailsNormalized(users + [r.value])
  {
    var r := Register(users, username, email, password, id);
    if r.Ok? {
      assert IsNormalEmail(r.value.email);
      AppendNormalEmail(users, r.value);
    }
  }

  lemma AppendNormalEmail(users: seq<User>, u: User)
    requires EmailsNormalized(users) && IsNormalEmail(u.email)
    ensures EmailsNormalized(users + [u])
  {
    var after := users + [u];
    forall i | 0 <= i < |after| ensures IsNormalEmail(after[i].email) {
      if i < |users| {
        assert after[i] == users[i];
      }
    }
  }

  /** After a profile update with a new password, that password logs in under the stored
      email, and any other password is refused. */
  lemma UpdatePasswordThenLogin(users: seq<User>, id: UserId, username: JsValue, password: string, other: string)
    requires UniqueEmails(users) && EmailsNormalized(users)
    requires password != ""
    ensures var r := UpdateProfile(users, id, username, Str(password));
      r.Ok? ==>
        var i := FindUser(users, id).value;
        var after := users[i := r.value];
        users[i].email != "" ==>
          && Login(after, Str(users[i].email), Str(password)) == Ok(r.value)
          && (other != password ==> Login(after, Str(users[i].email), Str(other)).Err?)
  {
    var r := UpdateProfile(users, id, username, Str(password));
    if r.Ok? {
      var i := FindUser(users, id).value;
      var after := users[i := r.value];
      var e := users[i].email;
      if e != "" {
        assert r.value.email == e && r.value.password == Hashed(password);
        ReplaceSameEmail(users, i, r.value);
        LoginByStoredEmail(after, i, password, other);
        assert after[i] == r.value;
      }
    }
  }

  /** A user with a normalised email logs in under that email with exactly the password its
      hash was made from. */
  lemma LoginByStoredEmail(users: seq<User>, i: nat, password: string, other: string)
    requires UniqueEmails(users) && i < |users|
    requires IsNormalEmail(users[i].email) && users[i].email != ""
    requires users[i].password == Hashed(password) && password != ""
    ensures Login(users, Str(users[i].email), Str(password)) == Ok(users[i])
    ensures other != password ==> Login(users, Str(users[i].email), Str(other)).Err?
  {
    var e := users[i].email;
    FindUniqueEmail(users, i);
    NormalEmailFixed(e);
    LoginFound(users, Str(e), Str(password), i);
    if other != password {
      LoginWrongPassword(users, Str(e), Str(other), i);
    }
  }

  /** Replacing a user by one with the same email keeps emails unique and normalised. */
  lemma ReplaceSameEmail(users: seq<User>, i: nat, u: User)
    requires UniqueEmails(users) && EmailsNormalized(users) && i < |users|
    requires u.email == users[i].email
    ensures UniqueEmails(users[i := u]) && IsNormalEmail(u.email)
  {
    var after := users[i := u];
    assert forall j | 0 <= j < |after| :: after[j].email == users[j].email;
  }

  /** Login refuses a password that does not match the found user's hash. */
  lemma LoginWrongPassword(users: seq<User>, email: JsValue, password: JsValue, i: nat)
    requires FindEmail(users, NormalizeEmail(email)) == Some(i)
    requires users[i].password != Hashed(if password.Str? then password.s else "")
    ensures Login(users, email, password).Err?
  {
  }

  /** `CLIENT_ORIGIN` (or the default when it is unset or empty) split on commas, each part
      trimmed, empty parts dropped. */
  function ClientOrigins(env: Option<string>): (r: seq<string>)
    ensures forall i | 0 <= i < |r| :: r[i] != "" && NoEdgeSpace(r[i]) && ',' !in r[i]
  {
    var raw := if Present(env) then env.value else DefaultClientOrigin;
    var parts := Split(raw, ',');
    TrimmedPartsKeepOut(parts, ',');
    TrimmedParts(parts)
  }

  /** The parts trimmed, in order, without the empty ones. */
  function TrimmedParts(parts: seq<string>): (r: seq<string>)
    ensures |r| <= |parts|
    ensures forall i | 0 <= i < |r| :: r[i] != "" && NoEdgeSpace(r[i])
  {
    if |parts| == 0 then []
    else
      var t := Trim(parts[0]);
      (if t == "" then [] else [t]) + TrimmedParts(parts[1..])
  }

  /** `t` is a non-empty string that some part trims to. */
  predicate TrimsTo(parts: seq<string>, t: string) {
    t != "" && exists i | 0 <= i < |parts| :: Trim(parts[i]) == t
  }

  /** Exactly the non-empty trimmed parts are kept. */
  lemma {:induction false} TrimmedPartsMembers(parts: seq<string>, t: string)
    ensures t in TrimmedParts(parts) <==> TrimsTo(parts, t)
    decreases |parts|
  {
    if |parts| > 0 {
      TrimmedPartsMembers(parts[1..], t);
      assert forall i | 1 <= i < |parts| :: parts[1..][i - 1] == parts[i];
    }
  }

  /** The origins are exactly the non-empty trimmed comma-separated parts of `CLIENT_ORIGIN`,
      or of the default when it is unset or empty. */
  lemma ClientOriginsMembers(env: Option<string>, t: string)
    ensures t in ClientOrigins(env) <==>
      TrimsTo(Split(if Present(env) then env.value else DefaultClientOrigin, ','), t)
  {
    var parts := Split(if Present(env) then env.value else DefaultClientOrigin, ',');
    assert ClientOrigins(env) == TrimmedParts(parts);
    TrimmedPartsMembers(parts, t);
  }

  /** One part in front is trimmed and kept or dropped on its own. */
  lemma TrimmedPartsFront(x: string, rest: seq<string>)
    ensures TrimmedParts([x] + rest) == (if Trim(x) == "" then [] else [Trim(x)]) + TrimmedParts(rest)
  {
    assert ([x] + rest)[0] == x;
    assert ([x] + rest)[1..] == rest;
  }

  /** Trimming keeps the order of the parts: the parts of a concatenation are those of the
      first list followed by those of the second. */
  lemma {:induction false} TrimmedPartsAppend(a: seq<string>, b: seq<string>)
    ensures TrimmedParts(a + b) == TrimmedParts(a) + TrimmedParts(b)
    decreases |a|
  {
    if |a| == 0 {
      assert a + b == b;
    } else {
      var head: seq<string> := if Trim(a[0]) == "" then [] else [Trim(a[0])];
      assert a == [a[0]] + a[1..];
      assert a + b == [a[0]] + (a[1..] + b);
      TrimmedPartsFront(a[0], a[1..]);
      TrimmedPartsFront(a[0], a[1..] + b);
      TrimmedPartsAppend(a[1..], b);
      ConcatAssoc(head, TrimmedParts(a[1..]), TrimmedParts(b));
    }
  }

  /** Concatenation regrouped; kept apart so that the step does not meet the trimming facts. */
  lemma ConcatAssoc(x: seq<string>, y: seq<string>, z: seq<string>)
    ensures x + (y + z) == (x + y) + z
  {
  }

  /** Any comma-free parts, padded or empty, joined with commas, read back as their trimmed
      non-empty parts in order; an empty variable gives the default origin. */
  lemma ClientOriginsJoin(parts: seq<string>)
    requires |parts| > 0
    requires NoneContain(parts, ',')
    ensures Join(parts, ',') != "" ==> ClientOrigins(Some(Join(parts, ','))) == TrimmedParts(parts)
    ensures Join(parts, ',') == "" ==> ClientOrigins(Some(Join(parts, ','))) == [DefaultClientOrigin]
  {
    SplitJoin(parts, ',');
    UnsetClientOrigins();
  }

  /** With no variable the only origin is the default. */
  lemma UnsetClientOrigins()
    ensures ClientOrigins(None) == [DefaultClientOrigin]
  {
    var d := DefaultClientOrigin;
    assert ',' !in d;
    assert NoEdgeSpace(d) by {
      assert d[0] == 'h' && d[|d| - 1] == '3';
    }
    TrimNoEdgeSpace(d);
    assert TrimmedParts([d]) == [d] + TrimmedParts([]) by {
      assert [d][1..] == [];
    }
  }

  /** No part contains `c`. */
  predicate NoneContain(parts: seq<string>, c: char) {
    forall i | 0 <= i < |parts| :: c !in parts[i]
  }

  /** A character no part contains is in no trimmed part either. */
  lemma {:induction false} TrimmedPartsKeepOut(parts: seq<string>, c: char)
    requires NoneContain(parts, c)
    ensures NoneContain(TrimmedParts(parts), c)
    decreases |parts|
  {
    if |parts| > 0 {
      var t := Trim(parts[0]);
      TrimSurrounds(parts[0]);
      TrimSubstring(parts[0], t);
      var head: seq<string> := if t == "" then [] else [t];
      assert NoneContain(head, c);
      assert NoneContain(parts[1..], c) by {
        assert forall i | 1 <= i < |parts| :: parts[i] == parts[1..][i - 1];
      }
      TrimmedPartsKeepOut(parts[1..], c);
      assert TrimmedParts(parts) == head + TrimmedParts(parts[1..]);
      ConcatNoneContain(head, TrimmedParts(parts[1..]), c);
    }
  }

  lemma ConcatNoneContain(a: seq<string>, b: seq<string>, c: char)
    requires NoneContain(a, c) && NoneContain(b, c)
    ensures NoneContain(a + b, c)
  {
    forall i | 0 <= i < |a + b| ensures c !in (a + b)[i] {
      if i < |a| {
        assert (a + b)[i] == a[i];
      } else {
        assert (a + b)[i] == b[i - |a|];
      }
    }
  }

  /** Trimming only removes characters, so a character absent before is absent after. */
  lemma TrimSubstring(s: string, t: string)
    requires Surrounds(s, t)
    ensures forall c | c in t :: c in s
  {
    var i :| 0 <= i <= |s| - |t| && s[i..i + |t|] == t && AllSpace(s[..i]) && AllSpace(s[i + |t|..]);
    forall c | c in t ensures c in s {
      var k :| 0 <= k < |t| && t[k] == c;
      assert s[i + k] == c;
    }
  }

  /** `clientOrigins[0] || 'http://localhost:5173'`. */
  function PrimaryClientOrigin(env: Option<string>): (r: string)
    ensures r != ""
    ensures |ClientOrigins(env)| > 0 ==> r == ClientOrigins(env)[0]
    ensures |ClientOrigins(env)| == 0 ==> r == DefaultClientOrigin
  {
    var origins := ClientOrigins(env);
    if |origins| > 0 then origins[0] else DefaultClientOrigin
  }

  /** A comma-separated list of clean origins is read back exactly. */
  lemma ClientOriginsRoundTrip(origins: seq<string>)
    requires |origins| > 0
    requires forall i | 0 <= i < |origins| :: origins[i] != "" && NoEdgeSpace(origins[i]) && ',' !in origins[i]
    ensures ClientOrigins(Some(Join(origins, ','))) == origins
    ensures PrimaryClientOrigin(Some(Join(origins, ','))) == origins[0]
  {
    SplitJoin(origins, ',');
    assert AllClean(origins);
    assert Join(origins, ',') != "" by {
      JoinNonEmpty(origins, ',');
    }
    TrimmedPartsClean(origins);
  }

  lemma {:induction false} JoinNonEmpty(parts: seq<string>, sep: char)
    requires |parts| > 0 && parts[0] != ""
    ensures Join(parts, sep) != ""
  {
    if |parts| > 1 {
      assert Join(parts, sep)[0] == parts[0][0];
    }
  }

  /** Every part is non-empty with no white space at either end. */
  predicate AllClean(parts: seq<string>) {
    forall i | 0 <= i < |parts| :: parts[i] != "" && NoEdgeSpace(parts[i])
  }

  lemma {:induction false} TrimmedPartsClean(parts: seq<string>)
    requires AllClean(parts)
    ensures TrimmedParts(parts) == parts
    decreases |parts|
  {
    if |parts| > 0 {
      var head, tail := parts[0], parts[1..];
      assert parts == [head] + tail;
      assert AllClean(tail) by {
        assert forall i | 1 <= i < |parts| :: parts[i] == tail[i - 1];
      }
      TrimmedPartsClean(tail);
      TrimmedPartsCons(head, tail);
    }
  }

  /** A clean first part is kept as it is. */
  lemma TrimmedPartsCons(head: string, tail: seq<string>)
    requires head != "" && NoEdgeSpace(head)
    ensures TrimmedParts([head] + tail) == [head] + TrimmedParts(tail)
  {
    assert Trim(head) == head;
    assert ([head] + tail)[1..] == tail;
  }
}
